=== FILE: README.md ===
# Spree storefront core rules in Dafny

This project models the business rules at the centre of a Spree store. Each
rule is a pure function over immutable records, and money is an integer
number of cents.

- **Return authorizations** (`ReturnAuthorizations`, return_authorization.dfy):
  - claiming and releasing shipped inventory units with `add_variant`;
  - the normalised amount and the credit it gives;
  - the `authorized -> received | canceled` state machine;
  - what `receive` does: it returns the units, restocks, credits the order
    once and moves the order to `returned`.
- **Promotion eligibility**:
  - the `Product` rule's `any` / `all` / `none` policies and its
    `product_ids_string` accessor pair (`ProductRules`, product_rule.dfy);
  - the cart handler that chooses which automatic promotions to activate
    and what their actions create (`CartPromotions`, cart_promotions.dfy).
- **Variant helpers** (`Variants`, variant.dfy):
  - locale price-string cleaning and `cost_price=`;
  - price lookup by currency;
  - option-value replacement;
  - the inventory-tracking flag;
  - `check_price` defaulting;
  - the position of a new variant.
- **Static pages** (`Pages`, page.dfy):
  - the initial position of a page;
  - `link`;
  - slug normalisation;
  - the position shift on save, which keeps positions a permutation;
  - the validations.
- **Stock items** (`StockItems`, stock_item.dfy): the count-on-hand ledger
  and the filling of backorders.
- **Adjustments** (`Adjustments`, adjustment.dfy; `ItemAdjustments`,
  item_adjustments.dfy): `update!` on open and closed adjustments, the choice
  of the best promotion, and the promotion and tax totals of an item.
- **Shipping-rate estimation** (`Estimator`, estimator.dfy): zone, calculator
  and currency filtering, the back-end filter, cheapest selection and sorting.
- **Shipments** (`Shipments`, shipment.dfy):
  - state determination on `update!`;
  - `backordered?`;
  - the cost arithmetic;
  - `update_amounts`;
  - `refresh_rates`.
- **Orders** (`Orders`, order.dfy):
  - `can_ship?`, `checkout_allowed?`, `completed?` and `backordered?`;
  - line lookup, `amount`, adding and `merge!`;
  - `tax_total`;
  - `confirmation_required?`;
  - `finalize!`.
- **Weight splitting** (`WeightSplitter`, weight_splitter.dfy): repeated
  splitting of over-weight packages until nothing changes.

`Common` (common.dfy) holds the shared vocabulary: `Option`, the order
states, Rails' `blank?`, and sums of cents.

Some implementations are not part of this model:
- the stock item, item adjustments, estimator, shipment, order and weight
  splitter classes;
- the promotion class and its `ItemTotal` rule.

Their behaviour is modelled from the behaviour their specs pin down. The
calculators, the weight limit and the eligibility test stay parameters.

## Model

| member | source | states |
|---|---|---|
| Adjustments.Update | spree/core/spec/models/spree/adjustment_spec.rb:72-91 | a closed adjustment, and one without a source, is returned unchanged; an open one with a source takes the amount its calculator computes and, for a promotion, the eligibility its promotion decides now; source, closed flag, label and inclusion never change |
| Adjustments.ClosedIsFrozen | spree/core/spec/models/spree/adjustment_spec.rb:73-80 | once closed, no recomputation with any calculator can change the adjustment or its amount |
| Adjustments.UpdateIdempotent | spree/core/spec/models/spree/adjustment_spec.rb:82-91 | updating twice with the same calculator gives the same adjustment as updating once |
| Adjustments.UpdateAllOfClosed | spree/core/spec/models/spree/adjustment_spec.rb:73-80 | a list of closed adjustments comes through an update with any calculator unchanged, so a finalized list is frozen |
| Adjustments.UpdateAllIdempotent | spree/core/spec/models/spree/adjustment_spec.rb:82-91 | updating a whole list twice with the same calculator gives the list updating it once gives |
| Adjustments.ManualIsKept | spree/core/spec/models/spree/shipment_spec.rb:253-262 | open adjustments without a source keep their own amounts under any calculator, so two manual adjustments of different amounts both survive an update |
| Adjustments.CloseAll | spree/core/spec/models/spree/order_spec.rb:108-119 | every adjustment comes out closed and is otherwise the adjustment it was |
| ReturnAuthorizations.ForcePositive | spree/core/app/models/spree/return_authorization.rb:104-106 | the stored amount is never negative and equals the entered amount up to its sign |
| ReturnAuthorizations.CreditAmount | spree/core/app/models/spree/return_authorization.rb:66-68 | the credit is never positive and equals the amount up to its sign |
| ReturnAuthorizations.CreditAdjustment | spree/core/app/models/spree/return_authorization.rb:94 | the credit is sourced from the authorization, open and not included, and its amount is the credit of the normalised amount, never positive |
| ReturnAuthorizations.AmountNormalisation | spree/core/spec/models/spree/return_authorization_spec.rb:159-165 | normalising is idempotent; the credit is minus the normalised amount whatever sign was entered |
| ReturnAuthorizations.Returnable | spree/core/app/models/spree/return_authorization.rb:61-63 | a unit is returnable exactly when it belongs to the order and lies in a shipped shipment |
| ReturnAuthorizations.InvalidOrderClaimsNothing | spree/core/app/models/spree/return_authorization.rb:33-36 | for an order that fails the shipped-units validation, `add_variant` claims no unit and answers `false` |
| ReturnAuthorizations.Claim | spree/core/app/models/spree/return_authorization.rb:43-50 | only unclaimed shipped units of the variant are claimed, and the claimed count grows by the smaller of the request and the free units; nothing else changes |
| ReturnAuthorizations.Release | spree/core/app/models/spree/return_authorization.rb:51-55 | only units of the variant held by this authorization are released, and the held count drops by the smaller of the surplus and the held units |
| ReturnAuthorizations.AddVariant | spree/core/app/models/spree/return_authorization.rb:33-59 | `false` exactly when nothing has shipped; the held count never exceeds the requested quantity (claimed up to it, or released down to it); only the variant's units change; the order awaits a return exactly when the authorization holds a unit |
| ReturnAuthorizations.AddVariantClaimsShipped | spree/core/app/models/spree/return_authorization.rb:40-50 | every unit the authorization holds afterwards still lies in a shipped shipment |
| ReturnAuthorizations.AddedOrderSettles | spree/core/app/models/spree/return_authorization.rb:40-58 | the order `add_variant` leaves behind is a fixed point of it: a second call with the same arguments claims nothing, releases nothing and leaves the state |
| ReturnAuthorizations.AddVariantIdempotent | spree/core/spec/models/spree/return_authorization_spec.rb:56-70 | repeating `add_variant` with the same arguments leaves the units and the order state as the first call left them |
| ReturnAuthorizations.AuthorizeReturn | spree/core/app/models/spree/return_authorization.rb:58 | the order awaits a return once the authorization holds a unit; otherwise it is untouched; the units never change |
| ReturnAuthorizations.AuthorizeReturnIdempotent | spree/core/app/models/spree/return_authorization.rb:58 | authorizing a return that is already awaited changes nothing |
| ReturnAuthorizations.Cancel | spree/core/app/models/spree/return_authorization.rb:20-22 | cancel succeeds exactly from `authorized`, changing only the state to canceled |
| ReturnAuthorizations.MarkReturned | spree/core/app/models/spree/return_authorization.rb:84-85 | exactly the units the authorization holds become returned; the others are untouched |
| ReturnAuthorizations.Restock | spree/core/app/models/spree/return_authorization.rb:84-92 | no stock item is created or lost; the per-item effect is stated by RestockAdjusts |
| ReturnAuthorizations.RestockAdjusts | spree/core/app/models/spree/return_authorization.rb:84-92 | each stock item at the authorization's location receives one stock movement of +1 per held unit of its variant when the variant and the store track inventory: its count rises by that number and as many waiting backorders are filled; every other item is unchanged |
| ReturnAuthorizations.Receive | spree/core/app/models/spree/return_authorization.rb:83-98 | receive succeeds exactly from `authorized` with at least one held unit; held units become returned, exactly one credit of -abs(amount) is appended, stock is restocked as above, and the order becomes `returned` |
| ReturnAuthorizations.ReceiveCreditsOnce | spree/core/spec/models/spree/return_authorization_spec.rb:100-104 | receiving lowers the order's adjustment total by exactly the authorization's absolute amount |
| ReturnAuthorizations.ReceiveWithoutTrackingKeepsStock | spree/core/spec/models/spree/return_authorization_spec.rb:117-130 | with inventory tracking off in the store, no variant tracks inventory, and receiving leaves every stock item unchanged |
| ReturnAuthorizations.ReceiveFillsBackorder | spree/core/app/models/spree/return_authorization.rb:87-90 | receiving raises a tracked item's count by the units returned to it and fills that many of its earliest backorders |
| ProductRules.Applicable | spree/core/app/models/spree/promotion/rules/product.rb:18-20 | the rule applies to orders and to nothing else |
| ProductRules.Eligible | spree/core/app/models/spree/promotion/rules/product.rb:22-31 | an empty product set passes; `all` iff every rule product is in the order; `any` iff some order product is a rule product; any other policy iff no order product is a rule product |
| ProductRules.NoneIsNotAny | spree/core/app/models/spree/promotion/rules/product.rb:26-29 | for a non-empty rule, `none` is exactly the negation of `any`, and `all` implies `any` |
| ProductRules.MoreProductsMonotone | spree/core/app/models/spree/promotion/rules/product.rb:24-29 | more order products can only turn `any` and `all` eligible and only turn `none` ineligible |
| ProductRules.SplitAll | spree/core/app/models/spree/promotion/rules/product.rb:38 | splitting at every comma yields at least one field, no field holds a comma, and joining the fields gives back the string |
| ProductRules.Strip | spree/core/app/models/spree/promotion/rules/product.rb:38 | the stripped string neither starts nor ends with white space or NUL and holds only characters of the input |
| ProductRules.ParseProductIds | spree/core/app/models/spree/promotion/rules/product.rb:37-39 | the parsed ids contain no comma and no leading white space |
| ProductRules.ProductIdsString | spree/core/app/models/spree/promotion/rules/product.rb:33-35 | a non-empty list of ids without commas joins into a string that splits back at its commas into exactly those ids |
| ProductRules.ProductIdsRoundTrip | spree/core/app/models/spree/promotion/rules/product.rb:33-39 | the setter reads back exactly the ids the getter wrote, for non-empty ids with no comma and no surrounding white space |
| CartPromotions.Candidates | spree/core/app/models/spree/promotion_handler/cart.rb:33-35 | the candidates are exactly the active promotions with neither a code nor a path |
| CartPromotions.Activate | spree/core/app/models/spree/promotion_handler/cart.rb:23-29 | a promotion is activated iff it is a candidate and (a line item is given and it is eligible for it, or it is eligible for the order); each activation carries both the line item and the order |
| CartPromotions.NoLineItemOrderOnly | spree/core/app/models/spree/promotion_handler/cart.rb:19-25 | without a line item, two eligibility tests that agree on orders activate the same promotions |
| CartPromotions.LineItemOnlyAdds | spree/core/app/models/spree/promotion_handler/cart.rb:25 | a candidate eligible for the order is activated whether or not a line item is given |
| CartPromotions.CodedPromotionNotActivated | spree/core/app/models/spree/promotion_handler/cart.rb:34 | a promotion with a code is never activated by the cart, whatever its eligibility |
| CartPromotions.PromotionEligible | spree/core/spec/models/spree/promotion_handler/cart_spec.rb:30-47 | only rules applicable to the target decide; with none applicable the promotion is eligible; otherwise under match-all it is eligible iff every applicable rule passes, and under match-any iff some applicable rule passes |
| CartPromotions.OrderRulesIgnoreLineItems | spree/core/spec/models/spree/promotion_handler/cart_spec.rb:30-34 | order-level rules never make a promotion ineligible for a line item |
| CartPromotions.AddCredit | spree/core/spec/models/spree/promotion_handler/cart_spec.rb:18-67 | an action leaves exactly one credit per promotion on the adjustable, appending it only when missing and only for a non-zero amount; a zero amount leaves the adjustments unchanged |
| CartPromotions.Perform | spree/core/spec/models/spree/promotion_handler/cart_spec.rb:14-84 | an item-level action credits every line item with a non-zero amount, leaves zero-amount lines and the order's adjustments alone; an order-level action credits the order when its amount is non-zero, leaves it unchanged otherwise, and never touches the line items |
| CartPromotions.PerformIdempotent | spree/core/spec/models/spree/promotion_handler/cart_spec.rb:18-24 | performing an action twice is performing it once |
| CartPromotions.PerformAll | spree/core/app/models/spree/promotion_handler/cart.rb:27 | activating a promotion removes no adjustment and leaves the credit of every one of its actions wherever the amount is non-zero |
| CartPromotions.ActivateCart | spree/core/app/models/spree/promotion_handler/cart.rb:23-29 | no adjustment is removed, and every candidate promotion eligible for the line item or the order leaves a credit for each of its actions: on the order for an order action with a non-zero amount, on every line item with a non-zero amount for an item action; when promotion ids are distinct, a promotion that is not a triggered candidate keeps exactly the credits it had, on the order and on every line item |
| CartPromotions.ActivationsSpare | spree/core/app/models/spree/promotion_handler/cart.rb:23-29 | with distinct promotion ids, applying the activations leaves the credits of every promotion that is not a triggered candidate as they were |
| CartPromotions.PerformSpares | spree/core/app/models/spree/promotion_handler/cart.rb:26 | an action of one promotion leaves the credits of every other promotion as they were, on the order and on every line item |
| CartPromotions.ItemLevelScenarios | spree/core/spec/models/spree/promotion_handler/cart_spec.rb:14-48 | a rule-less item-level promotion, one with `ItemTotal gt 50` on an item total of 100, and one with a product rule naming the line item's product each add exactly one adjustment to the line item when the amount is non-zero, none when it is zero |
| CartPromotions.OrderLevelScenarios | spree/core/spec/models/spree/promotion_handler/cart_spec.rb:50-84 | with an order-level action, each example adds exactly one adjustment to the order when the amount is non-zero, none when it is zero |
| CartPromotions.ZeroAmountsAddNothing | spree/core/spec/models/spree/promotion_handler/cart_spec.rb:62-67 | when the calculators compute nothing to discount on the order or any line item, activating the cart leaves the order exactly as it was, whatever promotions are triggered |
| Variants.KeepPriceChars | spree/core/app/models/spree/variant.rb:184-185 | only digits, `-` and the separator survive, and a string made only of those is kept whole |
| Variants.KeepPriceCharsFilter | spree/core/app/models/spree/variant.rb:184-185 | the kept characters are exactly the digits, `-` and separators of the input, in order: keeping distributes over concatenation and keeps a single character iff it is one of those |
| Variants.ReplaceSeparator | spree/core/app/models/spree/variant.rb:186 | each separator becomes `.` and every other character stays in place |
| Variants.CleanPrice | spree/core/app/models/spree/variant.rb:183-186 | the cleaned string holds only digits, `-` and `.` |
| Variants.ParsePrice | spree/core/app/models/spree/variant.rb:180-189 | a non-string is returned unchanged; a string is cleaned |
| Variants.CleanPriceKeepsDigits | spree/core/app/models/spree/variant.rb:184-186 | cleaning keeps every digit, in order |
| Variants.CleanPriceIdempotent | spree/core/app/models/spree/variant.rb:184-186 | a cleaned price is a fixed point of cleaning |
| Variants.CleanPriceByChar | spree/core/app/models/spree/variant.rb:183-186 | cleaning works character by character, in order: the separator becomes `.`, a digit or `-` stays, and anything else is dropped |
| Variants.AssignCostPrice | spree/core/app/models/spree/variant.rb:59-61 | blank input leaves the variant unchanged; present input stores the parsed price and nothing else |
| Variants.BlankCostIgnored | spree/core/app/models/spree/variant.rb:59-61 | any sequence of blank assignments leaves the variant as it was |
| Variants.PriceIn | spree/core/app/models/spree/variant.rb:142-144 | the result has the requested currency; it is the first stored price in that currency, or a new price without an amount when there is none |
| Variants.FirstPriceIn | spree/core/app/models/spree/variant.rb:142-144 | the first stored price in the currency, or a new amount-less price of that currency when none is stored |
| Variants.AmountIn | spree/core/app/models/spree/variant.rb:146-148 | absent when no price has the currency; otherwise exactly the amount of the first stored price in that currency |
| Variants.AmountInFirstMatch | spree/core/app/models/spree/variant.rb:142-148 | a price placed first decides the amount in its own currency and changes the amount in no other currency |
| Variants.SetOptionValue | spree/core/app/models/spree/variant.rb:104-132 | no-op on the master; otherwise the requested value is present afterwards, values of other option types are kept, no foreign value appears, and at most one value per type is preserved; the product's option types gain only the requested one, and only when the variant had no value of that type; a variant already holding the requested value, with at most one value per type, comes back unchanged together with the product's option types |
| Variants.SetOptionValueIdempotent | spree/core/app/models/spree/variant.rb:113-116 | setting the same option value a second time changes nothing |
| Variants.CheckPrice | spree/core/app/models/spree/variant.rb:199-208 | fails exactly when a master price is required, the variant has no price and there is no master or it is the master; otherwise it takes the master's price when required and the store currency when it has none |
| Variants.CheckPriceIdempotent | spree/core/app/models/spree/variant.rb:199-208 | checking a checked variant again changes nothing |
| Variants.NewPosition | spree/core/app/models/spree/variant.rb:224-226 | the new position exceeds every sibling position and is one past the largest, or 1 without siblings |
| Pages.InitialPosition | spree_static_content/app/models/spree/page.rb:18-23 | 0 without pages; otherwise one past the last page's position |
| Pages.Link | spree_static_content/app/models/spree/page.rb:25-27 | the foreign link when it is not blank, otherwise the slug |
| Pages.NormalizeSlug | spree_static_content/app/models/spree/page.rb:33 | without a foreign link the slug starts with `/`, having gained at most that one character; with one it is untouched |
| Pages.NormalizeSlugIdempotent | spree_static_content/app/models/spree/page.rb:33 | normalising twice is normalising once |
| Pages.NormalizeSlugKeepsRooted | spree_static_content/app/models/spree/page.rb:33 | a slug already starting with `/` is kept |
| Pages.SavedPageLinksToPath | spree_static_content/app/models/spree/page.rb:25-33 | a saved page without a foreign link links to a path starting with `/` |
| Pages.Shifted | spree_static_content/app/models/spree/page.rb:37-41 | moving up shifts exactly the positions in [new, prev) up by one; moving down shifts exactly those in (prev, new] down by one; all others stay |
| Pages.Reposition | spree_static_content/app/models/spree/page.rb:35-42 | the moved page takes its new position, every other page is shifted as above, and no page appears or disappears |
| Pages.RepositionKeepsPermutation | spree_static_content/app/models/spree/page.rb:35-42 | moving a page to a valid position keeps the positions exactly 0..n-1, one per page |
| Pages.RepositionKeepsOrder | spree_static_content/app/models/spree/page.rb:37-41 | the pages that are not moved keep their relative order |
| Pages.RepositionSamePlace | spree_static_content/app/models/spree/page.rb:37-41 | saving a page at its old position moves nothing |
| Pages.Validate | spree_static_content/app/models/spree/page.rb:4-9 | title always required; slug and body required and slug unique only without a foreign link; layout required for a partial; a non-blank foreign link must be unique |
| Pages.ForeignLinkPageNeedsNoSlug | spree_static_content/app/models/spree/page.rb:5 | a titled page with a foreign link is valid with neither slug nor body |
| StockItems.ProcessBackorders | spree/core/spec/models/spree/stock_item_spec.rb:71-106 | a positive change fills the earliest backordered units, as many as the change allows; a non-positive one fills none; no unit is lost |
| StockItems.Adjust | spree/core/spec/models/spree/stock_item_spec.rb:57-106 | the count rises by exactly the adjustment; a rise fills backorders up to its size; a drop fills none |
| StockItems.Set | spree/core/spec/models/spree/stock_item_spec.rb:110-145 | the count becomes exactly the value; only a rise fills backorders |
| StockItems.SetIsAdjust | spree/core/spec/models/spree/stock_item_spec.rb:110-145 | setting the count to count + n is adjusting it by n |
| StockItems.AdjustComposes | spree/core/spec/models/spree/stock_item_spec.rb:57-69 | two non-negative adjustments compose to one adjustment by their sum, filling the same backorders, so no update is lost |
| StockItems.ProcessComposes | spree/core/spec/models/spree/stock_item_spec.rb:74-108 | filling `a` and then `b` waiting backorders fills the same units in the same order as filling `a + b` at once, and leaves the same queue |
| StockItems.ReduceToZero | spree/core/spec/models/spree/stock_item_spec.rb:36-55 | a positive count becomes 0; a non-positive one is left alone; no backorder is filled |
| StockItems.ReduceToZeroIdempotent | spree/core/spec/models/spree/stock_item_spec.rb:36-55 | reducing twice is reducing once |
| StockItems.AvailabilityAfterAdjust | spree/core/spec/models/spree/stock_item_spec.rb:16-34 | a rise never makes an available item unavailable; a non-backorderable item is available iff its new count is positive |
| StockItems.BackorderScenarios | spree/core/spec/models/spree/stock_item_spec.rb:71-145 | from -2 with two backorders: +1 fills one, -1 fills none, +3 fills both, and setting 1 fills both |
| ItemAdjustments.Best | spree/core/spec/models/spree/item_adjustments_spec.rb:85-116 | the chosen adjustment is an eligible promotion whose discount is at least every other eligible one's; there is none exactly when no promotion is eligible |
| ItemAdjustments.ChooseBest | spree/core/spec/models/spree/item_adjustments_spec.rb:100-116 | only eligibility changes, non-promotions are untouched, and with a best one it is exactly the one left eligible |
| ItemAdjustments.ChooseBestLeavesOne | spree/core/spec/models/spree/item_adjustments_spec.rb:100-116 | when some promotion is eligible, exactly one stays eligible, with the largest discount |
| ItemAdjustments.ChooseBestIdempotent | spree/core/spec/models/spree/item_adjustments_spec.rb:118-178 | choosing again changes nothing |
| ItemAdjustments.PromotionPhase | spree/core/spec/models/spree/item_adjustments_spec.rb:23-43 | the promotion total is the best eligible amount, or 0 without one; non-promotions and closed amounts are untouched; each open promotion takes its calculator's amount |
| ItemAdjustments.UpdatePromotions | spree/core/spec/models/spree/item_adjustments_spec.rb:117-152 | each open promotion takes its calculator's amount and competes exactly when its promotion is eligible now; closed ones and non-promotions are untouched |
| ItemAdjustments.NewlyEligibleCompetes | spree/core/spec/models/spree/item_adjustments_spec.rb:117-152 | the promotion total is at most the amount of every open promotion that is eligible now, however it stood before |
| ItemAdjustments.TaxPhase | spree/core/spec/models/spree/item_adjustments_spec.rb:23-43 | only tax amounts change, closed ones never, each open tax takes its calculator's amount, and eligibility is unchanged |
| ItemAdjustments.PhasesRecompute | spree/core/spec/models/spree/item_adjustments_spec.rb:10-21 | after both phases each open promotion holds its calculator's amount and each open tax the amount its calculator gives on the phase's promotion total, which is no larger than any open promotion eligible now |
| ItemAdjustments.UpdateAdjustments | spree/core/spec/models/spree/item_adjustments_spec.rb:23-82 | the promotion total is the amount of a competing adjustment no larger than any other, or 0 with none, and no larger than any open promotion eligible now; included taxes go to the included total and additional taxes to the additional total; the adjustment total is promotions plus additional tax only; closed amounts never move; each open promotion ends with its calculator's amount and each open tax with the amount its calculator gives on the new promotion total |
| ItemAdjustments.BestOfThree | spree/core/spec/models/spree/item_adjustments_spec.rb:100-116 | among -1.00, -2.00 and -3.00 only -3.00 stays eligible, and the other credit is untouched |
| ItemAdjustments.TieLeavesOne | spree/core/spec/models/spree/item_adjustments_spec.rb:196-205 | two promotions tied for best leave exactly one eligible, with the best amount |
| ItemAdjustments.BestIneligibleKeepsPrevious | spree/core/spec/models/spree/item_adjustments_spec.rb:180-194 | an ineligible larger promotion does not displace the eligible -1.00 one |
| ItemAdjustments.TaxAndPromotionScenarios | spree/core/spec/models/spree/item_adjustments_spec.rb:44-82 | $10 off and 5% tax on a $20 item: included tax gives totals (-10, 0.50 included, 0, -10); additional tax gives (-10, 0, 0.50, -9.50) |
| ItemAdjustments.TaxScenario | spree/core/spec/models/spree/item_adjustments_spec.rb:44-82 | the same example, with the tax included or not as a parameter |
| ItemAdjustments.PhaseScenario | spree/core/spec/models/spree/item_adjustments_spec.rb:23-43 | the promotion phase of that example yields a promotion total of -10 and leaves the tax alone |
| ItemAdjustments.PreviouslyIneligibleBecomesBest | spree/core/spec/models/spree/item_adjustments_spec.rb:128-150 | -5.00 is chosen while only it is eligible; once the -10.00 promotion becomes eligible too, it is the single eligible one and the total is -10.00 |
| Estimator.TaxRateFor | spree/core/spec/models/spree/stock/estimator_spec.rb:110-127 | the linked tax rate is the first, in rate order, with the method's tax category and the order's tax zone; with none linked, no rate matches |
| Estimator.FrontendRates | spree/core/spec/models/spree/stock/estimator_spec.rb:23-55 | a rate is produced exactly for a front-end method that serves the address, has an available calculator in a fitting currency and has a cost; none is selected |
| Estimator.Logged | spree/core/spec/models/spree/stock/estimator_spec.rb:51-55 | exactly the reached methods whose calculator raised are logged |
| Estimator.Cheapest | spree/core/spec/models/spree/stock/estimator_spec.rb:68-78 | the first rate whose cost is no more than any other's |
| Estimator.ChooseDefault | spree/core/spec/models/spree/stock/estimator_spec.rb:68-78 | exactly the cheapest rate is selected and nothing else changes |
| Estimator.SortByCost | spree/core/spec/models/spree/stock/estimator_spec.rb:57-66 | the output is sorted by cost, a permutation of the input, with the same selected count |
| Estimator.ChooseDefaultSelectsOne | spree/core/spec/models/spree/stock/estimator_spec.rb:68-78 | exactly one rate is selected whenever there is a rate |
| Estimator.DefaultThenSortMembers | spree/core/spec/models/spree/stock/estimator_spec.rb:57-78 | choosing and sorting lose and invent no rate, up to the selected flag |
| Estimator.DefaultThenSortCheapest | spree/core/spec/models/spree/stock/estimator_spec.rb:68-78 | after choosing and sorting, the selected rate costs no more than any other |
| Estimator.ShippingRates | spree/core/spec/models/spree/stock/estimator_spec.rb:12-127 | the rates are sorted by cost; exactly one is selected when there are any, and it is a cheapest; the rates are exactly those offered by qualifying front-end methods with a cost; raising methods are logged and never propagate |
| Estimator.SelectedComesFirst | spree/core/spec/models/spree/stock/estimator_spec.rb:57-78 | the selected rate costs the same as the first rate |
| Estimator.OtherZoneScenario | spree/core/spec/models/spree/stock/estimator_spec.rb:28-32 | a method outside the address's zones gives no rate |
| Estimator.UnavailableScenario | spree/core/spec/models/spree/stock/estimator_spec.rb:34-38 | an unavailable calculator gives no rate |
| Estimator.OtherCurrencyScenario | spree/core/spec/models/spree/stock/estimator_spec.rb:45-49 | a calculator in another currency gives no rate |
| Estimator.RaisingScenario | spree/core/spec/models/spree/stock/estimator_spec.rb:51-55 | a raising calculator gives no rate and is logged |
| Estimator.SortedSelectionScenario | spree/core/spec/models/spree/stock/estimator_spec.rb:57-78 | costs 5, 3, 4 come back as 3, 4, 5 with the 3 selected |
| Estimator.NilCostScenario | spree/core/spec/models/spree/stock/estimator_spec.rb:80-87 | a nil cost is skipped and the priced method is selected |
| Estimator.BackendOnlyScenario | spree/core/spec/models/spree/stock/estimator_spec.rb:90-108 | a cheaper back-end-only method is neither returned nor selected |
| Estimator.TaxRateLinked | spree/core/spec/models/spree/stock/estimator_spec.rb:110-127 | the rate carries the tax rate of its method's category in the order's tax zone |
| Shipments.AnyBackordered | spree/core/spec/models/spree/shipment_spec.rb:38-44 | backordered iff some inventory unit is backordered |
| Shipments.DetermineState | spree/core/spec/models/spree/shipment_spec.rb:182-237 | canceled iff the order is; ready iff the order can ship, nothing is backordered, the shipment has not shipped and the order is paid; shipped iff it was shipped and the order can ship with nothing backordered |
| Shipments.UpdateState | spree/core/spec/models/spree/shipment_spec.rb:182-237 | only the state changes, to the determined one |
| Shipments.UpdateStateIdempotent | spree/core/spec/models/spree/shipment_spec.rb:182-237 | updating against the same order twice is updating once |
| Shipments.UpdateScenarios | spree/core/spec/models/spree/shipment_spec.rb:182-237 | shipped stays shipped; a backordered unit or an order that cannot ship gives pending; paid (or credit owed) gives ready; a balance due turns ready back to pending |
| Shipments.ReadyOnlyWhenPaid | spree/core/spec/models/spree/shipment_spec.rb:408-414 | a shipment updates to ready only when it could be readied, which needs a paid order |
| Shipments.PriceScenarios | spree/core/spec/models/spree/shipment_spec.rb:72-99 | cost 10 with promotion -1 is discounted to 9; either tax alone is the tax total; cost 10, promotion -2 and included tax 1 give a final price of 9 |
| Shipments.FinalPriceLinear | spree/core/spec/models/spree/shipment_spec.rb:72-99 | example-level check of the price formula: the final price moves one for one with the cost, the promotion total and each tax total (the formula's partner over real updates is `PricesOfUpdatedTotals`) |
| Shipments.PricesOfUpdatedTotals | spree/core/spec/models/spree/shipment_spec.rb:72-99 | with totals from `update_adjustments`, the final price is the cost plus the adjustment total plus the included tax; the discounted cost is at most the cost plus any competing promotion, and the cost itself with none |
| Shipments.SelectedRate | spree/core/spec/models/spree/shipment_spec.rb:129-133 | the first selected rate, or none exactly when no rate is selected |
| Shipments.ShippingMethodOf | spree/core/spec/models/spree/shipment_spec.rb:129-133 | the shipment's method is the selected rate's method, present exactly when a rate is selected |
| Shipments.UpdateAmounts | spree/core/spec/models/spree/shipment_spec.rb:416-447 | with a selected rate the cost is that rate's cost; included adjustments are kept untouched; each additional (non-included) adjustment is updated, closed and source-less ones keeping their amounts; the adjustment total is the sum of the additional ones only; without a selected rate nothing changes |
| Shipments.UpdateAmountsIdempotent | spree/core/spec/models/spree/shipment_spec.rb:416-447 | updating the amounts twice with the same calculators is updating once |
| Shipments.UpdateAmountsKeepsFrozen | spree/core/spec/models/spree/shipment_spec.rb:253-262 | when every additional adjustment is closed or has no source, the adjustments come through untouched and the total is their sum |
| Shipments.UpdateAmountsScenarios | spree/core/spec/models/spree/shipment_spec.rb:416-447 | the cost becomes 5; a closed additional adjustment of 5 counts toward the total, an included one does not, and an open manual adjustment of 5 without a source keeps its 5 |
| Shipments.Reselect | spree/core/spec/models/spree/shipment_spec.rb:139-145 | the first rate of the method becomes the only selected rate; without such a rate nothing changes |
| Shipments.RefreshRates | spree/core/spec/models/spree/shipment_spec.rb:135-163 | a shipped shipment keeps and returns its rates; without a ship address none are returned; otherwise the new rates replace the old |
| Shipments.RefreshSelectsOne | spree/core/spec/models/spree/shipment_spec.rb:147-152 | after a refresh the rates are the estimator's, up to selection, and one is selected whenever any exists |
| Shipments.RerateSelectsOne | spree/core/spec/models/spree/shipment_spec.rb:139-152 | re-selecting the previous method among rates with one selected keeps the rates up to selection and leaves a selected rate |
| Shipments.ReselectSelectsMethod | spree/core/spec/models/spree/shipment_spec.rb:139-145 | reselecting a method present among the rates makes it the shipment's method |
| Shipments.RefreshKeepsMethod | spree/core/spec/models/spree/shipment_spec.rb:139-145 | a previously chosen method that the estimator offers again stays the shipment's method |
| Orders.CanShipStates | spree/core/spec/models/spree/order_spec.rb:539-566 | the spec's cases of the predicate, state by state: an order can ship exactly in complete, resumed, awaiting-return and returned |
| Orders.FinalizeShipsOnlyWhenCanShip | spree/core/spec/models/spree/order_spec.rb:72-81 | finalizing makes a shipment ready exactly when the order can ship, is paid, and the shipment has not shipped and waits on no backorder; an order that cannot ship and is not canceled leaves every shipment pending |
| Orders.FinalizeBackordered | spree/core/spec/models/spree/order_spec.rb:568-605 | a finalized order is completed, backordered exactly when it was before, and then holds a shipment that is not ready |
| Orders.OrderPredicateScenarios | spree/core/spec/models/spree/order_spec.rb:568-607 | a backordered shipment makes the order backordered; no lines forbid checkout and an added line allows it; a finalized order is completed |
| Orders.TaxTotalScenario | spree/core/spec/models/spree/order_spec.rb:624-630 | additional 10 and included 20 make a tax total of 30 |
| Orders.FindLineItem | spree/core/spec/models/spree/order_spec.rb:470-473 | the first line of the variant, or none exactly when no line carries it |
| Orders.QuantityOf | spree/core/spec/models/spree/order_spec.rb:463-468 | the quantity on the variant's line, or 0 when the order does not contain it |
| Orders.ContainsAgreesWithLines | spree/core/spec/models/spree/order_spec.rb:459-473 | with one line per variant, a line of the variant means it is contained, with that line's quantity |
| Orders.LookupScenario | spree/core/spec/models/spree/order_spec.rb:459-473 | variant 1 is contained with quantity 1; an absent variant has quantity 0 |
| Orders.AmountScenario | spree/core/spec/models/spree/order_spec.rb:589-598 | lines of 1.00 x 2 and 1.00 x 1 amount to 3.00 |
| Orders.AmountUpdate | spree/core/spec/models/spree/order_spec.rb:589-598 | changing one line changes the amount by the difference of the two line amounts |
| Orders.AmountAdd | spree/core/spec/models/spree/order_spec.rb:589-598 | adding q units raises the amount by q times the unit price of the variant's line, or of the new line |
| Orders.Add | spree/core/spec/models/spree/order_spec.rb:239-253 | the quantity goes onto the variant's existing line, or a new line is appended |
| Orders.AddQuantity | spree/core/spec/models/spree/order_spec.rb:239-253 | adding raises that variant's quantity by the amount added and leaves every other variant's quantity |
| Orders.AddKeepsUnique | spree/core/spec/models/spree/order_spec.rb:239-253 | adding keeps one line per variant |
| Orders.MergeQuantity | spree/core/spec/models/spree/order_spec.rb:239-275 | after a merge each variant's quantity is its own plus all of its quantity in the other order |
| Orders.MergeKeepsUnique | spree/core/spec/models/spree/order_spec.rb:239-275 | a merge keeps one line per variant |
| Orders.Merge | spree/core/spec/models/spree/order_spec.rb:239-275 | the merged lines keep the order's lines in place and gain at most one line per line of the other order |
| Orders.CheckoutAfterMerge | spree/core/spec/models/spree/order_spec.rb:577-586 | after a merge, checkout is allowed exactly when either order had a line |
| Orders.MergeScenarios | spree/core/spec/models/spree/order_spec.rb:239-275 | the same variant merges into one line of quantity 2; different variants stay two lines with item count 2 and the summed amount |
| Orders.ConfirmationScenarios | spree/core/spec/models/spree/order_spec.rb:278-313 | a new order needs no confirmation unless the store always includes the step; an order in confirm needs one |
| Orders.ConfirmationRequiredCases | spree/core/spec/models/spree/order_spec.rb:278-313 | the spec's cases of the predicate: either store setting forces the confirm step in any state; with neither, exactly an order in confirm requires it |
| Orders.Finalize | spree/core/spec/models/spree/order_spec.rb:45-141 | sets the completion time, closes every adjustment of the order and of its shipments, marks the confirmation delivered and sends it iff it was not delivered before, and holds a risky order unless approved |
| Orders.FinalizeOnce | spree/core/spec/models/spree/order_spec.rb:96-119 | a second finalize sends no confirmation, and no recomputation moves an adjustment it closed on the order or its shipments |
| Orders.FinalizeKeepsTotals | spree/core/spec/models/spree/order_spec.rb:108-119 | finalizing changes neither the line items, the amount, the item count nor the tax total |
| Orders.FinalizeScenarios | spree/core/spec/models/spree/order_spec.rb:121-141 | an unrisky order stays complete; a risky one is held; an approved risky one stays complete |
| Orders.FinalizeReadiesShipments | spree/core/spec/models/spree/order_spec.rb:72-81 | on a paid complete order, a shipment that has not shipped and has nothing backordered becomes ready |
| WeightSplitter.Reduce | spree/core/spec/models/spree/stock/splitter/weight_spec.rb:13-31 | the removed front and the kept rest make up the package; the kept part conforms and is never empty for a non-empty package; nothing is removed iff the package already conforms |
| WeightSplitter.WeightAppend | spree/core/spec/models/spree/stock/splitter/weight_spec.rb:13-31 | two packages put together weigh the sum of their weights |
| WeightSplitter.ReduceStopsFirst | spree/core/spec/models/spree/stock/splitter/weight_spec.rb:13-31 | removal stops at the first conforming suffix: no package left after removing fewer contents conforms |
| WeightSplitter.ReduceKeepsWeight | spree/core/spec/models/spree/stock/splitter/weight_spec.rb:13-31 | the kept and removed parts of a reduced package weigh what the package did |
| WeightSplitter.Pass | spree/core/spec/models/spree/stock/splitter/weight_spec.rb:13-31 | every package is reduced in place to a conforming one, and every generated package is non-empty |
| WeightSplitter.PassContents | spree/core/spec/models/spree/stock/splitter/weight_spec.rb:13-31 | a pass loses and invents no content |
| WeightSplitter.Split | spree/core/spec/models/spree/stock/splitter/weight_spec.rb:13-31 | every output package is under the limit or holds a single content, and the contents are exactly the input's |
| WeightSplitter.SplitFixed | spree/core/spec/models/spree/stock/splitter/weight_spec.rb:23-31 | packages that all conform, including a single over-limit content, are returned unchanged |
| WeightSplitter.SplitNonEmpty | spree/core/spec/models/spree/stock/splitter/weight_spec.rb:13-31 | splitting non-empty packages yields only non-empty packages |
| WeightSplitter.SplitCountBound | spree/core/spec/models/spree/stock/splitter/weight_spec.rb:13-31 | without empty input packages, there are never more output packages than contents |
| WeightSplitter.SplitIdempotent | spree/core/spec/models/spree/stock/splitter/weight_spec.rb:13-31 | splitting the result again changes nothing |
| WeightSplitter.FourLightContents | spree/core/spec/models/spree/stock/splitter/weight_spec.rb:13-21 | four one-unit contents of weight 100, under a limit of at least 100 and below 200, become four packages |
| WeightSplitter.TwoHeavyContents | spree/core/spec/models/spree/stock/splitter/weight_spec.rb:23-31 | two 4-unit contents of weight 200, under any limit below 800, become exactly two one-content packages |

## Left out

- Persistence, callbacks and I/O. This covers ActiveRecord queries and saves, `update_all`, soft deletion, caching, mailers and emails, and logging. Logging is modelled as the list of logged method ids.
- Row-level locking of stock counts. Only the sequential, additive effect of adjustments is modelled.
- Random number generation: RMA, order and shipment numbers, and guest tokens.
- Money display and locale formatting. `to_d` decimal conversion is left out, and tax rounding is left abstract.
- Calculators, the tax-rate computation, the promotion eligibility test and the weight limit. They are parameters, because their implementations are not part of this model.
- The promotion action classes (`create_adjustment.rb`, `create_item_adjustments.rb`) are not part of this model. `CartPromotions.AddCredit` follows what the cart specs rely on: an action appends nothing when a credit from its promotion is already there, or when its calculator computes a zero amount.
- `Order#update!` totals recomputation after a return is received, the order state machine's transition guards, `can_cancel?`, `ship!`, `cancel` and `resume` of shipments, and stock-packer internals. None of them are among the rules modelled here.
- Variant `deleted?`, `currency`, `display_amount`, `options_text`, stock queries and `tax_category` are not modelled beyond the `Deleted` predicate.
- Estimator.SortByCost: the sort is stable. Ruby's `sort_by!` is not guaranteed stable, so the order among equally priced rates is a modelling choice.
- ItemAdjustments.Best: among promotions tied for the best amount, the one with the highest id is kept. The specs only pin that exactly one stays eligible.
- Shipments.DetermineState: the order of the guards (canceled, cannot ship, backordered, shipped, paid) follows the behaviour the specs pin down. The shipment class is not part of this model, so the relative order of guards that no spec separates is a modelling choice.
- Orders.ConfirmationRequired: whether the order's payments need confirmation is a parameter, because the payment methods are not part of this model. The checkout state machine that consults the predicate (the confirm step) is not part of this model either, so the predicate is stated only by its cases.
- StockItems.Set: an increase made by setting the count fills backorders, as stock_item_spec.rb:124-145 pins.
- ReturnAuthorizations.Receive: the order becomes `returned` every time. `process_return` checks the authorization's own units, and it has just marked all of them returned.
- Orders.Finalize: line items carry no adjustments in this model, so only the order's and the shipments' adjustments are closed. The shipment's own `finalize!` (selling its inventory units and decreasing stock, order_spec.rb:57-70) is not modelled.
- Common.IsSpace: `blank?` is modelled on ASCII white space (space, tab, newline, vertical tab, form feed, carriage return). Rails also counts Unicode spaces such as U+00A0 and U+3000 as blank; the model does not.
- ReturnAuthorizations.AddVariant: `add_variant` raises when units must be claimed for a variant that has no shipped unit. This is modelled as the `VariantNotReturnable` outcome.

=== FILE: adjustment.dfy ===
/** Adjustments: monetary deltas (promotion, tax, return credit) attached to a
    line item, a shipment or an order. An adjustment is `open` until it is
    closed; a closed adjustment keeps its amount for good. */
module Adjustments {
  import opened Common

  /** What produced an adjustment; `compute_amount` is asked of the source. */
  datatype Source =
    | NoSource
    | PromotionAction(promotion: nat)
    | TaxRate(rate: nat)
    | ReturnCredit(rma: nat)

  datatype Adjustment = Adjustment(
    id: nat,
    labelText: string,
    source: Source,
    amount: int,
    eligible: bool,
    closed: bool,
    included: bool)

  predicate IsPromotion(a: Adjustment) { a.source.PromotionAction? }

  predicate IsTax(a: Adjustment) { a.source.TaxRate? }

  /** `Adjustment#update!`: a closed adjustment, or one without a source
      (a manual adjustment), is left alone; an open one with a source takes
      the amount its source computes for the adjustable, and a promotion
      adjustment also takes the promotion's current eligibility. The
      calculator and the eligibility test are the parameters `compute` and
      `eligibleFor`. */
  function Update(a: Adjustment, compute: Source -> int, eligibleFor: Source -> bool): (r: Adjustment)
    ensures r.source == a.source && r.closed == a.closed
    ensures r.included == a.included && r.id == a.id && r.labelText == a.labelText
    ensures a.closed || a.source.NoSource? ==> r == a
    ensures !a.closed && !a.source.NoSource? ==> r.amount == compute(a.source)
    ensures !a.closed && IsPromotion(a) ==> r.eligible == eligibleFor(a.source)
    ensures !IsPromotion(a) ==> r.eligible == a.eligible
  {
    if a.closed || a.source.NoSource? then a
    else
      var eligible := if IsPromotion(a) then eligibleFor(a.source) else a.eligible;
      a.(amount := compute(a.source), eligible := eligible)
  }

  /** `close`: freeze the adjustment. */
  function Close(a: Adjustment): Adjustment {
    a.(closed := true)
  }

  /** Once closed, no later recomputation can move the amount or the
      eligibility, whatever the calculator says. */
  lemma ClosedIsFrozen(a: Adjustment, compute: Source -> int, eligibleFor: Source -> bool)
    ensures Update(Close(a), compute, eligibleFor) == Close(a)
    ensures Update(Close(a), compute, eligibleFor).amount == a.amount
  {
  }

  /** A manual adjustment (one without a source) keeps the amount it was
      given, open or closed: two manual adjustments of different amounts
      both survive an update. */
  lemma ManualIsKept(a: Adjustment, b: Adjustment, compute: Source -> int, eligibleFor: Source -> bool)
    requires a.source.NoSource? && b.source.NoSource?
    ensures Update(a, compute, eligibleFor).amount == a.amount
    ensures Update(b, compute, eligibleFor).amount == b.amount
  {
  }

  /** Updating twice with the same calculator is updating once. */
  lemma UpdateIdempotent(a: Adjustment, compute: Source -> int, eligibleFor: Source -> bool)
    ensures Update(Update(a, compute, eligibleFor), compute, eligibleFor) == Update(a, compute, eligibleFor)
  {
  }

  function UpdateAll(adjs: seq<Adjustment>, compute: Source -> int, eligibleFor: Source -> bool): (r: seq<Adjustment>)
    ensures |r| == |adjs|
    ensures forall i :: 0 <= i < |r| ==> r[i] == Update(adjs[i], compute, eligibleFor)
  {
    seq(|adjs|, i requires 0 <= i < |adjs| => Update(adjs[i], compute, eligibleFor))
  }

  function CloseAll(adjs: seq<Adjustment>): (r: seq<Adjustment>)
    ensures |r| == |adjs|
    ensures forall i :: 0 <= i < |r| ==> r[i].closed && r[i] == adjs[i].(closed := true)
  {
    seq(|adjs|, i requires 0 <= i < |adjs| => Close(adjs[i]))
  }

  /** A finalized list is frozen: updating closed adjustments, with any
      calculator, gives back the same list. */
  lemma UpdateAllOfClosed(adjs: seq<Adjustment>, compute: Source -> int, eligibleFor: Source -> bool)
    ensures UpdateAll(CloseAll(adjs), compute, eligibleFor) == CloseAll(adjs)
  {
    var closed := CloseAll(adjs);
    forall i | 0 <= i < |adjs|
      ensures UpdateAll(closed, compute, eligibleFor)[i] == closed[i]
    {
      ClosedIsFrozen(adjs[i], compute, eligibleFor);
    }
  }

  /** Updating a list twice with the same calculator is updating it once. */
  lemma UpdateAllIdempotent(adjs: seq<Adjustment>, compute: Source -> int, eligibleFor: Source -> bool)
    ensures UpdateAll(UpdateAll(adjs, compute, eligibleFor), compute, eligibleFor) == UpdateAll(adjs, compute, eligibleFor)
  {
    var once := UpdateAll(adjs, compute, eligibleFor);
    forall i | 0 <= i < |adjs|
      ensures UpdateAll(once, compute, eligibleFor)[i] == once[i]
    {
      UpdateIdempotent(adjs[i], compute, eligibleFor);
    }
  }

  /** Sum of the amounts of a list of adjustments. */
  function Total(adjs: seq<Adjustment>): int {
    if |adjs| == 0 then 0 else adjs[0].amount + Total(adjs[1..])
  }

  lemma {:induction false} TotalAppend(xs: seq<Adjustment>, ys: seq<Adjustment>)
    ensures Total(xs + ys) == Total(xs) + Total(ys)
    decreases |xs|
  {
    if |xs| == 0 {
      assert xs + ys == ys;
    } else {
      assert (xs + ys)[1..] == xs[1..] + ys;
      TotalAppend(xs[1..], ys);
    }
  }
}

=== FILE: cart_promotions.dfy ===
/** The cart promotion handler: when an item is added to the cart it decides
    which automatically applied promotions (active, no code, no path) to
    activate for the order and, optionally, the line item just added. The
    promotion's own eligibility test is a parameter of the handler; a
    concrete instance for the rules of this model (`Product` and
    `ItemTotal`, both order-level) is given for the scenarios. */
module CartPromotions {
  import opened Common
  import opened Adjustments
  import ProductRules

  /** Rules a promotion can carry. `ItemTotal` compares the order's item
      total with `amount` using `>=` for "gte" and `>` otherwise. */
  datatype Rule =
    | ProductRule(rule: ProductRules.ProductRule)
    | ItemTotal(operator: string, amount: int)

  /** `CreateItemAdjustments` credits every line item of the order;
      `CreateAdjustment` credits the order itself. */
  datatype ActionKind = CreateItemAdjustments | CreateAdjustment

  datatype Promotion = Promotion(
    id: nat,
    active: bool,
    code: Option<string>,
    path: Option<string>,
    matchAll: bool,
    rules: seq<Rule>,
    actions: seq<ActionKind>)

  /** What eligibility is asked about. */
  datatype Target = OrderTarget | LineItemTarget(lineItem: nat)

  /** One call of `promotion.activate(line_item:, order:)`. */
  datatype Activation = Activation(promotion: Promotion, lineItem: Option<nat>, order: nat)

  /** The `promotions` scope: active, with neither a code nor a path. */
  predicate IsCandidate(p: Promotion) {
    p.active && p.code.None? && p.path.None?
  }

  function Candidates(ps: seq<Promotion>): (r: seq<Promotion>)
    ensures |r| <= |ps|
    ensures forall p :: p in r <==> p in ps && IsCandidate(p)
  {
    if |ps| == 0 then []
    else
      var rest := Candidates(ps[1..]);
      assert forall p :: p in ps <==> p == ps[0] || p in ps[1..];
      if IsCandidate(ps[0]) then [ps[0]] + rest else rest
  }

  /** The activation condition: eligible for the line item (when one was
      given) or eligible for the order. */
  predicate Triggered(p: Promotion, lineItem: Option<nat>, eligible: (Promotion, Target) -> bool) {
    (lineItem.Some? && eligible(p, LineItemTarget(lineItem.value))) || eligible(p, OrderTarget)
  }

  /** `Cart#activate`: the activations performed, in candidate order. */
  function Activate(ps: seq<Promotion>, order: nat, lineItem: Option<nat>,
                    eligible: (Promotion, Target) -> bool): (r: seq<Activation>)
    ensures |r| <= |ps|
    ensures forall i :: 0 <= i < |r| ==> r[i].order == order && r[i].lineItem == lineItem
    ensures forall p :: Activation(p, lineItem, order) in r <==>
              p in ps && IsCandidate(p) && Triggered(p, lineItem, eligible)
  {
    if |ps| == 0 then []
    else
      var rest := Activate(ps[1..], order, lineItem, eligible);
      assert forall p :: p in ps <==> p == ps[0] || p in ps[1..];
      if IsCandidate(ps[0]) && Triggered(ps[0], lineItem, eligible)
      then [Activation(ps[0], lineItem, order)] + rest
      else rest
  }

  /** Without a line item only order eligibility matters: two eligibility
      tests that agree on orders activate the same promotions. */
  lemma {:induction false} NoLineItemOrderOnly(ps: seq<Promotion>, order: nat,
                                               e1: (Promotion, Target) -> bool,
                                               e2: (Promotion, Target) -> bool)
    requires forall p :: e1(p, OrderTarget) == e2(p, OrderTarget)
    ensures Activate(ps, order, None, e1) == Activate(ps, order, None, e2)
    decreases |ps|
  {
    if |ps| > 0 {
      NoLineItemOrderOnly(ps[1..], order, e1, e2);
    }
  }

  /** Giving a line item can only add activations: every promotion the
      order alone triggers is still activated. */
  lemma LineItemOnlyAdds(ps: seq<Promotion>, order: nat, lineItem: nat,
                         eligible: (Promotion, Target) -> bool, p: Promotion)
    requires Activation(p, None, order) in Activate(ps, order, None, eligible)
    ensures Activation(p, Some(lineItem), order) in Activate(ps, order, Some(lineItem), eligible)
  {
  }

  // ---------------------------------------------------------------------
  // A concrete eligibility test and the actions, for the scenarios.

  /** What the rules look at. */
  datatype OrderFacts = OrderFacts(itemTotal: int, products: seq<nat>)

  predicate RuleApplicable(r: Rule, t: Target) {
    match r
    case ProductRule(pr) =>
      ProductRules.Applicable(
        if t.OrderTarget? then ProductRules.OrderPromotable([]) else ProductRules.LineItemPromotable(0))
    case ItemTotal(_, _) => t.OrderTarget?
  }

  predicate RuleEligible(r: Rule, facts: OrderFacts) {
    match r
    case ProductRule(pr) => ProductRules.Eligible(pr, facts.products)
    case ItemTotal(op, amount) =>
      if op == "gte" then facts.itemTotal >= amount else facts.itemTotal > amount
  }

  /** A promotion's eligibility: only the rules applicable to the target
      take part; with none the promotion is eligible, otherwise all or any
      of them must pass according to the promotion's match policy. */
  function PromotionEligible(p: Promotion, t: Target, facts: OrderFacts): (r: bool)
    ensures (forall i :: 0 <= i < |p.rules| ==> !RuleApplicable(p.rules[i], t)) ==> r
    ensures p.matchAll ==>
              (r <==> forall i :: 0 <= i < |p.rules| && RuleApplicable(p.rules[i], t) ==>
                                    RuleEligible(p.rules[i], facts))
    ensures !p.matchAll && (exists i :: 0 <= i < |p.rules| && RuleApplicable(p.rules[i], t)) ==>
              (r <==> exists i :: 0 <= i < |p.rules| && RuleApplicable(p.rules[i], t) && RuleEligible(p.rules[i], facts))
  {
    if forall i :: 0 <= i < |p.rules| ==> !RuleApplicable(p.rules[i], t) then true
    else if p.matchAll then
      forall i :: 0 <= i < |p.rules| && RuleApplicable(p.rules[i], t) ==> RuleEligible(p.rules[i], facts)
    else
      exists i :: 0 <= i < |p.rules| && RuleApplicable(p.rules[i], t) && RuleEligible(p.rules[i], facts)
  }

  /** Order-level rules never block a line item. */
  lemma OrderRulesIgnoreLineItems(p: Promotion, lineItem: nat, facts: OrderFacts)
    ensures PromotionEligible(p, LineItemTarget(lineItem), facts)
  {
  }

  datatype LineItem = LineItem(id: nat, adjustments: seq<Adjustment>)

  datatype CartOrder = CartOrder(id: nat, facts: OrderFacts, lineItems: seq<LineItem>, adjustments: seq<Adjustment>)

  predicate HasCredit(adjs: seq<Adjustment>, promotion: nat) {
    exists i :: 0 <= i < |adjs| && adjs[i].source == PromotionAction(promotion)
  }

  function Credit(promotion: nat, amount: int): Adjustment {
    Adjustment(0, "Promotion", PromotionAction(promotion), amount, true, false, false)
  }

  /** An action creates at most one adjustment per promotion and
      adjustable, and none when its calculator computes nothing to
      discount. */
  function AddCredit(adjs: seq<Adjustment>, promotion: nat, amount: int): (r: seq<Adjustment>)
    ensures amount != 0 ==> HasCredit(r, promotion)
    ensures amount == 0 ==> r == adjs
    ensures |r| == |adjs| + (if HasCredit(adjs, promotion) || amount == 0 then 0 else 1)
    ensures adjs <= r
  {
    if HasCredit(adjs, promotion) || amount == 0 then adjs
    else
      var r := adjs + [Credit(promotion, amount)];
      assert r[|adjs|].source == PromotionAction(promotion);
      r
  }

  /** `r` is `o` with adjustments only added: the same order and lines,
      each adjustment list extended at its end. */
  predicate Grows(o: CartOrder, r: CartOrder) {
    && r.id == o.id && r.facts == o.facts && |r.lineItems| == |o.lineItems|
    && o.adjustments <= r.adjustments
    && forall i :: 0 <= i < |o.lineItems| ==>
         r.lineItems[i].id == o.lineItems[i].id && o.lineItems[i].adjustments <= r.lineItems[i].adjustments
  }

  /** The promotion's action of this kind has left its credit wherever
      its calculator computes a non-zero amount: on the order for an order
      action, on every such line item for an item action. */
  predicate Credited(o: CartOrder, promotion: nat, kind: ActionKind, itemAmount: nat -> int, orderAmount: int) {
    match kind
    case CreateAdjustment => orderAmount != 0 ==> HasCredit(o.adjustments, promotion)
    case CreateItemAdjustments =>
      forall i :: 0 <= i < |o.lineItems| && itemAmount(o.lineItems[i].id) != 0 ==>
        HasCredit(o.lineItems[i].adjustments, promotion)
  }

  lemma CreditKept(a: seq<Adjustment>, b: seq<Adjustment>, promotion: nat)
    requires a <= b && HasCredit(a, promotion)
    ensures HasCredit(b, promotion)
  {
    var i :| 0 <= i < |a| && a[i].source == PromotionAction(promotion);
    assert b[i] == a[i];
  }

  /** Adjustments once added are never taken away, so a credit stays. */
  lemma CreditedKept(o: CartOrder, r: CartOrder, promotion: nat, kind: ActionKind,
                      itemAmount: nat -> int, orderAmount: int)
    requires Grows(o, r) && Credited(o, promotion, kind, itemAmount, orderAmount)
    ensures Credited(r, promotion, kind, itemAmount, orderAmount)
  {
    match kind
    case CreateAdjustment =>
      if orderAmount != 0 {
        CreditKept(o.adjustments, r.adjustments, promotion);
      }
    case CreateItemAdjustments =>
      forall i | 0 <= i < |r.lineItems| && itemAmount(r.lineItems[i].id) != 0
        ensures HasCredit(r.lineItems[i].adjustments, promotion)
      {
        CreditKept(o.lineItems[i].adjustments, r.lineItems[i].adjustments, promotion);
      }
  }

  /** The credits of one promotion among the adjustments, in order. */
  function CreditsFor(adjs: seq<Adjustment>, promotion: nat): seq<Adjustment> {
    if |adjs| == 0 then []
    else
      var last := adjs[|adjs| - 1];
      CreditsFor(adjs[..|adjs| - 1], promotion) + (if last.source == PromotionAction(promotion) then [last] else [])
  }

  /** Adding another promotion's credit leaves this promotion's credits. */
  lemma AddCreditSpares(adjs: seq<Adjustment>, other: nat, amount: int, promotion: nat)
    requires other != promotion
    ensures CreditsFor(AddCredit(adjs, other, amount), promotion) == CreditsFor(adjs, promotion)
  {
    if !HasCredit(adjs, other) && amount != 0 {
      assert (adjs + [Credit(other, amount)])[..|adjs|] == adjs;
    }
  }

  /** `r` holds exactly the credits of `promotion` that `o` held, on the
      order and on every line item. */
  predicate Spares(o: CartOrder, r: CartOrder, promotion: nat) {
    && |r.lineItems| == |o.lineItems|
    && CreditsFor(r.adjustments, promotion) == CreditsFor(o.adjustments, promotion)
    && forall i :: 0 <= i < |o.lineItems| ==>
         CreditsFor(r.lineItems[i].adjustments, promotion) == CreditsFor(o.lineItems[i].adjustments, promotion)
  }

  /** One action of an activated promotion; `itemAmount` and `orderAmount`
      stand for the action's calculator. */
  function Perform(o: CartOrder, promotion: nat, kind: ActionKind,
                   itemAmount: nat -> int, orderAmount: int): (r: CartOrder)
    ensures Grows(o, r) && Credited(r, promotion, kind, itemAmount, orderAmount)
    ensures kind == CreateAdjustment ==> r.lineItems == o.lineItems
    ensures kind == CreateItemAdjustments ==> r.adjustments == o.adjustments
    ensures kind == CreateAdjustment && orderAmount == 0 ==> r == o
    ensures kind == CreateItemAdjustments ==>
              forall i :: 0 <= i < |o.lineItems| && itemAmount(o.lineItems[i].id) == 0 ==> r.lineItems[i] == o.lineItems[i]
  {
    match kind
    case CreateAdjustment => o.(adjustments := AddCredit(o.adjustments, promotion, orderAmount))
    case CreateItemAdjustments => o.(lineItems := CreditLines(o.lineItems, promotion, itemAmount))
  }

  /** The item-level action on every line: each line with a non-zero
      amount gains the promotion's credit, appended only when missing. */
  function CreditLines(lines: seq<LineItem>, promotion: nat, itemAmount: nat -> int): (r: seq<LineItem>)
    ensures |r| == |lines|
    ensures forall i :: 0 <= i < |lines| ==>
              r[i].id == lines[i].id && lines[i].adjustments <= r[i].adjustments
              && (itemAmount(lines[i].id) != 0 ==> HasCredit(r[i].adjustments, promotion))
              && (itemAmount(lines[i].id) == 0 ==> r[i] == lines[i])
  {
    seq(|lines|, i requires 0 <= i < |lines| => CreditLine(lines[i], promotion, itemAmount))
  }

  function CreditLine(l: LineItem, promotion: nat, itemAmount: nat -> int): (r: LineItem)
    ensures r.id == l.id && l.adjustments <= r.adjustments
    ensures itemAmount(l.id) != 0 ==> HasCredit(r.adjustments, promotion)
    ensures itemAmount(l.id) == 0 ==> r == l
  {
    l.(adjustments := AddCredit(l.adjustments, promotion, itemAmount(l.id)))
  }

  /** `promotion.activate`: every action of the promotion, in order. */
  function PerformAll(o: CartOrder, promotion: nat, kinds: seq<ActionKind>,
                      itemAmount: nat -> int, orderAmount: int): (r: CartOrder)
    ensures Grows(o, r)
    ensures forall k :: k in kinds ==> Credited(r, promotion, k, itemAmount, orderAmount)
    decreases |kinds|
  {
    if |kinds| == 0 then o
    else
      var next := Perform(o, promotion, kinds[0], itemAmount, orderAmount);
      var r := PerformAll(next, promotion, kinds[1..], itemAmount, orderAmount);
      CreditedKept(next, r, promotion, kinds[0], itemAmount, orderAmount);
      assert forall k :: k in kinds ==> k == kinds[0] || k in kinds[1..];
      r
  }

  function ApplyActivations(o: CartOrder, acts: seq<Activation>,
                            itemAmount: nat -> int, orderAmount: int): (r: CartOrder)
    ensures Grows(o, r)
    ensures forall a, k :: a in acts && k in a.promotion.actions ==>
              Credited(r, a.promotion.id, k, itemAmount, orderAmount)
    decreases |acts|
  {
    if |acts| == 0 then o
    else
      var next := PerformAll(o, acts[0].promotion.id, acts[0].promotion.actions, itemAmount, orderAmount);
      var r := ApplyActivations(next, acts[1..], itemAmount, orderAmount);
      forall k | k in acts[0].promotion.actions
        ensures Credited(r, acts[0].promotion.id, k, itemAmount, orderAmount)
      {
        CreditedKept(next, r, acts[0].promotion.id, k, itemAmount, orderAmount);
      }
      assert forall a :: a in acts ==> a == acts[0] || a in acts[1..];
      r
  }

  /** An action credits only its own promotion. */
  lemma PerformSpares(o: CartOrder, other: nat, kind: ActionKind, itemAmount: nat -> int, orderAmount: int,
                      promotion: nat)
    requires other != promotion
    ensures Spares(o, Perform(o, other, kind, itemAmount, orderAmount), promotion)
  {
    var r := Perform(o, other, kind, itemAmount, orderAmount);
    match kind
    case CreateAdjustment =>
      AddCreditSpares(o.adjustments, other, orderAmount, promotion);
    case CreateItemAdjustments =>
      forall i | 0 <= i < |o.lineItems|
        ensures CreditsFor(r.lineItems[i].adjustments, promotion) == CreditsFor(o.lineItems[i].adjustments, promotion)
      {
        assert r.lineItems[i] == CreditLine(o.lineItems[i], other, itemAmount);
        AddCreditSpares(o.lineItems[i].adjustments, other, itemAmount(o.lineItems[i].id), promotion);
      }
  }

  lemma {:induction false} PerformAllSpares(o: CartOrder, other: nat, kinds: seq<ActionKind>,
                                            itemAmount: nat -> int, orderAmount: int, promotion: nat)
    requires other != promotion
    ensures Spares(o, PerformAll(o, other, kinds, itemAmount, orderAmount), promotion)
    decreases |kinds|
  {
    if |kinds| > 0 {
      PerformSpares(o, other, kinds[0], itemAmount, orderAmount, promotion);
      PerformAllSpares(Perform(o, other, kinds[0], itemAmount, orderAmount), other, kinds[1..],
                       itemAmount, orderAmount, promotion);
    }
  }

  /** Activations of other promotions leave this promotion's credits. */
  lemma {:induction false} ApplySpares(o: CartOrder, acts: seq<Activation>, itemAmount: nat -> int,
                                       orderAmount: int, promotion: nat)
    requires forall i :: 0 <= i < |acts| ==> acts[i].promotion.id != promotion
    ensures Spares(o, ApplyActivations(o, acts, itemAmount, orderAmount), promotion)
    decreases |acts|
  {
    if |acts| > 0 {
      var next := PerformAll(o, acts[0].promotion.id, acts[0].promotion.actions, itemAmount, orderAmount);
      PerformAllSpares(o, acts[0].promotion.id, acts[0].promotion.actions, itemAmount, orderAmount, promotion);
      ApplySpares(next, acts[1..], itemAmount, orderAmount, promotion);
    }
  }

  /** With distinct promotion ids, a promotion the cart does not activate
      gains no credit anywhere. */
  lemma ActivationsSpare(o: CartOrder, lineItem: Option<nat>, ps: seq<Promotion>,
                         itemAmount: nat -> int, orderAmount: int)
    ensures (forall i, j :: 0 <= i < j < |ps| ==> ps[i].id != ps[j].id) ==>
            var acts := Activate(ps, o.id, lineItem, Eligibility(o.facts));
            forall p :: p in ps && !(IsCandidate(p) && Triggered(p, lineItem, Eligibility(o.facts))) ==>
              Spares(o, ApplyActivations(o, acts, itemAmount, orderAmount), p.id)
  {
    var acts := Activate(ps, o.id, lineItem, Eligibility(o.facts));
    forall p | (forall i, j :: 0 <= i < j < |ps| ==> ps[i].id != ps[j].id) &&
               p in ps && !(IsCandidate(p) && Triggered(p, lineItem, Eligibility(o.facts)))
      ensures Spares(o, ApplyActivations(o, acts, itemAmount, orderAmount), p.id)
    {
      forall i | 0 <= i < |acts|
        ensures acts[i].promotion.id != p.id
      {
        assert acts[i] == Activation(acts[i].promotion, lineItem, o.id);
        assert acts[i].promotion in ps && acts[i].promotion != p;
        var a :| 0 <= a < |ps| && ps[a] == acts[i].promotion;
        var b :| 0 <= b < |ps| && ps[b] == p;
        assert a != b;
        if a < b { assert ps[a].id != ps[b].id; } else { assert ps[b].id != ps[a].id; }
      }
      ApplySpares(o, acts, itemAmount, orderAmount, p.id);
    }
  }

  /** The eligibility test of this model's rules on the order's facts. */
  function Eligibility(facts: OrderFacts): (Promotion, Target) -> bool {
    (p, t) => PromotionEligible(p, t, facts)
  }

  /** `Cart.new(order, line_item).activate` with the concrete eligibility:
      no adjustment is taken away, and every candidate promotion triggered
      for the line item or the order leaves the credit of each of its
      actions wherever the calculator computes a non-zero amount. */
  function ActivateCart(o: CartOrder, lineItem: Option<nat>, ps: seq<Promotion>,
                        itemAmount: nat -> int, orderAmount: int): (r: CartOrder)
    ensures Grows(o, r)
    ensures forall p, k ::
              (p in ps && IsCandidate(p) && Triggered(p, lineItem, Eligibility(o.facts)) && k in p.actions)
              ==> Credited(r, p.id, k, itemAmount, orderAmount)
    ensures (forall i, j :: 0 <= i < j < |ps| ==> ps[i].id != ps[j].id) ==>
              forall p :: p in ps && !(IsCandidate(p) && Triggered(p, lineItem, Eligibility(o.facts))) ==>
                Spares(o, r, p.id)
  {
    var acts := Activate(ps, o.id, lineItem, Eligibility(o.facts));
    var r := ApplyActivations(o, acts, itemAmount, orderAmount);
    ActivationsSpare(o, lineItem, ps, itemAmount, orderAmount);
    assert forall p :: p in ps && IsCandidate(p) && Triggered(p, lineItem, Eligibility(o.facts))
                       ==> Activation(p, lineItem, o.id) in acts;
    r
  }

  /** Performing an action twice is performing it once. */
  lemma PerformIdempotent(o: CartOrder, promotion: nat, kind: ActionKind,
                          itemAmount: nat -> int, orderAmount: int)
    ensures Perform(Perform(o, promotion, kind, itemAmount, orderAmount), promotion, kind, itemAmount, orderAmount)
            == Perform(o, promotion, kind, itemAmount, orderAmount)
  {
    var once := Perform(o, promotion, kind, itemAmount, orderAmount);
    if kind == CreateItemAdjustments {
      var twice := Perform(once, promotion, kind, itemAmount, orderAmount);
      forall i | 0 <= i < |once.lineItems|
        ensures twice.lineItems[i] == once.lineItems[i]
      {
        if itemAmount(once.lineItems[i].id) != 0 {
          assert HasCredit(once.lineItems[i].adjustments, promotion);
        }
      }
      assert twice.lineItems == once.lineItems;
    }
  }

  /** The calculators compute nothing to discount, on the order or on any
      line item. */
  ghost predicate NothingToDiscount(itemAmount: nat -> int, orderAmount: int) {
    orderAmount == 0 && forall id :: itemAmount(id) == 0
  }

  lemma {:induction false} PerformAllZero(o: CartOrder, promotion: nat, kinds: seq<ActionKind>,
                                          itemAmount: nat -> int, orderAmount: int)
    requires NothingToDiscount(itemAmount, orderAmount)
    ensures PerformAll(o, promotion, kinds, itemAmount, orderAmount) == o
    decreases |kinds|
  {
    if |kinds| > 0 {
      var next := Perform(o, promotion, kinds[0], itemAmount, orderAmount);
      assert next.lineItems == o.lineItems;
      assert next == o;
      PerformAllZero(next, promotion, kinds[1..], itemAmount, orderAmount);
    }
  }

  lemma {:induction false} ApplyZero(o: CartOrder, acts: seq<Activation>,
                                     itemAmount: nat -> int, orderAmount: int)
    requires NothingToDiscount(itemAmount, orderAmount)
    ensures ApplyActivations(o, acts, itemAmount, orderAmount) == o
    decreases |acts|
  {
    if |acts| > 0 {
      PerformAllZero(o, acts[0].promotion.id, acts[0].promotion.actions, itemAmount, orderAmount);
      ApplyZero(o, acts[1..], itemAmount, orderAmount);
    }
  }

  /** An action whose calculator computes nothing to discount creates no
      adjustment: activating a cart then leaves the order as it was,
      whatever promotions are triggered. */
  lemma ZeroAmountsAddNothing(o: CartOrder, lineItem: Option<nat>, ps: seq<Promotion>,
                              itemAmount: nat -> int, orderAmount: int)
    requires NothingToDiscount(itemAmount, orderAmount)
    ensures ActivateCart(o, lineItem, ps, itemAmount, orderAmount) == o
  {
    ApplyZero(o, Activate(ps, o.id, lineItem, Eligibility(o.facts)), itemAmount, orderAmount);
  }

  /** A fresh one-line cart. */
  function ScenarioOrder(itemTotal: int): CartOrder {
    CartOrder(1, OrderFacts(itemTotal, [7]), [LineItem(2, [])], [])
  }

  /** A rule-less promotion with an item-level action adds exactly one
      adjustment to the line item when its calculator computes a non-zero
      amount for it; so does one with an `ItemTotal gt 50` rule on an order
      whose item total is 100, and one with a product rule naming the line
      item's product. A zero amount adds nothing. */
  lemma ItemLevelScenarios(itemAmount: nat -> int, orderAmount: int)
    ensures var p := Promotion(3, true, None, None, true, [], [CreateItemAdjustments]);
            var r := ActivateCart(ScenarioOrder(100), Some(2), [p], itemAmount, orderAmount);
            |r.lineItems| == 1 && |r.adjustments| == 0
            && |r.lineItems[0].adjustments| == (if itemAmount(2) != 0 then 1 else 0)
    ensures var p := Promotion(3, true, None, None, true, [ItemTotal("gt", 50)], [CreateItemAdjustments]);
            var r := ActivateCart(ScenarioOrder(100), Some(2), [p], itemAmount, orderAmount);
            |r.lineItems| == 1 && |r.adjustments| == 0
            && |r.lineItems[0].adjustments| == (if itemAmount(2) != 0 then 1 else 0)
    ensures var p := Promotion(3, true, None, None, true, [ProductRule(ProductRules.ProductRule([7], "any"))],
                               [CreateItemAdjustments]);
            var r := ActivateCart(ScenarioOrder(100), Some(2), [p], itemAmount, orderAmount);
            |r.lineItems| == 1 && |r.adjustments| == 0
            && |r.lineItems[0].adjustments| == (if itemAmount(2) != 0 then 1 else 0)
  {
    var o := ScenarioOrder(100);
    var p1 := Promotion(3, true, None, None, true, [], [CreateItemAdjustments]);
    var p2 := Promotion(3, true, None, None, true, [ItemTotal("gt", 50)], [CreateItemAdjustments]);
    var p3 := Promotion(3, true, None, None, true, [ProductRule(ProductRules.ProductRule([7], "any"))],
                        [CreateItemAdjustments]);
    var e := (p, t) => PromotionEligible(p, t, o.facts);
    assert Triggered(p1, Some(2), e);
    assert Triggered(p2, Some(2), e);
    assert Triggered(p3, Some(2), e);
    assert Activate([p1], 1, Some(2), e) == [Activation(p1, Some(2), 1)];
    assert Activate([p2], 1, Some(2), e) == [Activation(p2, Some(2), 1)];
    assert Activate([p3], 1, Some(2), e) == [Activation(p3, Some(2), 1)];
    var after := Perform(o, 3, CreateItemAdjustments, itemAmount, orderAmount);
    assert after.lineItems[0].adjustments == if itemAmount(2) != 0 then [Credit(3, itemAmount(2))] else [];
    assert PerformAll(o, 3, [CreateItemAdjustments], itemAmount, orderAmount) == after;
    assert ApplyActivations(o, [Activation(p1, Some(2), 1)], itemAmount, orderAmount) == after;
    assert ApplyActivations(o, [Activation(p2, Some(2), 1)], itemAmount, orderAmount) == after;
    assert ApplyActivations(o, [Activation(p3, Some(2), 1)], itemAmount, orderAmount) == after;
  }

  /** With an order-level action and an `ItemTotal gt 50` rule on an order
      whose item total is 100, exactly one adjustment goes on the order when
      the calculator computes a non-zero amount; a rule-less promotion
      credits the order too. A zero amount adds nothing. */
  lemma OrderLevelScenarios(itemAmount: nat -> int, orderAmount: int)
    ensures var p := Promotion(3, true, None, None, true, [ItemTotal("gt", 50)], [CreateAdjustment]);
            var r := ActivateCart(ScenarioOrder(100), Some(2), [p], itemAmount, orderAmount);
            |r.adjustments| == (if orderAmount != 0 then 1 else 0) && r.lineItems == ScenarioOrder(100).lineItems
    ensures var p := Promotion(3, true, None, None, true, [], [CreateAdjustment]);
            var r := ActivateCart(ScenarioOrder(10), Some(2), [p], itemAmount, orderAmount);
            |r.adjustments| == (if orderAmount != 0 then 1 else 0) && r.lineItems == ScenarioOrder(10).lineItems
  {
    var o := ScenarioOrder(100);
    var p := Promotion(3, true, None, None, true, [ItemTotal("gt", 50)], [CreateAdjustment]);
    var e := (p, t) => PromotionEligible(p, t, o.facts);
    assert Triggered(p, Some(2), e);
    assert Activate([p], 1, Some(2), e) == [Activation(p, Some(2), 1)];
    var after := Perform(o, 3, CreateAdjustment, itemAmount, orderAmount);
    assert after.adjustments == if orderAmount != 0 then [Credit(3, orderAmount)] else [];
    assert PerformAll(o, 3, [CreateAdjustment], itemAmount, orderAmount) == after;
    assert ApplyActivations(o, [Activation(p, Some(2), 1)], itemAmount, orderAmount) == after;
    var o2 := ScenarioOrder(10);
    var p2 := Promotion(3, true, None, None, true, [], [CreateAdjustment]);
    var e2 := (p, t) => PromotionEligible(p, t, o2.facts);
    assert Triggered(p2, Some(2), e2);
    assert Activate([p2], 1, Some(2), e2) == [Activation(p2, Some(2), 1)];
    var after2 := Perform(o2, 3, CreateAdjustment, itemAmount, orderAmount);
    assert after2.adjustments == if orderAmount != 0 then [Credit(3, orderAmount)] else [];
    assert PerformAll(o2, 3, [CreateAdjustment], itemAmount, orderAmount) == after2;
    assert ApplyActivations(o2, [Activation(p2, Some(2), 1)], itemAmount, orderAmount) == after2;
  }

  /** A promotion with a code is never activated by the cart, however
      eligible it is. */
  lemma CodedPromotionNotActivated(ps: seq<Promotion>, order: nat, lineItem: Option<nat>,
                                   eligible: (Promotion, Target) -> bool, p: Promotion)
    requires p.code.Some? || p.path.Some? || !p.active
    ensures forall a :: a in Activate(ps, order, lineItem, eligible) ==> a.promotion != p
  {
    forall a | a in Activate(ps, order, lineItem, eligible) ensures a.promotion != p {
      var acts := Activate(ps, order, lineItem, eligible);
      var i :| 0 <= i < |acts| && acts[i] == a;
      assert Activation(a.promotion, lineItem, order) == a;
    }
  }
}

=== FILE: common.dfy ===
/** Shared vocabulary of the storefront core: optional values, the order's
    lifecycle states and Rails' notion of a "blank" string. Money everywhere
    in this project is an integer number of cents. */
module Common {

  datatype Option<+T> = None | Some(value: T)

  /** The states of an order's checkout and fulfilment lifecycle, plus the
      fraud hold `ConsideredRisky` entered by `finalize!`. */
  datatype OrderState =
    | Cart | Address | Delivery | Payment | Confirm | Complete
    | Canceled | Resumed | AwaitingReturn | Returned | ConsideredRisky

  /** The characters Rails' `blank?` treats as white space (ASCII subset). */
  predicate IsSpace(c: char) {
    c == ' ' || c == '\t' || c == '\n' || c == '\U{B}' || c == '\U{C}' || c == '\r'
  }

  /** `String#blank?`: empty or white space only. */
  predicate IsBlank(s: string) {
    forall i :: 0 <= i < |s| ==> IsSpace(s[i])
  }

  /** `blank?` on a value that may be nil. */
  predicate IsBlankOpt(s: Option<string>) {
    s.None? || IsBlank(s.value)
  }

  predicate StartsWith(s: string, prefix: string) {
    |prefix| <= |s| && s[..|prefix|] == prefix
  }

  /** Sum of a sequence of cent amounts, folded from the left. */
  function Sum(xs: seq<int>): int {
    if |xs| == 0 then 0 else Sum(xs[..|xs| - 1]) + xs[|xs| - 1]
  }

  lemma {:induction false} SumAppend(xs: seq<int>, ys: seq<int>)
    ensures Sum(xs + ys) == Sum(xs) + Sum(ys)
    decreases |ys|
  {
    if |ys| == 0 {
      assert xs + ys == xs;
    } else {
      var ys' := ys[..|ys| - 1];
      assert (xs + ys)[..|xs + ys| - 1] == xs + ys';
      SumAppend(xs, ys');
    }
  }
}

=== FILE: estimator.dfy ===
/** The shipping-rate estimator: for a package it asks every shipping
    method that serves the ship address, whose calculator is available and
    whose currency fits the order, for a cost; methods with no cost give no
    rate, back-end-only methods are dropped, the cheapest rate is selected
    and the rates are returned cheapest first. Calculators are data: an
    availability answer (possibly an exception) and a cost (possibly nil). */
module Estimator {
  import opened Common

  /** What `calculator.available?` does for the package. */
  datatype Availability = Available | Unavailable | Raises

  datatype ShippingMethod = ShippingMethod(
    id: nat,
    zones: set<nat>,
    frontend: bool,
    availability: Availability,
    currency: Option<string>,
    cost: Option<int>,
    taxCategory: Option<nat>)

  datatype TaxRate = TaxRate(id: nat, taxCategory: nat, zone: nat)

  /** The order as the estimator sees it: the zones its ship address is a
      member of, its currency and its tax zone. */
  datatype OrderContext = OrderContext(addressZones: set<nat>, currency: string, taxZone: nat)

  datatype ShippingRate = ShippingRate(shippingMethod: nat, cost: int, selected: bool, taxRate: Option<nat>)

  /** The rates and the methods whose calculator raised (and were logged). */
  datatype Estimate = Estimate(rates: seq<ShippingRate>, logged: seq<nat>)

  predicate ServesAddress(m: ShippingMethod, ctx: OrderContext) {
    m.zones * ctx.addressZones != {}
  }

  /** `shipping_methods(package)`: zone, then calculator availability, then
      currency (a blank calculator currency fits any order). A raising
      calculator disqualifies its method. */
  predicate Qualifies(m: ShippingMethod, ctx: OrderContext) {
    ServesAddress(m, ctx) && m.availability == Available
    && (IsBlankOpt(m.currency) || m.currency == Some(ctx.currency))
  }

  /** A qualifying method whose calculator returned a cost. */
  predicate Rated(m: ShippingMethod, ctx: OrderContext) {
    Qualifies(m, ctx) && m.cost.Some?
  }

  /** A tax rate of the method's tax category in the order's tax zone. */
  predicate TaxRateMatches(t: TaxRate, m: ShippingMethod, ctx: OrderContext) {
    m.taxCategory.Some? && t.taxCategory == m.taxCategory.value && t.zone == ctx.taxZone
  }

  /** The first tax rate of the method's tax category in the order's tax
      zone, if any. */
  function TaxRateFor(m: ShippingMethod, rates: seq<TaxRate>, ctx: OrderContext): (r: Option<nat>)
    ensures r.Some? ==> exists t :: t in rates && TaxRateMatches(t, m, ctx) && t.id == r.value
    ensures r.Some? ==> exists i :: 0 <= i < |rates| && rates[i].id == r.value && TaxRateMatches(rates[i], m, ctx)
                                    && forall j :: 0 <= j < i ==> !TaxRateMatches(rates[j], m, ctx)
    ensures r.None? ==> forall t :: t in rates ==> !TaxRateMatches(t, m, ctx)
  {
    if |rates| == 0 then None
    else if TaxRateMatches(rates[0], m, ctx) then Some(rates[0].id)
    else
      assert forall t :: t in rates <==> t == rates[0] || t in rates[1..];
      assert forall i :: 0 <= i < |rates[1..]| ==> rates[1..][i] == rates[i + 1];
      TaxRateFor(m, rates[1..], ctx)
  }

  /** The unselected rate a rated method gives. */
  function RateOf(m: ShippingMethod, taxRates: seq<TaxRate>, ctx: OrderContext): ShippingRate
    requires m.cost.Some?
  {
    ShippingRate(m.id, m.cost.value, false, TaxRateFor(m, taxRates, ctx))
  }

  /** A rate some qualifying front-end method with a cost gives. */
  predicate Offered(x: ShippingRate, ms: seq<ShippingMethod>, taxRates: seq<TaxRate>, ctx: OrderContext) {
    exists m :: m in ms && Rated(m, ctx) && m.frontend && x == RateOf(m, taxRates, ctx)
  }

  /** `calculate_shipping_rates` followed by the front-end filter: one
      unselected rate per qualifying front-end method with a cost, in
      method order. */
  function FrontendRates(ms: seq<ShippingMethod>, taxRates: seq<TaxRate>, ctx: OrderContext): (r: seq<ShippingRate>)
    ensures |r| <= |ms|
    ensures forall i :: 0 <= i < |r| ==> !r[i].selected
    ensures forall x :: x in r <==> Offered(x, ms, taxRates, ctx)
  {
    if |ms| == 0 then []
    else
      var rest := FrontendRates(ms[1..], taxRates, ctx);
      assert forall m :: m in ms <==> m == ms[0] || m in ms[1..];
      if Rated(ms[0], ctx) && ms[0].frontend then
        [RateOf(ms[0], taxRates, ctx)] + rest
      else rest
  }

  /** A method whose calculator raised: it was reached (the zone matched)
      and its exception is logged instead of propagated. */
  predicate Raised(m: ShippingMethod, ctx: OrderContext) {
    ServesAddress(m, ctx) && m.availability == Raises
  }

  /** The ids of the methods whose calculator raised, in method order. */
  function Logged(ms: seq<ShippingMethod>, ctx: OrderContext): (r: seq<nat>)
    ensures forall id :: id in r <==> exists m :: m in ms && Raised(m, ctx) && m.id == id
  {
    if |ms| == 0 then []
    else
      var rest := Logged(ms[1..], ctx);
      assert forall m :: m in ms <==> m == ms[0] || m in ms[1..];
      if Raised(ms[0], ctx) then [ms[0].id] + rest else rest
  }

  /** Index of the first cheapest rate (`min_by(&:cost)`). */
  function Cheapest(rates: seq<ShippingRate>): (i: nat)
    requires |rates| > 0
    ensures i < |rates|
    ensures forall j :: 0 <= j < |rates| ==> rates[i].cost <= rates[j].cost
    ensures forall j :: 0 <= j < i ==> rates[i].cost < rates[j].cost
  {
    if |rates| == 1 then 0
    else
      var k := Cheapest(rates[1..]) + 1;
      if rates[0].cost <= rates[k].cost then 0 else k
  }

  /** `choose_default_shipping_rate`: the first cheapest rate is selected. */
  function ChooseDefault(rates: seq<ShippingRate>): (r: seq<ShippingRate>)
    ensures |r| == |rates|
    ensures forall j :: 0 <= j < |r| ==> r[j] == rates[j].(selected := r[j].selected)
    ensures |rates| > 0 ==> forall j :: 0 <= j < |r| ==> (r[j].selected <==> j == Cheapest(rates))
  {
    if |rates| == 0 then rates
    else
      var c := Cheapest(rates);
      seq(|rates|, j requires 0 <= j < |rates| => rates[j].(selected := j == c))
  }

  // ---------------------------------------------------------------------
  // Sorting by cost

  predicate SortedByCost(rates: seq<ShippingRate>) {
    forall i, j :: 0 <= i < j < |rates| ==> rates[i].cost <= rates[j].cost
  }

  function SelectedCount(rates: seq<ShippingRate>): nat {
    if |rates| == 0 then 0 else (if rates[0].selected then 1 else 0) + SelectedCount(rates[1..])
  }

  /** Insert before the first rate that costs at least as much. */
  function Insert(x: ShippingRate, sorted: seq<ShippingRate>): seq<ShippingRate> {
    if |sorted| == 0 then [x]
    else if x.cost <= sorted[0].cost then [x] + sorted
    else [sorted[0]] + Insert(x, sorted[1..])
  }

  /** A sorted list stays sorted under a head no dearer than its first rate. */
  lemma ConsSorted(h: ShippingRate, rest: seq<ShippingRate>)
    requires SortedByCost(rest)
    requires |rest| > 0 ==> h.cost <= rest[0].cost
    ensures SortedByCost([h] + rest)
  {
    var r := [h] + rest;
    forall i, j | 0 <= i < j < |r| ensures r[i].cost <= r[j].cost {
      if i == 0 {
        assert r[j] == rest[j - 1];
        assert rest[0].cost <= rest[j - 1].cost;
      } else {
        assert r[i] == rest[i - 1] && r[j] == rest[j - 1];
      }
    }
  }

  /** Inserting into a sorted list keeps it sorted; the new head is the
      inserted rate or the old head. */
  lemma {:induction false} InsertSorted(x: ShippingRate, sorted: seq<ShippingRate>)
    requires SortedByCost(sorted)
    ensures SortedByCost(Insert(x, sorted))
    ensures |Insert(x, sorted)| > 0
    ensures Insert(x, sorted)[0] == x || (|sorted| > 0 && Insert(x, sorted)[0] == sorted[0])
    decreases |sorted|
  {
    if |sorted| == 0 {
    } else if x.cost <= sorted[0].cost {
      ConsSorted(x, sorted);
    } else {
      var tail := sorted[1..];
      assert SortedByCost(tail) by {
        forall i, j | 0 <= i < j < |tail| ensures tail[i].cost <= tail[j].cost {
          assert tail[i] == sorted[i + 1] && tail[j] == sorted[j + 1];
        }
      }
      InsertSorted(x, tail);
      var rest := Insert(x, tail);
      assert |tail| > 0 ==> sorted[0].cost <= tail[0].cost by {
        if |tail| > 0 { assert tail[0] == sorted[1]; }
      }
      ConsSorted(sorted[0], rest);
    }
  }

  /** Inserting adds exactly the inserted rate. */
  lemma {:induction false} InsertMultiset(x: ShippingRate, sorted: seq<ShippingRate>)
    ensures multiset(Insert(x, sorted)) == multiset(sorted) + multiset{x}
    ensures |Insert(x, sorted)| == |sorted| + 1
    decreases |sorted|
  {
    if |sorted| > 0 && x.cost > sorted[0].cost {
      InsertMultiset(x, sorted[1..]);
      assert sorted == [sorted[0]] + sorted[1..];
    }
  }

  /** Inserting adds the inserted rate's selection to the count. */
  lemma {:induction false} InsertCount(x: ShippingRate, sorted: seq<ShippingRate>)
    ensures SelectedCount(Insert(x, sorted)) == SelectedCount(sorted) + (if x.selected then 1 else 0)
    decreases |sorted|
  {
    if |sorted| == 0 {
    } else if x.cost <= sorted[0].cost {
      assert ([x] + sorted)[1..] == sorted;
    } else {
      InsertCount(x, sorted[1..]);
      assert ([sorted[0]] + Insert(x, sorted[1..]))[1..] == Insert(x, sorted[1..]);
    }
  }

  /** `sort_by!(&:cost)`, stable. */
  function SortByCost(rates: seq<ShippingRate>): (r: seq<ShippingRate>)
    ensures SortedByCost(r)
    ensures multiset(r) == multiset(rates)
    ensures |r| == |rates|
    ensures SelectedCount(r) == SelectedCount(rates)
  {
    if |rates| == 0 then []
    else
      assert rates == [rates[0]] + rates[1..];
      var sortedTail := SortByCost(rates[1..]);
      InsertSorted(rates[0], sortedTail);
      InsertMultiset(rates[0], sortedTail);
      InsertCount(rates[0], sortedTail);
      var r := Insert(rates[0], sortedTail);
      assert |r| == |multiset(r)| == |multiset(rates)| == |rates|;
      r
  }

  lemma {:induction false} SelectedCountOfChoice(rates: seq<ShippingRate>, c: nat)
    requires c < |rates|
    requires forall j :: 0 <= j < |rates| ==> (rates[j].selected <==> j == c)
    ensures SelectedCount(rates) == 1
    decreases |rates|
  {
    if c == 0 {
      NoneSelected(rates[1..]);
    } else {
      SelectedCountOfChoice(rates[1..], c - 1);
    }
  }

  lemma {:induction false} NoneSelected(rates: seq<ShippingRate>)
    requires forall j :: 0 <= j < |rates| ==> !rates[j].selected
    ensures SelectedCount(rates) == 0
    decreases |rates|
  {
    if |rates| > 0 {
      NoneSelected(rates[1..]);
    }
  }

  /** The default choice leaves exactly one rate selected, when there is
      any rate. */
  lemma ChooseDefaultSelectsOne(rates: seq<ShippingRate>)
    ensures SelectedCount(ChooseDefault(rates)) == if |rates| > 0 then 1 else 0
  {
    if |rates| > 0 {
      SelectedCountOfChoice(ChooseDefault(rates), Cheapest(rates));
    } else {
      NoneSelected(ChooseDefault(rates));
    }
  }

  lemma SameMembers(a: seq<ShippingRate>, b: seq<ShippingRate>)
    requires multiset(a) == multiset(b)
    ensures forall x :: x in a <==> x in b
  {
    forall x ensures x in a <==> x in b {
      assert x in a <==> x in multiset(a);
    }
  }

  /** After the default choice and the sort every rate is one of the input
      rates up to its flag, and every input rate is still there. */
  lemma DefaultThenSortMembers(rates: seq<ShippingRate>)
    requires forall i :: 0 <= i < |rates| ==> !rates[i].selected
    ensures var s := SortByCost(ChooseDefault(rates));
            (forall x :: x in s ==> x.(selected := false) in rates)
            && (forall x :: x in rates ==> x in s || x.(selected := true) in s)
  {
    var chosen := ChooseDefault(rates);
    var s := SortByCost(chosen);
    SameMembers(s, chosen);
    forall x | x in s ensures x.(selected := false) in rates {
      var k :| 0 <= k < |chosen| && chosen[k] == x;
      assert rates[k] == x.(selected := false);
    }
    forall x | x in rates ensures x in s || x.(selected := true) in s {
      var k :| 0 <= k < |rates| && rates[k] == x;
      assert chosen[k] in s;
    }
  }

  /** After the default choice and the sort the selected rate is no dearer
      than any other. */
  lemma DefaultThenSortCheapest(rates: seq<ShippingRate>)
    ensures var s := SortByCost(ChooseDefault(rates));
            forall i, j :: 0 <= i < |s| && 0 <= j < |s| && s[i].selected ==> s[i].cost <= s[j].cost
  {
    var chosen := ChooseDefault(rates);
    var s := SortByCost(chosen);
    SameMembers(s, chosen);
    forall i, j | 0 <= i < |s| && 0 <= j < |s| && s[i].selected ensures s[i].cost <= s[j].cost {
      assert s[i] in chosen && s[j] in chosen;
      var k :| 0 <= k < |chosen| && chosen[k] == s[i];
      var l :| 0 <= l < |chosen| && chosen[l] == s[j];
      assert k == Cheapest(rates);
    }
  }

  /** `shipping_rates(package)`: the rates of the qualifying front-end
      methods with a cost, cheapest first, exactly one of them (a cheapest
      one) selected; the methods whose calculator raised are logged. */
  function ShippingRates(ms: seq<ShippingMethod>, taxRates: seq<TaxRate>, ctx: OrderContext): (r: Estimate)
    ensures SortedByCost(r.rates)
    ensures |r.rates| <= |ms|
    ensures SelectedCount(r.rates) == if |r.rates| > 0 then 1 else 0
    ensures forall x :: x in r.rates ==> Offered(x.(selected := false), ms, taxRates, ctx)
    ensures forall x :: Offered(x, ms, taxRates, ctx) ==> x in r.rates || x.(selected := true) in r.rates
    ensures forall i, j :: 0 <= i < |r.rates| && 0 <= j < |r.rates| && r.rates[i].selected ==>
              r.rates[i].cost <= r.rates[j].cost
    ensures forall id :: id in r.logged <==> exists m :: m in ms && Raised(m, ctx) && m.id == id
  {
    var rates := FrontendRates(ms, taxRates, ctx);
    ChooseDefaultSelectsOne(rates);
    DefaultThenSortMembers(rates);
    DefaultThenSortCheapest(rates);
    Estimate(SortByCost(ChooseDefault(rates)), Logged(ms, ctx))
  }

  /** In the sorted result the selected rate is the first one. */
  lemma SelectedComesFirst(ms: seq<ShippingMethod>, taxRates: seq<TaxRate>, ctx: OrderContext)
    ensures var rates := ShippingRates(ms, taxRates, ctx).rates;
            forall i :: 0 <= i < |rates| && rates[i].selected ==> rates[0].cost == rates[i].cost
  {
  }

  // ---------------------------------------------------------------------
  // Scenarios (costs in cents)

  function Method(id: nat, frontend: bool, cost: Option<int>): ShippingMethod {
    ShippingMethod(id, {1}, frontend, Available, Some("USD"), cost, None)
  }

  const Ctx: OrderContext := OrderContext({1}, "USD", 1)

  lemma ServesCtx(m: ShippingMethod)
    requires 1 in m.zones
    ensures ServesAddress(m, Ctx)
  {
    assert 1 in m.zones * Ctx.addressZones;
  }

  /** A method outside the address's zones gives no rate. */
  lemma OtherZoneScenario()
    ensures ShippingRates([Method(1, true, Some(400)).(zones := {2})], [], Ctx).rates == []
  {
    var ms := [Method(1, true, Some(400)).(zones := {2})];
    assert {2} * {1} == {};
    assert !Rated(ms[0], Ctx);
    assert FrontendRates(ms, [], Ctx) == [];
  }

  /** An unavailable calculator gives no rate. */
  lemma UnavailableScenario()
    ensures ShippingRates([Method(1, true, Some(400)).(availability := Unavailable)], [], Ctx).rates == []
  {
    var ms := [Method(1, true, Some(400)).(availability := Unavailable)];
    assert FrontendRates(ms, [], Ctx) == [];
  }

  /** A calculator in another currency gives no rate. */
  lemma OtherCurrencyScenario()
    ensures ShippingRates([Method(1, true, Some(400))], [], Ctx.(currency := "GBP")).rates == []
  {
    var ms := [Method(1, true, Some(400))];
    assert "USD" != "GBP" by { assert "USD"[0] != "GBP"[0]; }
    assert !IsBlankOpt(Some("USD")) by { assert !IsSpace("USD"[0]); }
    assert !Rated(ms[0], Ctx.(currency := "GBP"));
    assert FrontendRates(ms, [], Ctx.(currency := "GBP")) == [];
  }

  /** A raising calculator gives no rate and is logged. */
  lemma RaisingScenario()
    ensures var e := ShippingRates([Method(1, true, Some(400)).(availability := Raises)], [], Ctx);
            e.rates == [] && e.logged == [1]
  {
    var ms := [Method(1, true, Some(400)).(availability := Raises)];
    ServesCtx(ms[0]);
    assert FrontendRates(ms, [], Ctx) == [];
    assert Logged(ms[1..], Ctx) == [];
    assert Logged(ms, Ctx) == [1];
  }

  /** Costs 5.00, 3.00, 4.00 come back as 3.00, 4.00, 5.00 with the 3.00
      rate selected. */
  lemma SortedSelectionScenario()
    ensures var e := ShippingRates([Method(1, true, Some(500)), Method(2, true, Some(300)), Method(3, true, Some(400))], [], Ctx);
            e.rates == [ShippingRate(2, 300, true, None), ShippingRate(3, 400, false, None), ShippingRate(1, 500, false, None)]
  {
    var ms := [Method(1, true, Some(500)), Method(2, true, Some(300)), Method(3, true, Some(400))];
    var rates := [ShippingRate(1, 500, false, None), ShippingRate(2, 300, false, None), ShippingRate(3, 400, false, None)];
    var chosen := [ShippingRate(1, 500, false, None), ShippingRate(2, 300, true, None), ShippingRate(3, 400, false, None)];
    ThreeRates(ms);
    ThreeChoice(rates);
    ThreeSort(chosen);
  }

  lemma ThreeRates(ms: seq<ShippingMethod>)
    requires ms == [Method(1, true, Some(500)), Method(2, true, Some(300)), Method(3, true, Some(400))]
    ensures FrontendRates(ms, [], Ctx)
            == [ShippingRate(1, 500, false, None), ShippingRate(2, 300, false, None), ShippingRate(3, 400, false, None)]
  {
    ServesCtx(ms[0]);
    ServesCtx(ms[1]);
    ServesCtx(ms[2]);
    assert ms[1..][1..] == [ms[2]];
    assert FrontendRates(ms[1..][1..], [], Ctx) == [ShippingRate(3, 400, false, None)];
    assert FrontendRates(ms[1..], [], Ctx) == [ShippingRate(2, 300, false, None), ShippingRate(3, 400, false, None)];
  }

  lemma ThreeChoice(rates: seq<ShippingRate>)
    requires rates == [ShippingRate(1, 500, false, None), ShippingRate(2, 300, false, None), ShippingRate(3, 400, false, None)]
    ensures ChooseDefault(rates)
            == [ShippingRate(1, 500, false, None), ShippingRate(2, 300, true, None), ShippingRate(3, 400, false, None)]
  {
    assert rates[1..][1..] == [rates[2]];
    assert Cheapest(rates[1..]) == 0;
    assert Cheapest(rates) == 1;
  }

  lemma ThreeSort(chosen: seq<ShippingRate>)
    requires chosen == [ShippingRate(1, 500, false, None), ShippingRate(2, 300, true, None), ShippingRate(3, 400, false, None)]
    ensures SortByCost(chosen)
            == [ShippingRate(2, 300, true, None), ShippingRate(3, 400, false, None), ShippingRate(1, 500, false, None)]
  {
    var c0, c1, c2 := chosen[0], chosen[1], chosen[2];
    assert chosen[1..] == [c1, c2];
    SortTwo(c1, c2);
    InsertLast(c0, c1, c2);
  }

  lemma SortTwo(c1: ShippingRate, c2: ShippingRate)
    requires c1.cost <= c2.cost
    ensures SortByCost([c1, c2]) == [c1, c2]
  {
    assert [c1, c2][1..] == [c2];
    assert SortByCost([c2]) == [c2];
  }

  lemma InsertLast(c0: ShippingRate, c1: ShippingRate, c2: ShippingRate)
    requires c1.cost <= c2.cost < c0.cost
    ensures Insert(c0, [c1, c2]) == [c1, c2, c0]
  {
    assert [c1, c2][1..] == [c2];
    assert [c2][1..] == [];
    assert Insert(c0, [c2]) == [c2, c0];
  }

  /** A nil cost is skipped without error. */
  lemma NilCostScenario()
    ensures ShippingRates([Method(1, true, Some(100)), Method(2, true, None)], [], Ctx).rates
            == [ShippingRate(1, 100, true, None)]
  {
    var ms := [Method(1, true, Some(100)), Method(2, true, None)];
    ServesCtx(ms[0]);
    assert FrontendRates(ms[1..], [], Ctx) == [];
    var rates := FrontendRates(ms, [], Ctx);
    assert rates == [ShippingRate(1, 100, false, None)];
    assert ChooseDefault(rates) == [ShippingRate(1, 100, true, None)];
  }

  /** A cheaper back-end-only method is neither returned nor selected. */
  lemma BackendOnlyScenario()
    ensures ShippingRates([Method(1, false, Some(0)), Method(2, true, Some(500))], [], Ctx).rates
            == [ShippingRate(2, 500, true, None)]
  {
    var ms := [Method(1, false, Some(0)), Method(2, true, Some(500))];
    ServesCtx(ms[1]);
    assert FrontendRates(ms[1..], [], Ctx) == [ShippingRate(2, 500, false, None)];
    var rates := FrontendRates(ms, [], Ctx);
    assert rates == [ShippingRate(2, 500, false, None)];
    assert ChooseDefault(rates) == [ShippingRate(2, 500, true, None)];
  }

  /** A method with a tax category gets the tax rate of that category in
      the order's tax zone. */
  lemma TaxRateLinked()
    ensures ShippingRates([Method(1, true, Some(400)).(taxCategory := Some(7))], [TaxRate(9, 7, 1)], Ctx).rates
            == [ShippingRate(1, 400, true, Some(9))]
  {
    var ms := [Method(1, true, Some(400)).(taxCategory := Some(7))];
    ServesCtx(ms[0]);
    assert TaxRateFor(ms[0], [TaxRate(9, 7, 1)], Ctx) == Some(9);
    var rates := FrontendRates(ms, [TaxRate(9, 7, 1)], Ctx);
    assert rates == [ShippingRate(1, 400, false, Some(9))];
    assert ChooseDefault(rates) == [ShippingRate(1, 400, true, Some(9))];
  }
}

=== FILE: item_adjustments.dfy ===
/** The adjustment totals of one adjustable item (a line item or a
    shipment): promotion adjustments are recomputed first and only the best
    eligible one is kept eligible; then tax adjustments are recomputed, and
    the promotion, included-tax, additional-tax and adjustment totals are
    derived. The calculators are parameters. */
module ItemAdjustments {
  import opened Common
  import opened Adjustments

  /** The totals written back onto the item. */
  datatype Totals = Totals(promoTotal: int, includedTaxTotal: int, additionalTaxTotal: int, adjustmentTotal: int)

  /** A promotion adjustment still competing. */
  predicate Competing(a: Adjustment) { IsPromotion(a) && a.eligible }

  /** `a` is at least as good as `b`: a larger discount, or the same
      discount and created later (higher id). */
  predicate Preferred(a: Adjustment, b: Adjustment) {
    a.amount < b.amount || (a.amount == b.amount && a.id >= b.id)
  }

  /** The best competing promotion among the first `n` adjustments. */
  function BestUpTo(adjs: seq<Adjustment>, n: nat): (r: Option<nat>)
    requires n <= |adjs|
    ensures r.Some? ==> r.value < n && Competing(adjs[r.value])
    ensures r.Some? ==> forall j :: 0 <= j < n && Competing(adjs[j]) ==> Preferred(adjs[r.value], adjs[j])
    ensures r.None? <==> forall j :: 0 <= j < n ==> !Competing(adjs[j])
  {
    if n == 0 then None
    else
      var prev := BestUpTo(adjs, n - 1);
      if !Competing(adjs[n - 1]) then prev
      else if prev.None? then Some(n - 1)
      else if Preferred(adjs[prev.value], adjs[n - 1]) then prev
      else Some(n - 1)
  }

  /** `best_promotion_adjustment`: the eligible promotion adjustment with
      the largest discount. */
  function Best(adjs: seq<Adjustment>): (r: Option<nat>)
    ensures r.Some? ==> r.value < |adjs| && Competing(adjs[r.value])
    ensures r.Some? ==> forall j :: 0 <= j < |adjs| && Competing(adjs[j]) ==> adjs[r.value].amount <= adjs[j].amount
    ensures r.None? <==> forall j :: 0 <= j < |adjs| ==> !Competing(adjs[j])
  {
    BestUpTo(adjs, |adjs|)
  }

  /** `choose_best_promotion_adjustment`: when there is a best eligible
      promotion adjustment, every other promotion adjustment becomes
      ineligible; nothing else changes. */
  function ChooseBest(adjs: seq<Adjustment>): (r: seq<Adjustment>)
    ensures |r| == |adjs|
    ensures Best(adjs).None? ==> r == adjs
    ensures forall k :: 0 <= k < |r| ==> r[k] == adjs[k].(eligible := r[k].eligible)
    ensures forall k :: 0 <= k < |r| && !IsPromotion(adjs[k]) ==> r[k] == adjs[k]
    ensures Best(adjs).Some? ==>
              forall k :: 0 <= k < |r| ==> (Competing(r[k]) <==> k == Best(adjs).value)
  {
    match Best(adjs)
    case None => adjs
    case Some(b) =>
      seq(|adjs|, k requires 0 <= k < |adjs| =>
        if IsPromotion(adjs[k]) && k != b then adjs[k].(eligible := false) else adjs[k])
  }

  /** Number of eligible promotion adjustments. */
  function CompetingCount(adjs: seq<Adjustment>): nat {
    if |adjs| == 0 then 0 else (if Competing(adjs[0]) then 1 else 0) + CompetingCount(adjs[1..])
  }

  lemma {:induction false} CountOfUnique(adjs: seq<Adjustment>, b: nat)
    requires b < |adjs|
    requires forall k :: 0 <= k < |adjs| ==> (Competing(adjs[k]) <==> k == b)
    ensures CompetingCount(adjs) == 1
    decreases |adjs|
  {
    if b == 0 {
      NoneCompeting(adjs[1..]);
    } else {
      CountOfUnique(adjs[1..], b - 1);
    }
  }

  lemma {:induction false} NoneCompeting(adjs: seq<Adjustment>)
    requires forall k :: 0 <= k < |adjs| ==> !Competing(adjs[k])
    ensures CompetingCount(adjs) == 0
    decreases |adjs|
  {
    if |adjs| > 0 {
      NoneCompeting(adjs[1..]);
    }
  }

  /** After the choice exactly one promotion adjustment is eligible, the
      one with the largest discount, whenever any was eligible before. */
  lemma ChooseBestLeavesOne(adjs: seq<Adjustment>)
    requires exists k :: 0 <= k < |adjs| && Competing(adjs[k])
    ensures CompetingCount(ChooseBest(adjs)) == 1
    ensures var r := ChooseBest(adjs);
            exists b :: 0 <= b < |r| && Competing(r[b]) &&
              forall j :: 0 <= j < |adjs| && Competing(adjs[j]) ==> r[b].amount <= adjs[j].amount
  {
    var b := Best(adjs).value;
    CountOfUnique(ChooseBest(adjs), b);
  }

  /** Choosing again changes nothing. */
  lemma ChooseBestIdempotent(adjs: seq<Adjustment>)
    ensures ChooseBest(ChooseBest(adjs)) == ChooseBest(adjs)
  {
    var r := ChooseBest(adjs);
    if Best(adjs).Some? {
      var b := Best(adjs).value;
      assert Best(r) == Some(b);
    }
  }

  // ---------------------------------------------------------------------
  // update_adjustments

  /** `adjustments.promotion.each(&:update!)`: each promotion adjustment is
      recomputed, and an open one is re-tested for eligibility, so a
      promotion ineligible before can compete again. */
  function UpdatePromotions(adjs: seq<Adjustment>, promoCalc: Source -> int, promoEligible: Source -> bool)
    : (r: seq<Adjustment>)
    ensures |r| == |adjs|
    ensures forall k :: 0 <= k < |r| ==>
              r[k] == (if IsPromotion(adjs[k]) then Update(adjs[k], promoCalc, promoEligible) else adjs[k])
    ensures forall k :: 0 <= k < |r| && IsPromotion(adjs[k]) && !adjs[k].closed ==>
              r[k].amount == promoCalc(adjs[k].source) && (Competing(r[k]) <==> promoEligible(adjs[k].source))
  {
    seq(|adjs|, k requires 0 <= k < |adjs| =>
      if IsPromotion(adjs[k]) then Update(adjs[k], promoCalc, promoEligible) else adjs[k])
  }

  /** `adjustments.tax.each(&:update!)`; a tax adjustment's eligibility is
      never re-tested, so the eligibility test passed is immaterial. */
  function UpdateTaxes(adjs: seq<Adjustment>, taxCalc: Source -> int): (r: seq<Adjustment>)
    ensures |r| == |adjs|
    ensures forall k :: 0 <= k < |r| ==> r[k] == (if IsTax(adjs[k]) then Update(adjs[k], taxCalc, s => true) else adjs[k])
  {
    seq(|adjs|, k requires 0 <= k < |adjs| => if IsTax(adjs[k]) then Update(adjs[k], taxCalc, s => true) else adjs[k])
  }

  /** Sum of the amounts of the adjustments satisfying `keep`. */
  function SumWhere(adjs: seq<Adjustment>, keep: Adjustment -> bool): int {
    if |adjs| == 0 then 0 else (if keep(adjs[0]) then adjs[0].amount else 0) + SumWhere(adjs[1..], keep)
  }

  /** The promotion phase: recompute the promotions and, when they sum to
      something, keep only the best one eligible. Yields the adjustments and
      the promotion total, the best eligible amount or 0 with none. */
  function PromotionPhase(adjs: seq<Adjustment>, promoCalc: Source -> int, promoEligible: Source -> bool)
    : (r: (seq<Adjustment>, int))
    ensures |r.0| == |adjs|
    ensures (forall k :: 0 <= k < |r.0| ==> !Competing(r.0[k])) ==> r.1 == 0
    ensures forall k :: 0 <= k < |r.0| && Competing(r.0[k]) ==> r.1 <= r.0[k].amount
    ensures (exists k :: 0 <= k < |r.0| && Competing(r.0[k])) ==>
              exists k :: 0 <= k < |r.0| && Competing(r.0[k]) && r.1 == r.0[k].amount
    ensures forall k :: 0 <= k < |adjs| && !IsPromotion(adjs[k]) ==> r.0[k] == adjs[k]
    ensures forall k :: 0 <= k < |adjs| && adjs[k].closed ==> r.0[k].closed && r.0[k].amount == adjs[k].amount
    ensures forall k :: 0 <= k < |adjs| && IsPromotion(adjs[k]) && !adjs[k].closed ==>
              IsPromotion(r.0[k]) && r.0[k].amount == promoCalc(adjs[k].source)
  {
    var promos := UpdatePromotions(adjs, promoCalc, promoEligible);
    var chosen := if SumWhere(promos, IsPromotion) != 0 then ChooseBest(promos) else promos;
    var best := Best(chosen);
    (chosen, if best.Some? then chosen[best.value].amount else 0)
  }

  predicate IncludedTax(a: Adjustment) { IsTax(a) && a.included }

  predicate AdditionalTax(a: Adjustment) { IsTax(a) && !a.included }

  /** The tax phase: taxes are recomputed; everything else is left as the
      promotion phase left it. */
  function TaxPhase(adjs: seq<Adjustment>, taxCalc: Source -> int): (r: seq<Adjustment>)
    ensures |r| == |adjs|
    ensures forall k :: 0 <= k < |adjs| && !IsTax(adjs[k]) ==> r[k] == adjs[k]
    ensures forall k :: 0 <= k < |adjs| ==> Competing(r[k]) == Competing(adjs[k])
    ensures forall k :: 0 <= k < |adjs| ==> r[k] == adjs[k].(amount := r[k].amount)
    ensures forall k :: 0 <= k < |adjs| && adjs[k].closed ==> r[k].amount == adjs[k].amount
    ensures forall k :: 0 <= k < |adjs| && IsTax(adjs[k]) && !adjs[k].closed ==> r[k].amount == taxCalc(adjs[k].source)
  {
    UpdateTaxes(adjs, taxCalc)
  }

  /** The recomputed amounts survive both phases: an open promotion ends
      with its calculator's amount, and an open tax with the amount its
      calculator gives on the promotion total. */
  lemma PhasesAmounts(adjs: seq<Adjustment>, promoted: seq<Adjustment>, promoCalc: Source -> int,
                      promoTotal: int, taxCalc: (Source, int) -> int, taxed: seq<Adjustment>)
    requires |promoted| == |adjs| && |taxed| == |adjs|
    requires forall k :: 0 <= k < |adjs| && !IsPromotion(adjs[k]) ==> promoted[k] == adjs[k]
    requires forall k :: 0 <= k < |adjs| && IsPromotion(adjs[k]) && !adjs[k].closed ==>
               IsPromotion(promoted[k]) && promoted[k].amount == promoCalc(adjs[k].source)
    requires forall k :: 0 <= k < |adjs| && !IsTax(promoted[k]) ==> taxed[k] == promoted[k]
    requires forall k :: 0 <= k < |adjs| && IsTax(promoted[k]) && !promoted[k].closed ==>
               taxed[k].amount == taxCalc(promoted[k].source, promoTotal)
    ensures forall k :: 0 <= k < |adjs| && IsPromotion(adjs[k]) && !adjs[k].closed ==>
              taxed[k].amount == promoCalc(adjs[k].source)
    ensures forall k :: 0 <= k < |adjs| && IsTax(adjs[k]) && !adjs[k].closed ==>
              taxed[k].amount == taxCalc(adjs[k].source, promoTotal)
  {
    forall k | 0 <= k < |adjs| && IsTax(adjs[k]) && !adjs[k].closed
      ensures taxed[k].amount == taxCalc(adjs[k].source, promoTotal)
    {
      assert promoted[k] == adjs[k];
    }
  }

  /** What the tax phase keeps of the promotion phase's facts: the same
      competing adjustments, the promotion total still a lower bound of
      theirs, and the untouched and closed adjustments as they were. */
  lemma PhasesCompose(adjs: seq<Adjustment>, promoted: seq<Adjustment>, promoTotal: int, taxed: seq<Adjustment>)
    requires |promoted| == |adjs| && |taxed| == |adjs|
    requires (forall k :: 0 <= k < |promoted| ==> !Competing(promoted[k])) ==> promoTotal == 0
    requires forall k :: 0 <= k < |promoted| && Competing(promoted[k]) ==> promoTotal <= promoted[k].amount
    requires (exists k :: 0 <= k < |promoted| && Competing(promoted[k])) ==>
               exists k :: 0 <= k < |promoted| && Competing(promoted[k]) && promoTotal == promoted[k].amount
    requires forall k :: 0 <= k < |adjs| && !IsPromotion(adjs[k]) ==> promoted[k] == adjs[k]
    requires forall k :: 0 <= k < |adjs| && adjs[k].closed ==> promoted[k].closed && promoted[k].amount == adjs[k].amount
    requires forall k :: 0 <= k < |adjs| && !IsTax(promoted[k]) ==> taxed[k] == promoted[k]
    requires forall k :: 0 <= k < |adjs| ==> Competing(taxed[k]) == Competing(promoted[k])
    requires forall k :: 0 <= k < |adjs| ==> taxed[k] == promoted[k].(amount := taxed[k].amount)
    requires forall k :: 0 <= k < |adjs| && promoted[k].closed ==> taxed[k].amount == promoted[k].amount
    ensures (forall k :: 0 <= k < |taxed| ==> !Competing(taxed[k])) ==> promoTotal == 0
    ensures forall k :: 0 <= k < |taxed| && Competing(taxed[k]) ==> promoTotal <= taxed[k].amount
    ensures (exists k :: 0 <= k < |taxed| && Competing(taxed[k])) ==>
              exists k :: 0 <= k < |taxed| && Competing(taxed[k]) && promoTotal == taxed[k].amount
    ensures forall k :: 0 <= k < |adjs| && !IsPromotion(adjs[k]) && !IsTax(adjs[k]) ==> taxed[k] == adjs[k]
    ensures forall k :: 0 <= k < |adjs| && adjs[k].closed ==> taxed[k].amount == adjs[k].amount
  {
    forall k | 0 <= k < |taxed| && Competing(taxed[k])
      ensures promoTotal <= taxed[k].amount
    {
      assert Competing(promoted[k]);
    }
    if exists k :: 0 <= k < |taxed| && Competing(taxed[k]) {
      var j :| 0 <= j < |taxed| && Competing(taxed[j]);
      assert Competing(promoted[j]);
      var k :| 0 <= k < |promoted| && Competing(promoted[k]) && promoTotal == promoted[k].amount;
      assert Competing(taxed[k]) && taxed[k] == promoted[k];
    }
  }

  /** Every open promotion whose promotion is eligible now competes at its
      freshly computed amount, whatever its eligibility was before, so the
      promotion total is at most that amount: a promotion that has become
      eligible and is better than the one chosen before takes over. */
  lemma NewlyEligibleCompetes(adjs: seq<Adjustment>, promoCalc: Source -> int, promoEligible: Source -> bool)
    ensures var r := PromotionPhase(adjs, promoCalc, promoEligible);
            forall k :: 0 <= k < |adjs| && IsPromotion(adjs[k]) && !adjs[k].closed && promoEligible(adjs[k].source) ==>
              r.1 <= promoCalc(adjs[k].source)
  {
    var promos := UpdatePromotions(adjs, promoCalc, promoEligible);
    var r := PromotionPhase(adjs, promoCalc, promoEligible);
    forall k | 0 <= k < |adjs| && IsPromotion(adjs[k]) && !adjs[k].closed && promoEligible(adjs[k].source)
      ensures r.1 <= promoCalc(adjs[k].source)
    {
      assert Competing(promos[k]);
      var b := Best(promos).value;
      if SumWhere(promos, IsPromotion) != 0 {
        var chosen := ChooseBest(promos);
        assert Competing(chosen[b]) && chosen[b].amount == promos[b].amount;
        assert Best(chosen).value == b;
      }
    }
  }

  /** Both phases in turn: the promotion phase, then taxes recomputed with
      the promotion total at hand (`taxCalc`'s second argument). Yields the
      adjustments and the promotion total. */
  function Phases(adjs: seq<Adjustment>, promoCalc: Source -> int, promoEligible: Source -> bool,
                  taxCalc: (Source, int) -> int): (r: (seq<Adjustment>, int))
    ensures |r.0| == |adjs|
    ensures (forall k :: 0 <= k < |r.0| ==> !Competing(r.0[k])) ==> r.1 == 0
    ensures forall k :: 0 <= k < |r.0| && Competing(r.0[k]) ==> r.1 <= r.0[k].amount
    ensures (exists k :: 0 <= k < |r.0| && Competing(r.0[k])) ==>
              exists k :: 0 <= k < |r.0| && Competing(r.0[k]) && r.1 == r.0[k].amount
    ensures forall k :: 0 <= k < |adjs| && !IsPromotion(adjs[k]) && !IsTax(adjs[k]) ==> r.0[k] == adjs[k]
    ensures forall k :: 0 <= k < |adjs| && adjs[k].closed ==> r.0[k].amount == adjs[k].amount
  {
    var phase := PromotionPhase(adjs, promoCalc, promoEligible);
    var promoTotal := phase.1;
    var taxed := TaxPhase(phase.0, s => taxCalc(s, promoTotal));
    PhasesCompose(adjs, phase.0, promoTotal, taxed);
    (taxed, promoTotal)
  }

  /** After both phases every open promotion carries its calculator's
      amount and every open tax the amount its calculator gives on the
      promotion total; the promotion total is at most the amount of every
      open promotion eligible now. */
  lemma PhasesRecompute(adjs: seq<Adjustment>, promoCalc: Source -> int, promoEligible: Source -> bool,
                        taxCalc: (Source, int) -> int)
    ensures var r := Phases(adjs, promoCalc, promoEligible, taxCalc);
            && (forall k :: 0 <= k < |adjs| && IsPromotion(adjs[k]) && !adjs[k].closed && promoEligible(adjs[k].source) ==>
                  r.1 <= promoCalc(adjs[k].source))
            && (forall k :: 0 <= k < |adjs| && IsPromotion(adjs[k]) && !adjs[k].closed ==>
                  r.0[k].amount == promoCalc(adjs[k].source))
            && (forall k :: 0 <= k < |adjs| && IsTax(adjs[k]) && !adjs[k].closed ==>
                  r.0[k].amount == taxCalc(adjs[k].source, r.1))
  {
    var phase := PromotionPhase(adjs, promoCalc, promoEligible);
    NewlyEligibleCompetes(adjs, promoCalc, promoEligible);
    var promoTotal := phase.1;
    var taxed := TaxPhase(phase.0, s => taxCalc(s, promoTotal));
    PhasesAmounts(adjs, phase.0, promoCalc, promoTotal, taxCalc, taxed);
  }

  /** `update_adjustments`: both phases, then the tax summed separately for
      included and additional tax; the adjustment total is the promotion
      total plus the additional tax only. */
  function UpdateAdjustments(adjs: seq<Adjustment>, promoCalc: Source -> int, promoEligible: Source -> bool,
                             taxCalc: (Source, int) -> int): (r: (seq<Adjustment>, Totals))
    ensures |r.0| == |adjs|
    ensures r.1.adjustmentTotal == r.1.promoTotal + r.1.additionalTaxTotal
    ensures r.1.includedTaxTotal == SumWhere(r.0, IncludedTax)
    ensures r.1.additionalTaxTotal == SumWhere(r.0, AdditionalTax)
    ensures (forall k :: 0 <= k < |r.0| ==> !Competing(r.0[k])) ==> r.1.promoTotal == 0
    ensures forall k :: 0 <= k < |r.0| && Competing(r.0[k]) ==> r.1.promoTotal <= r.0[k].amount
    ensures (exists k :: 0 <= k < |r.0| && Competing(r.0[k])) ==>
              exists k :: 0 <= k < |r.0| && Competing(r.0[k]) && r.1.promoTotal == r.0[k].amount
    ensures forall k :: 0 <= k < |adjs| && IsPromotion(adjs[k]) && !adjs[k].closed && promoEligible(adjs[k].source) ==>
              r.1.promoTotal <= promoCalc(adjs[k].source)
    ensures forall k :: 0 <= k < |adjs| && !IsPromotion(adjs[k]) && !IsTax(adjs[k]) ==> r.0[k] == adjs[k]
    ensures forall k :: 0 <= k < |adjs| && adjs[k].closed ==> r.0[k].amount == adjs[k].amount
    ensures forall k :: 0 <= k < |adjs| && IsPromotion(adjs[k]) && !adjs[k].closed ==>
              r.0[k].amount == promoCalc(adjs[k].source)
    ensures forall k :: 0 <= k < |adjs| && IsTax(adjs[k]) && !adjs[k].closed ==>
              r.0[k].amount == taxCalc(adjs[k].source, r.1.promoTotal)
  {
    var (taxed, promoTotal) := Phases(adjs, promoCalc, promoEligible, taxCalc);
    PhasesRecompute(adjs, promoCalc, promoEligible, taxCalc);
    var additional := SumWhere(taxed, AdditionalTax);
    (taxed, Totals(promoTotal, SumWhere(taxed, IncludedTax), additional, promoTotal + additional))
  }

  // ---------------------------------------------------------------------
  // Scenarios (money in cents)

  function Promo(id: nat, amount: int, eligible: bool): Adjustment {
    Adjustment(id, "Promotion", PromotionAction(1), amount, eligible, true, false)
  }

  /** -1.00, -2.00 and -3.00 promotions next to a -5.00 credit: only the
      -3.00 promotion stays eligible and the credit is left alone. */
  lemma BestOfThree()
    ensures var adjs := [Promo(1, -100, true), Promo(2, -200, true), Promo(3, -300, true),
                         Adjustment(4, "Some other credit", NoSource, -500, true, true, false)];
            var r := ChooseBest(adjs);
            !r[0].eligible && !r[1].eligible && r[2].eligible && r[3] == adjs[3]
            && CompetingCount(r) == 1
  {
    var adjs := [Promo(1, -100, true), Promo(2, -200, true), Promo(3, -300, true),
                 Adjustment(4, "Some other credit", NoSource, -500, true, true, false)];
    assert Competing(adjs[2]);
    ChooseBestLeavesOne(adjs);
  }

  /** Two promotions tie for the best amount: one of them stays eligible. */
  lemma TieLeavesOne()
    ensures var r := ChooseBest([Promo(1, -100, true), Promo(2, -200, true), Promo(3, -200, true)]);
            CompetingCount(r) == 1 && !r[0].eligible && (r[1].eligible || r[2].eligible)
  {
    var adjs := [Promo(1, -100, true), Promo(2, -200, true), Promo(3, -200, true)];
    assert Competing(adjs[1]);
    ChooseBestLeavesOne(adjs);
  }

  /** The bigger promotion is not eligible: the eligible -1.00 one stays. */
  lemma BestIneligibleKeepsPrevious()
    ensures ChooseBest([Promo(1, -100, true), Promo(3, -300, false)])[0].eligible
  {
    assert Competing([Promo(1, -100, true), Promo(3, -300, false)][0]);
  }

  /** A $10 promotion and a 5% tax on a $20 item, computed on the
      discounted $10: included tax only reaches the included total;
      additional tax is added to the adjustment total. */
  lemma TaxAndPromotionScenarios()
    ensures var adjs := [Adjustment(1, "$10 off", PromotionAction(1), 0, true, false, false),
                         Adjustment(2, "Tax", TaxRate(1), 0, true, false, true)];
            var r := UpdateAdjustments(adjs, s => -1000, s => true, (s, promo) => (2000 + promo) * 5 / 100);
            r.1 == Totals(-1000, 50, 0, -1000)
    ensures var adjs := [Adjustment(1, "$10 off", PromotionAction(1), 0, true, false, false),
                         Adjustment(2, "Tax", TaxRate(1), 0, true, false, false)];
            var r := UpdateAdjustments(adjs, s => -1000, s => true, (s, promo) => (2000 + promo) * 5 / 100);
            r.1 == Totals(-1000, 0, 50, -950)
  {
    TaxScenario(true);
    TaxScenario(false);
  }

  lemma TaxScenario(included: bool)
    ensures var adjs := [Adjustment(1, "$10 off", PromotionAction(1), 0, true, false, false),
                         Adjustment(2, "Tax", TaxRate(1), 0, true, false, included)];
            var r := UpdateAdjustments(adjs, s => -1000, s => true, (s, promo) => (2000 + promo) * 5 / 100);
            r.1 == Totals(-1000, if included then 50 else 0, if included then 0 else 50,
                          if included then -1000 else -950)
  {
    var adjs := [Adjustment(1, "$10 off", PromotionAction(1), 0, true, false, false),
                 Adjustment(2, "Tax", TaxRate(1), 0, true, false, included)];
    PhaseScenario(adjs);
    var chosen := [adjs[0].(amount := -1000), adjs[1]];
    var taxCalc := (s: Source, promo: int) => (2000 + promo) * 5 / 100;
    var taxed := TaxPhase(chosen, s => taxCalc(s, -1000));
    assert taxed == [chosen[0], adjs[1].(amount := 50)];
    assert taxed[1..][1..] == [];
    assert SumWhere(taxed[1..], IncludedTax) == (if included then 50 else 0);
    assert SumWhere(taxed[1..], AdditionalTax) == (if included then 0 else 50);
  }

  lemma PhaseScenario(adjs: seq<Adjustment>)
    requires |adjs| == 2 && adjs[0] == Adjustment(1, "$10 off", PromotionAction(1), 0, true, false, false)
    requires adjs[1].source == TaxRate(1) && !adjs[1].closed && adjs[1].eligible
    ensures PromotionPhase(adjs, s => -1000, s => true).1 == -1000
    ensures PromotionPhase(adjs, s => -1000, s => true).0 == [adjs[0].(amount := -1000), adjs[1]]
  {
    var promos := UpdatePromotions(adjs, s => -1000, s => true);
    assert promos == [adjs[0].(amount := -1000), adjs[1]];
    assert promos[1..][1..] == [];
    assert SumWhere(promos[1..], IsPromotion) == 0;
    assert SumWhere(promos, IsPromotion) == -1000;
    assert Competing(promos[0]) && !Competing(promos[1]);
    assert ChooseBest(promos) == promos;
  }

  /** The order promotions of $5 (item total at least $10) and $10 (item
      total at least $20), both applied to an order whose item total is
      $10: only the $5 one is eligible and chosen. Once the item total
      reaches $20 both are eligible, and the $10 one, ineligible before,
      becomes the only eligible promotion. */
  lemma PreviouslyIneligibleBecomesBest()
    ensures var adjs := [Adjustment(1, "Promotion 1", PromotionAction(1), 0, true, false, false),
                         Adjustment(2, "Promotion 2", PromotionAction(2), 0, true, false, false)];
            var before := PromotionPhase(adjs, OrderPromoAmount, s => s == PromotionAction(1));
            var after := PromotionPhase(before.0, OrderPromoAmount, s => true);
            && Competing(before.0[0]) && !Competing(before.0[1]) && before.1 == -500
            && !Competing(after.0[0]) && Competing(after.0[1]) && after.1 == -1000
  {
    var adjs := [Adjustment(1, "Promotion 1", PromotionAction(1), 0, true, false, false),
                 Adjustment(2, "Promotion 2", PromotionAction(2), 0, true, false, false)];
    var promos := UpdatePromotions(adjs, OrderPromoAmount, s => s == PromotionAction(1));
    assert promos == [adjs[0].(amount := -500), adjs[1].(amount := -1000, eligible := false)];
    assert promos[1..][1..] == [];
    assert SumWhere(promos[1..], IsPromotion) == -1000;
    assert SumWhere(promos, IsPromotion) == -1500;
    assert Best(promos) == Some(0) by {
      assert BestUpTo(promos, 1) == Some(0);
    }
    var before := PromotionPhase(adjs, OrderPromoAmount, s => s == PromotionAction(1));
    assert before.0 == promos;
    var promos2 := UpdatePromotions(before.0, OrderPromoAmount, s => true);
    assert promos2 == [promos[0], promos[1].(eligible := true)];
    assert promos2[1..][1..] == [];
    assert SumWhere(promos2[1..], IsPromotion) == -1000;
    assert SumWhere(promos2, IsPromotion) == -1500;
    assert Best(promos2) == Some(1) by {
      assert BestUpTo(promos2, 1) == Some(0);
    }
    var chosen := ChooseBest(promos2);
    assert chosen == [promos2[0].(eligible := false), promos2[1]];
    assert Best(chosen) == Some(1) by {
      assert BestUpTo(chosen, 1) == None;
    }
  }

  /** The calculators of the two order promotions: $5 and $10 off. */
  function OrderPromoAmount(s: Source): int {
    if s == PromotionAction(1) then -500 else -1000
  }
}

=== FILE: order.dfy ===
/** The order predicates and bookkeeping: which states can ship, whether
    checkout is allowed, line-item lookup by variant, the amount, merging
    another order's line items in, the tax total, whether a confirmation
    step is required, and the decisions `finalize!` takes. */
module Orders {
  import opened Common
  import opened Adjustments
  import Shipments

  /** One line of the order: a variant, how many of it and the unit price
      in cents. */
  datatype LineItem = LineItem(variant: nat, quantity: nat, price: int)

  datatype Order = Order(
    state: OrderState,
    lineItems: seq<LineItem>,
    adjustments: seq<Adjustment>,
    shipments: seq<Shipments.Shipment>,
    completedAt: Option<nat>,
    confirmationDelivered: bool,
    additionalTaxTotal: int,
    includedTaxTotal: int)

  // ---------------------------------------------------------------------
  // Predicates

  /** `can_ship?`. */
  predicate CanShip(state: OrderState) {
    state == Complete || state == Resumed || state == AwaitingReturn || state == Returned
  }

  /** Exactly four states can ship; in particular no checkout state and
      neither a canceled nor a risky order. */
  lemma CanShipStates(state: OrderState)
    ensures CanShip(state) <==> state in {Complete, Resumed, AwaitingReturn, Returned}
    ensures state in {Cart, Address, Delivery, Payment, Confirm, Canceled, ConsideredRisky} ==> !CanShip(state)
  {
  }

  /** `checkout_allowed?`: the order has a line item. */
  predicate CheckoutAllowed(o: Order) { |o.lineItems| > 0 }

  /** `completed?`: a completion time is recorded. */
  predicate Completed(o: Order) { o.completedAt.Some? }

  /** `backordered?`: some shipment is backordered. */
  predicate Backordered(o: Order) {
    exists i :: 0 <= i < |o.shipments| && Shipments.AnyBackordered(o.shipments[i].units)
  }

  /** `tax_total`. */
  function TaxTotal(o: Order): int { o.additionalTaxTotal + o.includedTaxTotal }

  /** The tax example: additional 10 and included 20 make 30. */
  lemma TaxTotalScenario(o: Order)
    requires o.additionalTaxTotal == 10 && o.includedTaxTotal == 20
    ensures TaxTotal(o) == 30
  {
  }

  // ---------------------------------------------------------------------
  // Line items by variant

  /** `find_line_item_by_variant`: the first line of the variant. */
  function FindLineItem(lines: seq<LineItem>, v: nat): (r: Option<nat>)
    ensures r.Some? ==> r.value < |lines| && lines[r.value].variant == v
                        && forall j :: 0 <= j < r.value ==> lines[j].variant != v
    ensures r.None? <==> forall j :: 0 <= j < |lines| ==> lines[j].variant != v
  {
    if |lines| == 0 then None
    else if lines[0].variant == v then Some(0)
    else
      var r := FindLineItem(lines[1..], v);
      if r.Some? then Some(r.value + 1) else None
  }

  /** `contains?`. */
  predicate Contains(lines: seq<LineItem>, v: nat) { FindLineItem(lines, v).Some? }

  /** `quantity_of`: the quantity on the variant's line, or 0. */
  function QuantityOf(lines: seq<LineItem>, v: nat): (r: nat)
    ensures !Contains(lines, v) ==> r == 0
    ensures Contains(lines, v) ==> r == lines[FindLineItem(lines, v).value].quantity
  {
    match FindLineItem(lines, v)
    case None => 0
    case Some(i) => lines[i].quantity
  }

  /** A variant is contained exactly when some line carries it, and then
      its quantity is that line's when lines are one per variant. */
  lemma ContainsAgreesWithLines(lines: seq<LineItem>, v: nat, i: nat)
    requires UniqueVariants(lines) && i < |lines| && lines[i].variant == v
    ensures Contains(lines, v) && QuantityOf(lines, v) == lines[i].quantity
  {
  }

  /** The lookup example: with lines for variants 1 (quantity 1) and 2
      (quantity 2), variant 1 is contained with quantity 1 and variant 3 is
      absent with quantity 0. */
  lemma LookupScenario()
    ensures var lines := [LineItem(1, 1, 1000), LineItem(2, 2, 1000)];
            Contains(lines, 1) && QuantityOf(lines, 1) == 1
            && !Contains(lines, 3) && QuantityOf(lines, 3) == 0
  {
  }

  /** At most one line per variant. */
  predicate UniqueVariants(lines: seq<LineItem>) {
    forall i, j :: 0 <= i < j < |lines| ==> lines[i].variant != lines[j].variant
  }

  // ---------------------------------------------------------------------
  // Amount

  /** A line's amount: price times quantity. */
  function LineAmount(l: LineItem): int { l.price * l.quantity }

  /** `amount`: the sum of the line amounts. */
  function Amount(lines: seq<LineItem>): int {
    if |lines| == 0 then 0 else Amount(lines[..|lines| - 1]) + LineAmount(lines[|lines| - 1])
  }

  /** Number of units over all lines (`item_count`). */
  function ItemCount(lines: seq<LineItem>): nat {
    if |lines| == 0 then 0 else ItemCount(lines[..|lines| - 1]) + lines[|lines| - 1].quantity
  }

  /** Changing one line changes the amount by the difference of the two
      line amounts. */
  lemma {:induction false} AmountUpdate(lines: seq<LineItem>, i: nat, l: LineItem)
    requires i < |lines|
    ensures Amount(lines[i := l]) == Amount(lines) - LineAmount(lines[i]) + LineAmount(l)
    decreases |lines|
  {
    var n := |lines| - 1;
    if i < n {
      assert lines[i := l][..n] == lines[..n][i := l];
      AmountUpdate(lines[..n], i, l);
    } else {
      assert lines[i := l][..n] == lines[..n];
    }
  }

  /** Adding `q` units of a variant raises the amount by `q` times the
      unit price of the variant's line, or of the new line when the variant
      had none. */
  lemma AmountAdd(lines: seq<LineItem>, v: nat, q: nat, price: int)
    ensures Amount(Add(lines, v, q, price))
            == Amount(lines) + q * (if Contains(lines, v) then lines[FindLineItem(lines, v).value].price else price)
  {
    if Contains(lines, v) {
      var i := FindLineItem(lines, v).value;
      var l := lines[i].(quantity := lines[i].quantity + q);
      assert Add(lines, v, q, price) == lines[i := l];
      AmountUpdate(lines, i, l);
      MoreUnits(lines[i], q);
    } else {
      var added := lines + [LineItem(v, q, price)];
      assert added[..|lines|] == lines;
      assert Amount(added) == Amount(lines) + q * price;
    }
  }

  lemma MoreUnits(l: LineItem, q: nat)
    ensures LineAmount(l.(quantity := l.quantity + q)) == LineAmount(l) + q * l.price
  {
    assert l.price * (l.quantity + q) == l.price * l.quantity + l.price * q;
  }

  /** The amount example: 1.00 x 2 and 1.00 x 1 make 3.00. */
  lemma AmountScenario()
    ensures Amount([LineItem(1, 2, 100), LineItem(2, 1, 100)]) == 300
  {
    assert [LineItem(1, 2, 100), LineItem(2, 1, 100)][..1] == [LineItem(1, 2, 100)];
  }

  // ---------------------------------------------------------------------
  // Adding and merging

  /** `contents.add(variant, quantity)`: the quantity goes onto the
      variant's line when there is one, otherwise a new line at `price` is
      appended. */
  function Add(lines: seq<LineItem>, v: nat, q: nat, price: int): (r: seq<LineItem>)
    ensures Contains(lines, v) ==> |r| == |lines|
    ensures !Contains(lines, v) ==> r == lines + [LineItem(v, q, price)]
    ensures Contains(lines, v) ==>
              var i := FindLineItem(lines, v).value;
              r == lines[i := lines[i].(quantity := lines[i].quantity + q)]
  {
    match FindLineItem(lines, v)
    case None => lines + [LineItem(v, q, price)]
    case Some(i) => lines[i := lines[i].(quantity := lines[i].quantity + q)]
  }

  /** The first line of a variant is where the lookup finds it. */
  lemma FindAt(lines: seq<LineItem>, v: nat, k: nat)
    requires k < |lines| && lines[k].variant == v
    requires forall j :: 0 <= j < k ==> lines[j].variant != v
    ensures FindLineItem(lines, v) == Some(k)
  {
    var r := FindLineItem(lines, v);
    assert r.Some?;
    assert !(r.value < k) && !(r.value > k);
  }

  /** Adding raises the variant's quantity by `q` and leaves every other
      variant's quantity alone. */
  lemma AddQuantity(lines: seq<LineItem>, v: nat, q: nat, price: int, w: nat)
    ensures QuantityOf(Add(lines, v, q, price), w) == QuantityOf(lines, w) + (if w == v then q else 0)
  {
    var r := Add(lines, v, q, price);
    if Contains(lines, w) {
      var k := FindLineItem(lines, w).value;
      FindAt(r, w, k);
    } else if w == v {
      FindAt(r, w, |lines|);
    } else {
      assert FindLineItem(r, w).None?;
    }
  }

  /** Adding keeps the lines one per variant. */
  lemma AddKeepsUnique(lines: seq<LineItem>, v: nat, q: nat, price: int)
    requires UniqueVariants(lines)
    ensures UniqueVariants(Add(lines, v, q, price))
  {
  }

  /** `merge!(other)`: every line of the other order is added in turn. */
  function Merge(lines: seq<LineItem>, other: seq<LineItem>): (r: seq<LineItem>)
    ensures |lines| <= |r| <= |lines| + |other|
    ensures |other| > 0 ==> |r| > 0
    ensures forall i :: 0 <= i < |lines| ==> r[i].variant == lines[i].variant
    decreases |other|
  {
    if |other| == 0 then lines
    else
      var next := Add(lines, other[0].variant, other[0].quantity, other[0].price);
      assert forall i :: 0 <= i < |lines| ==> next[i].variant == lines[i].variant;
      Merge(next, other[1..])
  }

  /** Checkout is allowed after a merge exactly when this order had a line
      or the other order brought one. */
  lemma CheckoutAfterMerge(o: Order, other: seq<LineItem>)
    ensures CheckoutAllowed(o.(lineItems := Merge(o.lineItems, other)))
            <==> CheckoutAllowed(o) || |other| > 0
  {
  }

  /** Quantity of `w` over all lines, counting every line of the variant. */
  function TotalQuantity(lines: seq<LineItem>, w: nat): nat {
    if |lines| == 0 then 0
    else (if lines[0].variant == w then lines[0].quantity else 0) + TotalQuantity(lines[1..], w)
  }

  /** After a merge each variant's quantity is its quantity in this order
      plus all of its quantity in the other. */
  lemma {:induction false} MergeQuantity(lines: seq<LineItem>, other: seq<LineItem>, w: nat)
    ensures QuantityOf(Merge(lines, other), w) == QuantityOf(lines, w) + TotalQuantity(other, w)
    decreases |other|
  {
    if |other| > 0 {
      var next := Add(lines, other[0].variant, other[0].quantity, other[0].price);
      AddQuantity(lines, other[0].variant, other[0].quantity, other[0].price, w);
      MergeQuantity(next, other[1..], w);
    }
  }

  /** A merge keeps the lines one per variant. */
  lemma {:induction false} MergeKeepsUnique(lines: seq<LineItem>, other: seq<LineItem>)
    requires UniqueVariants(lines)
    ensures UniqueVariants(Merge(lines, other))
    decreases |other|
  {
    if |other| > 0 {
      var next := Add(lines, other[0].variant, other[0].quantity, other[0].price);
      AddKeepsUnique(lines, other[0].variant, other[0].quantity, other[0].price);
      MergeKeepsUnique(next, other[1..]);
    }
  }

  /** The merge examples: two orders holding one unit of the same variant
      merge into a single line of quantity 2; orders holding different
      variants merge into two lines of quantity 1 each, with an item count
      of 2 and an amount that is the sum of the line amounts. */
  lemma MergeScenarios(v: nat, w: nat, p: int, p2: int)
    requires v != w
    ensures Merge([LineItem(v, 1, p)], [LineItem(v, 1, p)]) == [LineItem(v, 2, p)]
    ensures Merge([LineItem(v, 1, p)], [LineItem(w, 1, p2)]) == [LineItem(v, 1, p), LineItem(w, 1, p2)]
    ensures ItemCount(Merge([LineItem(v, 1, p)], [LineItem(w, 1, p2)])) == 2
    ensures Amount(Merge([LineItem(v, 1, p)], [LineItem(w, 1, p2)])) == p + p2
  {
    assert FindLineItem([LineItem(v, 1, p)], v) == Some(0);
    assert FindLineItem([LineItem(v, 1, p)], w).None?;
    var merged := [LineItem(v, 1, p), LineItem(w, 1, p2)];
    assert Merge([LineItem(v, 1, p)], [LineItem(w, 1, p2)]) == merged;
    assert merged[..1] == [LineItem(v, 1, p)];
    assert merged[..1][..0] == [];
    assert ItemCount(merged[..1]) == 1;
    assert Amount(merged[..1]) == p * 1;
  }

  // ---------------------------------------------------------------------
  // confirmation_required?

  /** `confirmation_required?`: the store always includes the confirm step,
      the order's payments ask for one (a collaborator outside this model,
      here a parameter), or the order is in the confirm state. */
  predicate ConfirmationRequired(o: Order, alwaysIncludeConfirmStep: bool, paymentsNeedConfirmation: bool) {
    alwaysIncludeConfirmStep || paymentsNeedConfirmation || o.state == Confirm
  }

  /** Either setting alone forces the confirm step for an order in any
      state; with neither, exactly an order already in confirm requires it. */
  lemma ConfirmationRequiredCases(o: Order, always: bool, payments: bool)
    ensures always || payments ==> ConfirmationRequired(o, always, payments)
    ensures !always && !payments ==> (ConfirmationRequired(o, always, payments) <==> o.state == Confirm)
    ensures o.state == Confirm ==> ConfirmationRequired(o, always, payments)
  {
  }

  /** The confirmation examples: a new (cart) order needs none unless the
      store always includes the step; an order in confirm needs one. */
  lemma ConfirmationScenarios(o: Order)
    requires o.state == Cart
    ensures !ConfirmationRequired(o, false, false)
    ensures ConfirmationRequired(o, true, false)
    ensures ConfirmationRequired(o.(state := Confirm), false, false)
  {
  }

  // ---------------------------------------------------------------------
  // finalize!

  /** What `finalize!` leaves behind: the order and whether the
      confirmation email went out. */
  datatype Finalized = Finalized(order: Order, confirmationSent: bool)

  /** `finalize!` at time `now`: the completion time is set, every
      adjustment of the order and of its shipments is closed, each shipment
      is updated against the order
      (`paid` is the payment state's answer), the confirmation is sent
      unless it already was, and a risky order that is not approved is put
      on hold as considered risky. */
  function Finalize(o: Order, now: nat, paid: bool, risky: bool, approved: bool): (r: Finalized)
    ensures r.order.completedAt == Some(now)
    ensures r.order.confirmationDelivered
    ensures r.confirmationSent <==> !o.confirmationDelivered
    ensures |r.order.adjustments| == |o.adjustments|
    ensures forall i :: 0 <= i < |o.adjustments| ==>
              r.order.adjustments[i].closed && r.order.adjustments[i] == o.adjustments[i].(closed := true)
    ensures r.order.state == (if risky && !approved then ConsideredRisky else o.state)
    ensures |r.order.shipments| == |o.shipments|
    ensures forall i :: 0 <= i < |o.shipments| ==>
              var before, after := o.shipments[i], r.order.shipments[i];
              |after.adjustments| == |before.adjustments|
              && forall j :: 0 <= j < |before.adjustments| ==>
                   after.adjustments[j].closed && after.adjustments[j] == before.adjustments[j].(closed := true)
    ensures r.order.lineItems == o.lineItems
  {
    var view := Shipments.OrderView(o.state == Canceled, CanShip(o.state), paid);
    var shipments := seq(|o.shipments|, i requires 0 <= i < |o.shipments| =>
      Shipments.UpdateState(o.shipments[i].(adjustments := CloseAll(o.shipments[i].adjustments)), view));
    var done := o.(completedAt := Some(now), adjustments := CloseAll(o.adjustments),
                   shipments := shipments, confirmationDelivered := true);
    Finalized(if risky && !approved then done.(state := ConsideredRisky) else done,
              !o.confirmationDelivered)
  }

  /** Finalizing twice sends the confirmation at most once, and the
      closed adjustments no later recomputation can move. */
  lemma FinalizeOnce(o: Order, t1: nat, t2: nat, paid: bool, risky: bool, approved: bool,
                     compute: Source -> int, eligibleFor: Source -> bool)
    ensures var first := Finalize(o, t1, paid, risky, approved);
            !Finalize(first.order, t2, paid, risky, approved).confirmationSent
            && (forall i :: 0 <= i < |first.order.adjustments| ==>
                  Update(first.order.adjustments[i], compute, eligibleFor) == first.order.adjustments[i])
            && forall i, j :: 0 <= i < |first.order.shipments| && 0 <= j < |first.order.shipments[i].adjustments| ==>
                 Update(first.order.shipments[i].adjustments[j], compute, eligibleFor)
                 == first.order.shipments[i].adjustments[j]
  {
  }

  /** The finalize examples on a complete order: an unrisky order stays
      complete; a risky one goes to considered risky unless approved, in
      which case it stays complete. */
  lemma FinalizeScenarios(o: Order, now: nat, paid: bool)
    requires o.state == Complete
    ensures Finalize(o, now, paid, false, false).order.state == Complete
    ensures Finalize(o, now, paid, true, false).order.state == ConsideredRisky
    ensures Finalize(o, now, paid, true, true).order.state == Complete
  {
  }

  /** On a complete order the shipments are updated as for an order that
      can ship: a shipment of a paid order with nothing backordered that
      has not shipped becomes ready. */
  lemma FinalizeReadiesShipments(o: Order, now: nat, risky: bool, approved: bool, i: nat)
    requires o.state == Complete && i < |o.shipments|
    requires !Shipments.AnyBackordered(o.shipments[i].units) && o.shipments[i].state != Shipments.Shipped
    ensures Finalize(o, now, true, risky, approved).order.shipments[i].state == Shipments.Ready
  {
  }

  /** Finalizing readies a shipment only for an order that can ship: it
      becomes ready exactly when the order can ship, is paid, and the
      shipment has not shipped and waits on no backorder; an order in any
      other state, short of canceled, leaves its shipments pending. */
  lemma FinalizeShipsOnlyWhenCanShip(o: Order, now: nat, paid: bool, risky: bool, approved: bool)
    ensures var r := Finalize(o, now, paid, risky, approved).order;
            forall i :: 0 <= i < |o.shipments| ==>
              (r.shipments[i].state == Shipments.Ready <==>
                 CanShip(o.state) && paid && !Shipments.AnyBackordered(o.shipments[i].units)
                 && o.shipments[i].state != Shipments.Shipped)
              && (!CanShip(o.state) && o.state != Canceled ==> r.shipments[i].state == Shipments.Pending)
  {
  }

  /** `finalize!` moves no money: the line items, and so the amount, and
      the tax totals are those of the order before. */
  lemma FinalizeKeepsTotals(o: Order, now: nat, paid: bool, risky: bool, approved: bool)
    ensures var r := Finalize(o, now, paid, risky, approved).order;
            Amount(r.lineItems) == Amount(o.lineItems) && TaxTotal(r) == TaxTotal(o)
            && ItemCount(r.lineItems) == ItemCount(o.lineItems)
  {
  }

  /** A finalized order is completed; it is backordered exactly when it was
      before, and then some shipment of it is not ready. */
  lemma FinalizeBackordered(o: Order, now: nat, paid: bool, risky: bool, approved: bool)
    ensures var r := Finalize(o, now, paid, risky, approved).order;
            Completed(r)
            && (Backordered(r) <==> Backordered(o))
            && (Backordered(o) ==> exists i :: 0 <= i < |r.shipments| && r.shipments[i].state != Shipments.Ready)
  {
    var r := Finalize(o, now, paid, risky, approved).order;
    assert forall i :: 0 <= i < |o.shipments| ==> r.shipments[i].units == o.shipments[i].units;
    if Backordered(o) {
      var i :| 0 <= i < |o.shipments| && Shipments.AnyBackordered(o.shipments[i].units);
      assert r.shipments[i].state != Shipments.Ready;
    }
  }

  /** The predicate examples: an order with a backordered shipment among
      others is backordered; an order without lines cannot check out and
      one with a line added can; an order is completed once finalized and
      not while it has no completion time. */
  lemma OrderPredicateScenarios(o: Order, s1: Shipments.Shipment, s2: Shipments.Shipment,
                                v: nat, q: nat, price: int, now: nat)
    requires !Shipments.AnyBackordered(s1.units) && Shipments.AnyBackordered(s2.units)
    ensures Backordered(o.(shipments := [s1, s2]))
    ensures !CheckoutAllowed(o.(lineItems := []))
    ensures CheckoutAllowed(o.(lineItems := Add(o.lineItems, v, q, price)))
    ensures !Completed(o.(completedAt := None))
    ensures Completed(Finalize(o, now, false, false, false).order)
  {
    assert o.(shipments := [s1, s2]).shipments[1] == s2;
  }
}

=== FILE: page.dfy ===
/** Static content pages: the position a new page starts at, the link a
    page shows, the slug normalisation and position shifting done before
    every save, and the page validations. Positions are kept as a map from
    page id to position, the table the position shifts update in bulk. */
module Pages {
  import opened Common

  datatype Page = Page(
    id: nat,
    title: Option<string>,
    slug: Option<string>,
    body: Option<string>,
    foreignLink: Option<string>,
    layout: Option<string>,
    renderLayoutAsPartial: bool,
    position: int)

  /** `not_using_foreign_link?`. */
  predicate NotUsingForeignLink(p: Page) { IsBlankOpt(p.foreignLink) }

  /** `initialize`: one past the last page in position order, or 0 when
      there are no pages yet. */
  function InitialPosition(positions: seq<int>): (r: int)
    ensures |positions| == 0 ==> r == 0
    ensures forall i :: 0 <= i < |positions| ==> positions[i] < r
    ensures |positions| > 0 ==> r - 1 in positions
  {
    if |positions| == 0 then 0
    else if |positions| == 1 then positions[0] + 1
    else
      var r := InitialPosition(positions[1..]);
      assert r - 1 in positions;
      if positions[0] + 1 >= r then positions[0] + 1 else r
  }

  /** `link`: the foreign link when there is one, otherwise the slug. */
  function Link(p: Page): (r: Option<string>)
    ensures IsBlankOpt(p.foreignLink) ==> r == p.slug
    ensures !IsBlankOpt(p.foreignLink) ==> r == p.foreignLink && !IsBlankOpt(r)
  {
    if IsBlankOpt(p.foreignLink) then p.slug else p.foreignLink
  }

  /** The slug half of `update_positions_and_slug`: without a foreign link
      the slug gets a leading `/` unless it already has one. */
  function NormalizeSlug(slug: string, usingForeignLink: bool): (r: string)
    ensures usingForeignLink ==> r == slug
    ensures !usingForeignLink ==> StartsWith(r, "/")
    ensures r == slug || r == "/" + slug
  {
    if !usingForeignLink && !StartsWith(slug, "/") then "/" + slug else slug
  }

  lemma NormalizeSlugIdempotent(slug: string, usingForeignLink: bool)
    ensures NormalizeSlug(NormalizeSlug(slug, usingForeignLink), usingForeignLink)
            == NormalizeSlug(slug, usingForeignLink)
  {
  }

  /** A slug that already starts with `/` is left alone. */
  lemma NormalizeSlugKeepsRooted(slug: string)
    requires |slug| > 0 && slug[0] == '/'
    ensures NormalizeSlug(slug, false) == slug
  {
  }

  /** The page that is saved with a normalised slug links to a path. */
  lemma SavedPageLinksToPath(p: Page)
    requires p.slug.Some? && NotUsingForeignLink(p)
    ensures var saved := p.(slug := Some(NormalizeSlug(p.slug.value, false)));
            Link(saved).Some? && StartsWith(Link(saved).value, "/")
  {
  }

  // ---------------------------------------------------------------------
  // Position shifting

  /** The new position of page `k` when page `id` moves from `prev` to
      `target`: moving up pushes the pages in `[target, prev)` down one
      place, moving down pulls the pages in `(prev, target]` up one place. */
  function Shifted(pos: int, prev: int, target: int): (r: int)
    ensures prev > target && target <= pos < prev ==> r == pos + 1
    ensures prev < target && prev < pos <= target ==> r == pos - 1
    ensures !(prev > target && target <= pos < prev) && !(prev < target && prev < pos <= target) ==> r == pos
  {
    if prev > target && target <= pos < prev then pos + 1
    else if prev < target && prev < pos <= target then pos - 1
    else pos
  }

  /** The position half of `update_positions_and_slug` for a saved page
      `id` whose position becomes `target`. */
  function Reposition(positions: map<nat, int>, id: nat, target: int): (r: map<nat, int>)
    requires id in positions
    ensures r.Keys == positions.Keys
    ensures r[id] == target
    ensures forall k :: k in positions && k != id ==> r[k] == Shifted(positions[k], positions[id], target)
  {
    var prev := positions[id];
    map k | k in positions :: if k == id then target else Shifted(positions[k], prev, target)
  }

  /** Positions that are exactly `0 .. n-1`, one per page. */
  predicate IsPermutation(positions: map<nat, int>) {
    (forall k :: k in positions ==> 0 <= positions[k] < |positions|)
    && (forall k1, k2 :: k1 in positions && k2 in positions && k1 != k2 ==> positions[k1] != positions[k2])
  }

  /** Moving one page to another valid position keeps the positions a
      permutation. */
  lemma RepositionKeepsPermutation(positions: map<nat, int>, id: nat, target: int)
    requires id in positions && IsPermutation(positions)
    requires 0 <= target < |positions|
    ensures IsPermutation(Reposition(positions, id, target))
  {
    var r := Reposition(positions, id, target);
    var prev := positions[id];
    assert |r| == |r.Keys| == |positions.Keys| == |positions|;
    forall k1, k2 | k1 in r && k2 in r && k1 != k2 ensures r[k1] != r[k2] {
      if k1 != id && k2 != id {
        assert positions[k1] != prev && positions[k2] != prev;
      } else if k1 == id {
        assert positions[k2] != prev;
      } else {
        assert positions[k1] != prev;
      }
    }
  }

  /** Pages other than the moved one keep their relative order. */
  lemma RepositionKeepsOrder(positions: map<nat, int>, id: nat, target: int, k1: nat, k2: nat)
    requires id in positions && IsPermutation(positions)
    requires k1 in positions && k2 in positions && k1 != id && k2 != id
    ensures positions[k1] < positions[k2] <==>
            Reposition(positions, id, target)[k1] < Reposition(positions, id, target)[k2]
  {
    assert positions[k1] != positions[id] && positions[k2] != positions[id];
    assert k1 != k2 ==> positions[k1] != positions[k2];
  }

  /** Saving a page at its old position moves nothing. */
  lemma RepositionSamePlace(positions: map<nat, int>, id: nat)
    requires id in positions
    ensures Reposition(positions, id, positions[id]) == positions
  {
  }

  // ---------------------------------------------------------------------
  // Validations

  datatype PageError = TitleMissing | SlugMissing | BodyMissing | LayoutMissing | SlugTaken | ForeignLinkTaken

  /** The validations of a page against the other pages: a title always; a
      slug and a body, and a slug no other page has, only without a foreign
      link; a layout when it renders as a partial; a non-blank foreign link
      no other page has. */
  function Validate(p: Page, others: seq<Page>): (errors: set<PageError>)
    ensures TitleMissing in errors <==> IsBlankOpt(p.title)
    ensures SlugMissing in errors <==> NotUsingForeignLink(p) && IsBlankOpt(p.slug)
    ensures BodyMissing in errors <==> NotUsingForeignLink(p) && IsBlankOpt(p.body)
    ensures LayoutMissing in errors <==> p.renderLayoutAsPartial && IsBlankOpt(p.layout)
    ensures SlugTaken in errors <==>
              NotUsingForeignLink(p) && exists i :: 0 <= i < |others| && others[i].slug == p.slug
    ensures ForeignLinkTaken in errors <==>
              !IsBlankOpt(p.foreignLink) && exists i :: 0 <= i < |others| && others[i].foreignLink == p.foreignLink
  {
    var noLink := NotUsingForeignLink(p);
    (if IsBlankOpt(p.title) then {TitleMissing} else {})
    + (if noLink && IsBlankOpt(p.slug) then {SlugMissing} else {})
    + (if noLink && IsBlankOpt(p.body) then {BodyMissing} else {})
    + (if p.renderLayoutAsPartial && IsBlankOpt(p.layout) then {LayoutMissing} else {})
    + (if noLink && exists i :: 0 <= i < |others| && others[i].slug == p.slug then {SlugTaken} else {})
    + (if !IsBlankOpt(p.foreignLink) && exists i :: 0 <= i < |others| && others[i].foreignLink == p.foreignLink
       then {ForeignLinkTaken} else {})
  }

  /** A page with a foreign link is valid with neither slug nor body. */
  lemma ForeignLinkPageNeedsNoSlug(p: Page)
    requires !IsBlankOpt(p.foreignLink) && !IsBlankOpt(p.title) && !p.renderLayoutAsPartial
    requires p.slug.None? && p.body.None?
    ensures Validate(p, []) == {}
  {
  }
}

=== FILE: product_rule.dfy ===
/** The `Product` promotion rule: a promotion limited by which products the
    order contains, under an `any`, `all` or `none` match policy, plus the
    comma-separated `product_ids_string` accessor pair used by the admin form. */
module ProductRules {
  import opened Common

  /** `MATCH_POLICIES`, in declaration order. */
  const MatchPolicies: seq<string> := ["any", "all", "none"]

  /** The preference default is the first policy. */
  const DefaultMatchPolicy: string := MatchPolicies[0]

  /** What a promotion can be tested against. */
  datatype Promotable = OrderPromotable(products: seq<nat>) | LineItemPromotable(product: nat)

  /** A rule holds the product ids it names and its match-policy preference
      (a free string; only "all" and "any" are tested by name). */
  datatype ProductRule = ProductRule(products: seq<nat>, matchPolicy: string)

  /** `applicable?`: the rule only speaks about orders. */
  function Applicable(p: Promotable): (r: bool)
    ensures r <==> p.OrderPromotable?
  {
    match p
    case OrderPromotable(_) => true
    case LineItemPromotable(_) => false
  }

  /** Every element of `xs` occurs in `ys`. */
  function AllIn(xs: seq<nat>, ys: seq<nat>): (r: bool)
    ensures r <==> forall x :: x in xs ==> x in ys
  {
    if |xs| == 0 then true else xs[0] in ys && AllIn(xs[1..], ys)
  }

  /** Some element of `xs` occurs in `ys`. */
  function AnyIn(xs: seq<nat>, ys: seq<nat>): (r: bool)
    ensures r <==> exists x :: x in xs && x in ys
  {
    if |xs| == 0 then false else xs[0] in ys || AnyIn(xs[1..], ys)
  }

  /** `eligible?(order)`: with no products the rule always passes; `all`
      needs every rule product in the order; `any` needs some order product
      among the rule's; every other policy (`none`) needs no order product
      among the rule's. */
  function Eligible(rule: ProductRule, orderProducts: seq<nat>): (r: bool)
    ensures |rule.products| == 0 ==> r
    ensures |rule.products| > 0 && rule.matchPolicy == "all" ==>
              (r <==> forall p :: p in rule.products ==> p in orderProducts)
    ensures |rule.products| > 0 && rule.matchPolicy == "any" ==>
              (r <==> exists p :: p in orderProducts && p in rule.products)
    ensures |rule.products| > 0 && rule.matchPolicy != "all" && rule.matchPolicy != "any" ==>
              (r <==> forall p :: p in orderProducts ==> p !in rule.products)
  {
    if |rule.products| == 0 then true
    else if rule.matchPolicy == "all" then AllIn(rule.products, orderProducts)
    else if rule.matchPolicy == "any" then AnyIn(orderProducts, rule.products)
    else !AnyIn(orderProducts, rule.products)
  }

  /** For a non-empty rule, `none` is exactly the negation of `any`, and
      `all` implies `any` whenever the order has products in common. */
  lemma NoneIsNotAny(products: seq<nat>, orderProducts: seq<nat>)
    requires |products| > 0
    ensures Eligible(ProductRule(products, "none"), orderProducts)
            == !Eligible(ProductRule(products, "any"), orderProducts)
    ensures Eligible(ProductRule(products, "all"), orderProducts)
            ==> Eligible(ProductRule(products, "any"), orderProducts)
  {
    assert products[0] in products;
  }

  /** Adding products to the order can only help `any` and `all` and only
      hurt `none`. */
  lemma MoreProductsMonotone(rule: ProductRule, orderProducts: seq<nat>, extra: seq<nat>)
    ensures rule.matchPolicy == "any" || rule.matchPolicy == "all" ==>
              Eligible(rule, orderProducts) ==> Eligible(rule, orderProducts + extra)
    ensures rule.matchPolicy != "any" && rule.matchPolicy != "all" ==>
              Eligible(rule, orderProducts + extra) ==> Eligible(rule, orderProducts)
  {
    if rule.matchPolicy == "any" && |rule.products| > 0 && Eligible(rule, orderProducts) {
      var p :| p in orderProducts && p in rule.products;
      assert p in orderProducts + extra;
    }
  }

  // ---------------------------------------------------------------------
  // product_ids_string

  /** `Array#join(',')`. */
  function Join(fields: seq<string>, sep: char): string {
    if |fields| == 0 then ""
    else if |fields| == 1 then fields[0]
    else fields[0] + [sep] + Join(fields[1..], sep)
  }

  /** Splitting at every separator, keeping every (possibly empty) field;
      joining the fields back gives the input. */
  function SplitAll(s: string, sep: char): (r: seq<string>)
    ensures |r| >= 1
    ensures forall f :: f in r ==> sep !in f
    ensures Join(r, sep) == s
  {
    if |s| == 0 then [""]
    else
      var rest := SplitAll(s[1..], sep);
      if s[0] == sep then
        assert s == [sep] + s[1..];
        [""] + rest
      else
        var r := [[s[0]] + rest[0]] + rest[1..];
        assert r[1..] == rest[1..];
        assert s == [s[0]] + s[1..];
        r
  }

  /** Ruby's `String#split` drops trailing empty fields. */
  function DropTrailingEmpty(fields: seq<string>): (r: seq<string>)
    ensures |r| <= |fields| && r == fields[..|r|]
    ensures |r| > 0 ==> r[|r| - 1] != ""
    ensures forall i :: |r| <= i < |fields| ==> fields[i] == ""
  {
    if |fields| == 0 then []
    else if fields[|fields| - 1] == "" then DropTrailingEmpty(fields[..|fields| - 1])
    else fields
  }

  /** The characters `String#strip` removes at either end. */
  predicate StripChar(c: char) { IsSpace(c) || c == '\0' }

  function StripLeft(s: string): (r: string)
    ensures |r| <= |s| && r == s[|s| - |r|..]
    ensures |r| > 0 ==> !StripChar(r[0])
  {
    if |s| > 0 && StripChar(s[0]) then StripLeft(s[1..]) else s
  }

  function StripRight(s: string): (r: string)
    ensures |r| <= |s| && r == s[..|r|]
    ensures |r| > 0 ==> !StripChar(r[|r| - 1])
  {
    if |s| > 0 && StripChar(s[|s| - 1]) then StripRight(s[..|s| - 1]) else s
  }

  /** `String#strip`. */
  function Strip(s: string): (r: string)
    ensures |r| <= |s|
    ensures |r| > 0 ==> !StripChar(r[0]) && !StripChar(r[|r| - 1])
    ensures forall c :: c in r ==> c in s
  {
    var l := StripLeft(s);
    var r := StripRight(l);
    assert |r| > 0 ==> r[0] == l[0];
    assert forall k :: 0 <= k < |r| ==> r[k] == l[k] == s[|s| - |l| + k];
    r
  }

  /** The `product_ids_string` getter. */
  function ProductIdsString(ids: seq<string>): (r: string)
    ensures |ids| > 0 && (forall i :: 0 <= i < |ids| ==> ',' !in ids[i]) ==> SplitAll(r, ',') == ids
  {
    CommaJoinSplits(ids);
    Join(ids, ',')
  }

  /** Ids without a comma come back from the comma-joined string. */
  lemma CommaJoinSplits(ids: seq<string>)
    ensures |ids| > 0 && (forall i :: 0 <= i < |ids| ==> ',' !in ids[i]) ==> SplitAll(Join(ids, ','), ',') == ids
  {
    if |ids| > 0 && (forall i :: 0 <= i < |ids| ==> ',' !in ids[i]) {
      assert forall f :: f in ids ==> ',' !in f;
      SplitJoin(ids, ',');
    }
  }

  /** The `product_ids_string=` setter: `s.split(',').map(&:strip)`. */
  function ParseProductIds(s: string): (ids: seq<string>)
    ensures forall i :: 0 <= i < |ids| ==> ',' !in ids[i]
    ensures forall i :: 0 <= i < |ids| ==> |ids[i]| > 0 ==> !StripChar(ids[i][0])
  {
    var fields := DropTrailingEmpty(SplitAll(s, ','));
    seq(|fields|, i requires 0 <= i < |fields| => Strip(fields[i]))
  }

  /** An id the accessors can carry unchanged: non-empty, no comma, no
      surrounding white space. */
  predicate CleanId(id: string) {
    |id| > 0 && ',' !in id && !StripChar(id[0]) && !StripChar(id[|id| - 1])
  }

  lemma StripClean(s: string)
    requires |s| > 0 && !StripChar(s[0]) && !StripChar(s[|s| - 1])
    ensures Strip(s) == s
  {
  }

  lemma {:induction false} SplitJoin(fields: seq<string>, sep: char)
    requires |fields| >= 1
    requires forall f :: f in fields ==> sep !in f
    ensures SplitAll(Join(fields, sep), sep) == fields
    decreases |fields|, |fields[0]|
  {
    var s := Join(fields, sep);
    if |fields| == 1 {
      SplitSingle(fields[0], sep);
    } else if |fields[0]| == 0 {
      assert s == [sep] + Join(fields[1..], sep);
      assert s[1..] == Join(fields[1..], sep);
      SplitJoin(fields[1..], sep);
      assert fields == [""] + fields[1..];
    } else {
      var f0 := fields[0];
      var shorter := [f0[1..]] + fields[1..];
      assert shorter[1..] == fields[1..];
      assert f0 in fields;
      assert forall k :: 0 <= k < |f0[1..]| ==> f0[1..][k] == f0[k + 1];
      assert sep !in f0[1..];
      forall f | f in shorter
        ensures sep !in f
      {
        if f != f0[1..] {
          assert f in fields[1..];
          assert f in fields;
        }
      }
      assert s == [f0[0]] + Join(shorter, sep);
      assert s[1..] == Join(shorter, sep);
      SplitJoin(shorter, sep);
      assert f0[0] != sep by { assert f0[0] in f0; }
      assert [f0[0]] + f0[1..] == f0;
      assert fields == [f0] + fields[1..];
    }
  }

  lemma {:induction false} SplitSingle(f: string, sep: char)
    requires sep !in f
    ensures SplitAll(f, sep) == [f]
    decreases |f|
  {
    if |f| > 0 {
      assert forall k :: 0 <= k < |f[1..]| ==> f[1..][k] == f[k + 1];
      assert sep !in f[1..];
      SplitSingle(f[1..], sep);
      assert f[0] in f;
      assert [f[0]] + f[1..] == f;
    }
  }

  /** Writing the ids through the getter and reading them back with the
      setter gives the same ids, for ids without commas or surrounding
      white space. */
  lemma ProductIdsRoundTrip(ids: seq<string>)
    requires forall i :: 0 <= i < |ids| ==> CleanId(ids[i])
    ensures ParseProductIds(ProductIdsString(ids)) == ids
  {
    if |ids| == 0 {
      assert SplitAll("", ',') == [""];
    } else {
      SplitJoin(ids, ',');
      var fields := SplitAll(Join(ids, ','), ',');
      assert fields == ids;
      assert DropTrailingEmpty(fields) == fields;
      forall i | 0 <= i < |ids| ensures Strip(ids[i]) == ids[i] {
        StripClean(ids[i]);
      }
    }
  }
}

=== FILE: return_authorization.dfy ===
/** Return authorizations (RMAs): claiming shipped inventory units of an
    order for return, and the `authorized -> received | canceled` state
    machine whose `receive` marks the units returned, restocks, credits the
    order and moves it to `returned`. */
module ReturnAuthorizations {
  import opened Common
  import opened Adjustments
  import StockItems
  import Variants

  datatype UnitState = OnHand | Backordered | Shipped | Returned

  /** One inventory unit of the order: its variant, the shipment holding it,
      its state, and the return authorization that claims it, if any. */
  datatype InventoryUnit = InventoryUnit(variant: nat, shipment: nat, state: UnitState, rma: Option<nat>)

  /** The part of an order a return authorization reads and writes: its
      state, which of its shipments are shipped, and all of its units listed
      shipment by shipment. */
  datatype OrderView = OrderView(state: OrderState, shippedShipments: set<nat>, units: seq<InventoryUnit>)

  datatype RmaState = Authorized | Received | Canceled

  datatype ReturnAuthorization = ReturnAuthorization(id: nat, state: RmaState, amount: int, stockLocation: nat)

  /** Outcome of `add_variant`: `false` when the order has nothing shipped;
      an exception when the variant has no returnable unit and units must be
      claimed (the source calls `each` on nil); otherwise the updated order. */
  datatype AddOutcome = NoShippedUnits | VariantNotReturnable | Added(order: OrderView)

  /** A stock-item key: (variant, stock location). */
  type StockKey = (nat, nat)

  datatype Receipt = Receipt(
    rma: ReturnAuthorization,
    order: OrderView,
    adjustments: seq<Adjustment>,
    stock: map<StockKey, StockItems.StockItem>)

  function Min(a: int, b: int): int { if a <= b then a else b }

  // ---------------------------------------------------------------------
  // Amount normalisation

  /** `force_positive_amount` (run before every save). */
  function ForcePositive(amount: int): (r: int)
    ensures r >= 0
    ensures r == amount || r == -amount
  {
    if amount < 0 then -amount else amount
  }

  /** `compute_amount`: the credit given back to the order. */
  function CreditAmount(amount: int): (r: int)
    ensures r <= 0
    ensures r == amount || r == -amount
  {
    if amount < 0 then amount else -amount
  }

  /** Normalising is idempotent, the credit is the negated stored amount,
      and the credit does not depend on the sign the amount was entered with. */
  lemma AmountNormalisation(amount: int)
    ensures ForcePositive(ForcePositive(amount)) == ForcePositive(amount)
    ensures CreditAmount(amount) == -ForcePositive(amount)
    ensures CreditAmount(-amount) == CreditAmount(amount)
    ensures CreditAmount(ForcePositive(amount)) == CreditAmount(amount)
  {
  }

  // ---------------------------------------------------------------------
  // Returnable inventory and validation

  predicate InShipped(o: OrderView, u: InventoryUnit) { u.shipment in o.shippedShipments }

  function FilterShipped(units: seq<InventoryUnit>, shipped: set<nat>): (r: seq<InventoryUnit>)
    ensures |r| <= |units|
    ensures forall u :: u in r <==> u in units && u.shipment in shipped
  {
    if |units| == 0 then []
    else if units[0].shipment in shipped then [units[0]] + FilterShipped(units[1..], shipped)
    else FilterShipped(units[1..], shipped)
  }

  /** `returnable_inventory`: the units of the order's shipped shipments. */
  function Returnable(o: OrderView): (r: seq<InventoryUnit>)
    ensures forall u :: u in r <==> u in o.units && InShipped(o, u)
  {
    FilterShipped(o.units, o.shippedShipments)
  }

  /** `must_have_shipped_units`: the validation error is raised when there
      is no order or the order has no shipped shipment. */
  function MustHaveShippedUnits(order: Option<OrderView>): (valid: bool)
    ensures valid <==> order.Some? && order.value.shippedShipments != {}
  {
    order.Some? && order.value.shippedShipments != {}
  }

  // ---------------------------------------------------------------------
  // add_variant

  /** A unit of variant `v` claimed by the authorization `rmaId`. */
  predicate Held(u: InventoryUnit, rmaId: nat, v: nat) { u.rma == Some(rmaId) && u.variant == v }

  /** A shipped unit of variant `v` that no authorization claims. */
  predicate Free(u: InventoryUnit, shipped: set<nat>, v: nat) {
    u.shipment in shipped && u.variant == v && u.rma.None?
  }

  function CountHeld(units: seq<InventoryUnit>, rmaId: nat, v: nat): nat {
    if |units| == 0 then 0
    else (if Held(units[0], rmaId, v) then 1 else 0) + CountHeld(units[1..], rmaId, v)
  }

  function CountFree(units: seq<InventoryUnit>, shipped: set<nat>, v: nat): nat {
    if |units| == 0 then 0
    else (if Free(units[0], shipped, v) then 1 else 0) + CountFree(units[1..], shipped, v)
  }

  /** True when the authorization claims at least one unit of any variant. */
  predicate AnyClaimed(units: seq<InventoryUnit>, rmaId: nat) {
    exists i :: 0 <= i < |units| && units[i].rma == Some(rmaId)
  }

  /** The claiming loop: walk the units in order and claim free shipped
      units of `v` until `n` have been claimed. */
  function Claim(units: seq<InventoryUnit>, shipped: set<nat>, rmaId: nat, v: nat, n: nat): (r: seq<InventoryUnit>)
    ensures |r| == |units|
    ensures forall i :: 0 <= i < |r| ==>
              r[i] == units[i] || (Free(units[i], shipped, v) && r[i] == units[i].(rma := Some(rmaId)))
    ensures CountHeld(r, rmaId, v) == CountHeld(units, rmaId, v) + Min(n, CountFree(units, shipped, v))
    ensures CountFree(r, shipped, v) == CountFree(units, shipped, v) - Min(n, CountFree(units, shipped, v))
  {
    if |units| == 0 then []
    else if n > 0 && Free(units[0], shipped, v) then
      [units[0].(rma := Some(rmaId))] + Claim(units[1..], shipped, rmaId, v, n - 1)
    else
      [units[0]] + Claim(units[1..], shipped, rmaId, v, n)
  }

  /** The releasing loop: give up the first `n` units of `v` this
      authorization claims. */
  function Release(units: seq<InventoryUnit>, rmaId: nat, v: nat, n: nat): (r: seq<InventoryUnit>)
    ensures |r| == |units|
    ensures forall i :: 0 <= i < |r| ==>
              r[i] == units[i] || (Held(units[i], rmaId, v) && r[i] == units[i].(rma := None))
    ensures CountHeld(r, rmaId, v) == CountHeld(units, rmaId, v) - Min(n, CountHeld(units, rmaId, v))
  {
    if |units| == 0 then []
    else if n > 0 && Held(units[0], rmaId, v) then
      [units[0].(rma := None)] + Release(units[1..], rmaId, v, n - 1)
    else
      [units[0]] + Release(units[1..], rmaId, v, n)
  }

  /** The order moves to awaiting-return once the authorization holds a
      unit, unless it already awaits a return. */
  function AuthorizeReturn(o: OrderView, rmaId: nat): (r: OrderView)
    ensures r.units == o.units && r.shippedShipments == o.shippedShipments
    ensures AnyClaimed(o.units, rmaId) ==> r.state == AwaitingReturn
    ensures !AnyClaimed(o.units, rmaId) ==> r == o
  {
    if AnyClaimed(o.units, rmaId) && o.state != AwaitingReturn then o.(state := AwaitingReturn) else o
  }

  /** Authorizing the return a second time changes nothing. */
  lemma AuthorizeReturnIdempotent(o: OrderView, rmaId: nat)
    ensures AuthorizeReturn(AuthorizeReturn(o, rmaId), rmaId) == AuthorizeReturn(o, rmaId)
  {
  }

  /** `add_variant(variant_id, quantity)` for the authorization `rmaId`. */
  function AddVariant(o: OrderView, rmaId: nat, v: nat, quantity: nat): (r: AddOutcome)
    ensures r.NoShippedUnits? <==> |Returnable(o)| == 0
    ensures r.VariantNotReturnable? ==>
              (forall u :: u in Returnable(o) ==> u.variant != v)
              && CountHeld(o.units, rmaId, v) <= quantity
    ensures r.Added? ==>
              var held := CountHeld(o.units, rmaId, v);
              var after := CountHeld(r.order.units, rmaId, v);
              && after <= quantity
              && (held <= quantity ==> after == Min(quantity, held + CountFree(o.units, o.shippedShipments, v)))
              && (held > quantity ==> after == quantity)
    ensures r.Added? ==>
              && |r.order.units| == |o.units|
              && r.order.shippedShipments == o.shippedShipments
              && forall i :: 0 <= i < |o.units| ==>
                   || r.order.units[i] == o.units[i]
                   || (Free(o.units[i], o.shippedShipments, v) && r.order.units[i] == o.units[i].(rma := Some(rmaId)))
                   || (Held(o.units[i], rmaId, v) && r.order.units[i] == o.units[i].(rma := None))
    ensures r.Added? ==>
              r.order.state == (if AnyClaimed(r.order.units, rmaId) then AwaitingReturn else o.state)
  {
    var orderUnits := Returnable(o);
    var held := CountHeld(o.units, rmaId, v);
    if |orderUnits| == 0 then NoShippedUnits
    else if (held == 0 || held < quantity) && !(exists u :: u in orderUnits && u.variant == v) then
      VariantNotReturnable
    else
      AddedOrderCounts(o, rmaId, v, quantity);
      AddedOrderUnits(o, rmaId, v, quantity);
      AddedOrderState(o, rmaId, v, quantity);
      Added(AddedOrder(o, rmaId, v, quantity))
  }

  /** An order that fails the shipped-units validation offers nothing to
      return: `add_variant` claims no unit and answers `false`. */
  lemma InvalidOrderClaimsNothing(o: OrderView, rmaId: nat, v: nat, quantity: nat)
    ensures !MustHaveShippedUnits(Some(o)) ==> AddVariant(o, rmaId, v, quantity) == NoShippedUnits
  {
    if !MustHaveShippedUnits(Some(o)) {
      FilterNothingShipped(o.units);
    }
  }

  /** With no shipped shipment, no unit is shipped. */
  lemma {:induction false} FilterNothingShipped(units: seq<InventoryUnit>)
    ensures FilterShipped(units, {}) == []
  {
    if |units| > 0 {
      FilterNothingShipped(units[1..]);
    }
  }

  /** The order `add_variant` produces: claim the missing units, or release
      the surplus, then move the order to awaiting-return. */
  function AddedOrder(o: OrderView, rmaId: nat, v: nat, quantity: nat): OrderView {
    var held := CountHeld(o.units, rmaId, v);
    if held == 0 || held < quantity then
      AuthorizeReturn(o.(units := Claim(o.units, o.shippedShipments, rmaId, v, quantity - held)), rmaId)
    else if held > quantity then
      AuthorizeReturn(o.(units := Release(o.units, rmaId, v, held - quantity)), rmaId)
    else
      AuthorizeReturn(o, rmaId)
  }

  /** The held count after `add_variant`: claimed up to the quantity, or
      released down to it. */
  lemma AddedOrderCounts(o: OrderView, rmaId: nat, v: nat, quantity: nat)
    ensures var held := CountHeld(o.units, rmaId, v);
            var after := CountHeld(AddedOrder(o, rmaId, v, quantity).units, rmaId, v);
            && after <= quantity
            && (held <= quantity ==> after == Min(quantity, held + CountFree(o.units, o.shippedShipments, v)))
            && (held > quantity ==> after == quantity)
  {
    var held := CountHeld(o.units, rmaId, v);
    if held == 0 || held < quantity {
      var claimed := Claim(o.units, o.shippedShipments, rmaId, v, quantity - held);
      assert AddedOrder(o, rmaId, v, quantity).units == claimed;
    } else if held > quantity {
      var released := Release(o.units, rmaId, v, held - quantity);
      assert AddedOrder(o, rmaId, v, quantity).units == released;
    }
  }

  /** `add_variant` only claims free units of the variant and releases
      units of the variant this authorization holds. */
  lemma AddedOrderUnits(o: OrderView, rmaId: nat, v: nat, quantity: nat)
    ensures var r := AddedOrder(o, rmaId, v, quantity);
            && |r.units| == |o.units|
            && r.shippedShipments == o.shippedShipments
            && forall i :: 0 <= i < |o.units| ==>
                 || r.units[i] == o.units[i]
                 || (Free(o.units[i], o.shippedShipments, v) && r.units[i] == o.units[i].(rma := Some(rmaId)))
                 || (Held(o.units[i], rmaId, v) && r.units[i] == o.units[i].(rma := None))
  {
    var held := CountHeld(o.units, rmaId, v);
    if held == 0 || held < quantity {
      var claimed := Claim(o.units, o.shippedShipments, rmaId, v, quantity - held);
      assert AddedOrder(o, rmaId, v, quantity).units == claimed;
    } else if held > quantity {
      var released := Release(o.units, rmaId, v, held - quantity);
      assert AddedOrder(o, rmaId, v, quantity).units == released;
    }
  }

  /** The order awaits a return after `add_variant` exactly when the
      authorization holds a unit; otherwise its state is kept. */
  lemma AddedOrderState(o: OrderView, rmaId: nat, v: nat, quantity: nat)
    ensures var r := AddedOrder(o, rmaId, v, quantity);
            r.state == (if AnyClaimed(r.units, rmaId) then AwaitingReturn else o.state)
  {
  }

  /** Every unit the authorization claims lies in a shipped shipment. */
  predicate ClaimsShipped(o: OrderView, rmaId: nat) {
    forall i :: 0 <= i < |o.units| && o.units[i].rma == Some(rmaId) ==> InShipped(o, o.units[i])
  }

  /** Claiming changes nothing when nothing is asked for or nothing is free. */
  lemma {:induction false} ClaimNothing(units: seq<InventoryUnit>, shipped: set<nat>, rmaId: nat, v: nat, n: nat)
    requires n == 0 || CountFree(units, shipped, v) == 0
    ensures Claim(units, shipped, rmaId, v, n) == units
    decreases |units|
  {
    if |units| > 0 {
      ClaimNothing(units[1..], shipped, rmaId, v, n);
      assert units == [units[0]] + units[1..];
    }
  }

  lemma {:induction false} HeldWitness(units: seq<InventoryUnit>, rmaId: nat, v: nat) returns (i: nat)
    requires CountHeld(units, rmaId, v) > 0
    ensures i < |units| && Held(units[i], rmaId, v)
    decreases |units|
  {
    if Held(units[0], rmaId, v) {
      i := 0;
    } else {
      var j := HeldWitness(units[1..], rmaId, v);
      i := j + 1;
    }
  }

  /** Two unit lists that differ only in which authorization claims each unit. */
  predicate SameShape(a: seq<InventoryUnit>, b: seq<InventoryUnit>) {
    |a| == |b| && forall i :: 0 <= i < |a| ==> a[i].variant == b[i].variant && a[i].shipment == b[i].shipment
  }

  /** A returnable unit stays returnable, with its variant, in an order of
      the same shape. */
  lemma ReturnableAt(o: OrderView, o1: OrderView, k: nat)
    requires o1.shippedShipments == o.shippedShipments && SameShape(o.units, o1.units)
    requires k < |o.units| && o.units[k] in Returnable(o)
    ensures o1.units[k] in Returnable(o1) && o1.units[k].variant == o.units[k].variant
  {
    assert InShipped(o, o.units[k]);
    assert o1.units[k] in o1.units;
  }

  lemma ShapeKeepsReturnable(o: OrderView, o1: OrderView, v: nat)
    requires o1.shippedShipments == o.shippedShipments && SameShape(o.units, o1.units)
    ensures |Returnable(o)| > 0 ==> |Returnable(o1)| > 0
    ensures (exists u :: u in Returnable(o) && u.variant == v) ==> (exists u :: u in Returnable(o1) && u.variant == v)
  {
    if |Returnable(o)| > 0 {
      var k := ReturnableIndex(o, Returnable(o)[0]);
      ReturnableAt(o, o1, k);
    }
    if exists u :: u in Returnable(o) && u.variant == v {
      var u :| u in Returnable(o) && u.variant == v;
      var k := ReturnableIndex(o, u);
      ReturnableAt(o, o1, k);
      assert o1.units[k] in Returnable(o1) && o1.units[k].variant == v;
    }
  }

  /** Where a returnable unit sits among the order's units. */
  lemma ReturnableIndex(o: OrderView, u: InventoryUnit) returns (k: nat)
    requires u in Returnable(o)
    ensures k < |o.units| && o.units[k] == u && o.units[k] in Returnable(o)
  {
    k :| 0 <= k < |o.units| && o.units[k] == u;
  }

  /** `add_variant` keeps every claimed unit inside a shipped shipment. */
  lemma AddVariantClaimsShipped(o: OrderView, rmaId: nat, v: nat, quantity: nat)
    requires ClaimsShipped(o, rmaId)
    requires AddVariant(o, rmaId, v, quantity).Added?
    ensures ClaimsShipped(AddVariant(o, rmaId, v, quantity).order, rmaId)
  {
  }

  lemma AddVariantIsAddedOrder(o: OrderView, rmaId: nat, v: nat, quantity: nat)
    requires AddVariant(o, rmaId, v, quantity).Added?
    ensures AddVariant(o, rmaId, v, quantity).order == AddedOrder(o, rmaId, v, quantity)
    ensures SameShape(o.units, AddedOrder(o, rmaId, v, quantity).units)
    ensures AddedOrder(o, rmaId, v, quantity).shippedShipments == o.shippedShipments
  {
  }

  /** After one call, a second call claims and releases nothing. */
  lemma SecondCallStill(o: OrderView, rmaId: nat, v: nat, quantity: nat)
    requires ClaimsShipped(o, rmaId)
    requires AddVariant(o, rmaId, v, quantity).Added?
    ensures var o1 := AddedOrder(o, rmaId, v, quantity);
      AddedOrder(o1, rmaId, v, quantity) == o1
  {
    AddedOrderSettles(o, rmaId, v, quantity);
  }

  /** The order `add_variant` produces is a fixed point of it: the held
      count reached the quantity, or every free unit is already claimed. */
  lemma AddedOrderSettles(o: OrderView, rmaId: nat, v: nat, quantity: nat)
    ensures var o1 := AddedOrder(o, rmaId, v, quantity);
      AddedOrder(o1, rmaId, v, quantity) == o1
  {
    var o1 := AddedOrder(o, rmaId, v, quantity);
    AddedOrderCountsSettle(o, rmaId, v, quantity);
    AddedOrderAuthorized(o, rmaId, v, quantity);
    var held1 := CountHeld(o1.units, rmaId, v);
    if held1 == 0 || held1 < quantity {
      ClaimNothing(o1.units, o1.shippedShipments, rmaId, v, quantity - held1);
      assert o1.(units := o1.units) == o1;
    }
  }

  /** After one call the held count is at most the quantity, and short of
      it only when no free unit is left. */
  lemma AddedOrderCountsSettle(o: OrderView, rmaId: nat, v: nat, quantity: nat)
    ensures var o1 := AddedOrder(o, rmaId, v, quantity);
            var held1 := CountHeld(o1.units, rmaId, v);
            held1 <= quantity
            && (held1 < quantity ==> CountFree(o1.units, o1.shippedShipments, v) == 0)
  {
    var o1 := AddedOrder(o, rmaId, v, quantity);
    var held0 := CountHeld(o.units, rmaId, v);
    if held0 == 0 || held0 < quantity {
      assert o1.units == Claim(o.units, o.shippedShipments, rmaId, v, quantity - held0);
    } else if held0 > quantity {
      assert o1.units == Release(o.units, rmaId, v, held0 - quantity);
    }
  }

  /** The order `add_variant` produces already awaits its return when it
      should. */
  lemma AddedOrderAuthorized(o: OrderView, rmaId: nat, v: nat, quantity: nat)
    ensures AuthorizeReturn(AddedOrder(o, rmaId, v, quantity), rmaId) == AddedOrder(o, rmaId, v, quantity)
  {
    var held := CountHeld(o.units, rmaId, v);
    if held == 0 || held < quantity {
      AuthorizeReturnIdempotent(o.(units := Claim(o.units, o.shippedShipments, rmaId, v, quantity - held)), rmaId);
    } else if held > quantity {
      AuthorizeReturnIdempotent(o.(units := Release(o.units, rmaId, v, held - quantity)), rmaId);
    } else {
      AuthorizeReturnIdempotent(o, rmaId);
    }
  }

  /** After one call, the variant is still returnable whenever the second
      call has to claim. */
  lemma SecondCallReturnable(o: OrderView, rmaId: nat, v: nat, quantity: nat)
    requires ClaimsShipped(o, rmaId)
    requires AddVariant(o, rmaId, v, quantity).Added?
    ensures var o1 := AddedOrder(o, rmaId, v, quantity);
      && |Returnable(o1)| > 0
      && (CountHeld(o1.units, rmaId, v) == 0 || CountHeld(o1.units, rmaId, v) < quantity ==>
            exists u :: u in Returnable(o1) && u.variant == v)
  {
    AddVariantIsAddedOrder(o, rmaId, v, quantity);
    var o1 := AddedOrder(o, rmaId, v, quantity);
    ShapeKeepsReturnable(o, o1, v);
    var held0 := CountHeld(o.units, rmaId, v);
    var held1 := CountHeld(o1.units, rmaId, v);
    if (held1 == 0 || held1 < quantity) && !(held0 == 0 || held0 < quantity) {
      // Everything held was released down to quantity == 0; what was held is shipped.
      var k := HeldWitness(o.units, rmaId, v);
      assert o.units[k] in Returnable(o);
      assert o1.units[k] in Returnable(o1) && o1.units[k].variant == v;
    }
  }

  /** Repeating `add_variant` with the same arguments changes nothing more:
      the units and the order state stay as the first call left them.
      (The authorization's units are assumed to lie in shipped shipments,
      which `add_variant` itself maintains.) */
  lemma AddVariantIdempotent(o: OrderView, rmaId: nat, v: nat, quantity: nat)
    requires ClaimsShipped(o, rmaId)
    requires AddVariant(o, rmaId, v, quantity).Added?
    ensures AddVariant(AddVariant(o, rmaId, v, quantity).order, rmaId, v, quantity)
            == AddVariant(o, rmaId, v, quantity)
  {
    AddVariantIsAddedOrder(o, rmaId, v, quantity);
    SecondCallStill(o, rmaId, v, quantity);
    SecondCallReturnable(o, rmaId, v, quantity);
  }

  // ---------------------------------------------------------------------
  // The authorized -> received | canceled state machine

  /** `allow_receive?`: the authorization claims at least one unit. */
  predicate AllowReceive(o: OrderView, rmaId: nat) {
    AnyClaimed(o.units, rmaId)
  }

  /** The `cancel` event: only an authorized RMA can be canceled. */
  function Cancel(rma: ReturnAuthorization): (r: Option<ReturnAuthorization>)
    ensures r.Some? <==> rma.state == Authorized
    ensures r.Some? ==> r.value.state == RmaState.Canceled && r.value.(state := rma.state) == rma
  {
    if rma.state == Authorized then Some(rma.(state := RmaState.Canceled)) else None
  }

  /** `return!` on every unit the authorization claims. */
  function MarkReturned(units: seq<InventoryUnit>, rmaId: nat): (r: seq<InventoryUnit>)
    ensures |r| == |units|
    ensures forall i :: 0 <= i < |r| ==>
              if units[i].rma == Some(rmaId) then r[i] == units[i].(state := UnitState.Returned) else r[i] == units[i]
  {
    seq(|units|, i requires 0 <= i < |units| =>
      if units[i].rma == Some(rmaId) then units[i].(state := UnitState.Returned) else units[i])
  }

  /** `inventory_units.all?(&:returned?)` over the authorization's units. */
  predicate AllReturned(units: seq<InventoryUnit>, rmaId: nat) {
    forall i :: 0 <= i < |units| && units[i].rma == Some(rmaId) ==> units[i].state == UnitState.Returned
  }

  /** Whether the units of variant `v` are restocked: `should_track_inventory?`
      of the variant under the store configuration. */
  predicate Tracks(variantOf: nat -> Variants.Variant, cfg: Variants.Config, v: nat) {
    Variants.ShouldTrackInventory(variantOf(v), cfg)
  }

  /** How many stock movements of +1 the restocking loop makes on the item
      `k`: one per claimed unit of its variant when the item is at the
      authorization's location and the variant is tracked. */
  function Movements(units: seq<InventoryUnit>, rmaId: nat, location: nat,
                     variantOf: nat -> Variants.Variant, cfg: Variants.Config, k: StockKey): nat {
    if k.1 == location && Tracks(variantOf, cfg, k.0) then CountHeld(units, rmaId, k.0) else 0
  }

  /** The restocking loop: a stock movement of +1 at the authorization's
      stock location for each claimed unit whose variant tracks inventory,
      when a stock item for that variant exists there. A movement adjusts
      the item's count, which fills waiting backorders. */
  function Restock(units: seq<InventoryUnit>, rmaId: nat, location: nat,
                   stock: map<StockKey, StockItems.StockItem>,
                   variantOf: nat -> Variants.Variant, cfg: Variants.Config): (r: map<StockKey, StockItems.StockItem>)
    ensures r.Keys == stock.Keys
  {
    if |units| == 0 then stock
    else
      var u := units[0];
      var key := (u.variant, location);
      var stock' := if u.rma == Some(rmaId) && Tracks(variantOf, cfg, u.variant) && key in stock
                    then stock[key := StockItems.Adjust(stock[key], 1).item] else stock;
      Restock(units[1..], rmaId, location, stock', variantOf, cfg)
  }

  /** The movements on one item add up to a single adjustment by their
      number: the count rises by the number of claimed tracked units and
      that many backorders are filled; every other item is untouched. */
  lemma {:induction false} RestockAdjusts(units: seq<InventoryUnit>, rmaId: nat, location: nat,
                                          stock: map<StockKey, StockItems.StockItem>,
                                          variantOf: nat -> Variants.Variant, cfg: Variants.Config)
    ensures var r := Restock(units, rmaId, location, stock, variantOf, cfg);
            forall k :: k in stock ==>
              r[k] == StockItems.Adjust(stock[k], Movements(units, rmaId, location, variantOf, cfg, k)).item
    decreases |units|
  {
    var r := Restock(units, rmaId, location, stock, variantOf, cfg);
    if |units| == 0 {
      forall k | k in stock
        ensures r[k] == StockItems.Adjust(stock[k], Movements(units, rmaId, location, variantOf, cfg, k)).item
      {
        assert Movements(units, rmaId, location, variantOf, cfg, k) == 0;
      }
    } else {
      var u := units[0];
      var key := (u.variant, location);
      var moved := u.rma == Some(rmaId) && Tracks(variantOf, cfg, u.variant) && key in stock;
      var stock' := if moved then stock[key := StockItems.Adjust(stock[key], 1).item] else stock;
      RestockAdjusts(units[1..], rmaId, location, stock', variantOf, cfg);
      forall k | k in stock
        ensures r[k] == StockItems.Adjust(stock[k], Movements(units, rmaId, location, variantOf, cfg, k)).item
      {
        var rest := Movements(units[1..], rmaId, location, variantOf, cfg, k);
        if moved && k == key {
          assert Movements(units, rmaId, location, variantOf, cfg, k) == 1 + rest;
          StockItems.AdjustComposes(stock[k], 1, rest);
        } else {
          assert Movements(units, rmaId, location, variantOf, cfg, k) == rest;
          assert stock'[k] == stock[k];
        }
      }
    }
  }

  /** The credit adjustment `receive` creates on the order. */
  function CreditAdjustment(rma: ReturnAuthorization, newId: nat): (r: Adjustment)
    ensures r.source == ReturnCredit(rma.id) && r.amount <= 0
    ensures r.amount == -rma.amount || r.amount == rma.amount
    ensures !r.closed && !r.included
    ensures r.amount == CreditAmount(ForcePositive(rma.amount))
  {
    Adjustment(newId, "RMA credit", ReturnCredit(rma.id), CreditAmount(rma.amount), true, false, false)
  }

  /** The `receive` event and its `process_return` callback. The transition
      is refused unless the RMA is authorized and claims a unit; otherwise
      every claimed unit is returned, stock is restocked, exactly one credit
      of `-|amount|` is added to the order's adjustments, and the order is
      returned once all of the RMA's units are. Totals recomputation
      (`order.update!`) is not part of this model. */
  function Receive(rma: ReturnAuthorization, o: OrderView, adjustments: seq<Adjustment>,
                   stock: map<StockKey, StockItems.StockItem>, variantOf: nat -> Variants.Variant,
                   cfg: Variants.Config, newId: nat): (r: Option<Receipt>)
    ensures r.Some? <==> rma.state == Authorized && AnyClaimed(o.units, rma.id)
    ensures r.Some? ==> r.value.rma == rma.(state := Received)
    ensures r.Some? ==>
              && |r.value.order.units| == |o.units|
              && forall i :: 0 <= i < |o.units| ==>
                   if o.units[i].rma == Some(rma.id) then r.value.order.units[i] == o.units[i].(state := UnitState.Returned)
                   else r.value.order.units[i] == o.units[i]
    ensures r.Some? ==>
              && |r.value.adjustments| == |adjustments| + 1
              && r.value.adjustments[..|adjustments|] == adjustments
              && r.value.adjustments[|adjustments|].amount == -ForcePositive(rma.amount)
              && r.value.adjustments[|adjustments|].source == ReturnCredit(rma.id)
    ensures r.Some? ==>
              && r.value.stock.Keys == stock.Keys
              && forall k :: k in stock ==>
                   r.value.stock[k]
                   == StockItems.Adjust(stock[k], Movements(o.units, rma.id, rma.stockLocation, variantOf, cfg, k)).item
    ensures r.Some? ==> r.value.order.state == OrderState.Returned
  {
    if rma.state != Authorized || !AllowReceive(o, rma.id) then None
    else
      var units' := MarkReturned(o.units, rma.id);
      var stock' := Restock(o.units, rma.id, rma.stockLocation, stock, variantOf, cfg);
      RestockAdjusts(o.units, rma.id, rma.stockLocation, stock, variantOf, cfg);
      var adjustments' := adjustments + [CreditAdjustment(rma, newId)];
      var order' := o.(units := units');
      var order'' := if AllReturned(units', rma.id) then order'.(state := OrderState.Returned) else order';
      Some(Receipt(rma.(state := Received), order'', adjustments', stock'))
  }

  /** Receiving credits the order exactly once: the adjustments total drops
      by the RMA's absolute amount. */
  lemma ReceiveCreditsOnce(rma: ReturnAuthorization, o: OrderView, adjustments: seq<Adjustment>,
                           stock: map<StockKey, StockItems.StockItem>, variantOf: nat -> Variants.Variant,
                           cfg: Variants.Config, newId: nat)
    requires Receive(rma, o, adjustments, stock, variantOf, cfg, newId).Some?
    ensures Total(Receive(rma, o, adjustments, stock, variantOf, cfg, newId).value.adjustments)
            == Total(adjustments) - ForcePositive(rma.amount)
  {
    TotalAppend(adjustments, [CreditAdjustment(rma, newId)]);
  }

  /** With the store's inventory tracking off, no variant tracks inventory
      whatever its own flag, and receiving leaves every stock item as it
      was. */
  lemma ReceiveWithoutTrackingKeepsStock(rma: ReturnAuthorization, o: OrderView, adjustments: seq<Adjustment>,
                                         stock: map<StockKey, StockItems.StockItem>,
                                         variantOf: nat -> Variants.Variant, cfg: Variants.Config, newId: nat)
    requires !cfg.trackInventoryLevels
    requires Receive(rma, o, adjustments, stock, variantOf, cfg, newId).Some?
    ensures Receive(rma, o, adjustments, stock, variantOf, cfg, newId).value.stock == stock
  {
    var r := Receive(rma, o, adjustments, stock, variantOf, cfg, newId).value.stock;
    forall k | k in stock
      ensures r[k] == stock[k]
    {
      assert Movements(o.units, rma.id, rma.stockLocation, variantOf, cfg, k) == 0;
    }
  }

  /** A received unit of a tracked variant whose stock item has a unit
      waiting in backorder fills that backorder: the restock is a real stock
      movement, not only a count change. */
  lemma ReceiveFillsBackorder(rma: ReturnAuthorization, o: OrderView, adjustments: seq<Adjustment>,
                              stock: map<StockKey, StockItems.StockItem>,
                              variantOf: nat -> Variants.Variant, cfg: Variants.Config, newId: nat, k: StockKey)
    requires Receive(rma, o, adjustments, stock, variantOf, cfg, newId).Some?
    requires k in stock && |stock[k].backordered| > 0
    requires k.1 == rma.stockLocation && Tracks(variantOf, cfg, k.0) && CountHeld(o.units, rma.id, k.0) > 0
    ensures var item := Receive(rma, o, adjustments, stock, variantOf, cfg, newId).value.stock[k];
            item.countOnHand == stock[k].countOnHand + CountHeld(o.units, rma.id, k.0)
            && item.backordered == stock[k].backordered[Min(CountHeld(o.units, rma.id, k.0), |stock[k].backordered|)..]
  {
    var n := CountHeld(o.units, rma.id, k.0);
    var change := StockItems.Adjust(stock[k], n);
    assert change.filled + change.item.backordered == stock[k].backordered;
    assert |change.filled| == Min(n, |stock[k].backordered|);
    assert change.item.backordered == stock[k].backordered[|change.filled|..];
  }
}

=== FILE: shipment.dfy ===
/** A shipment: the state it is put in on every update, its cost
    arithmetic, the amounts refreshed from the selected shipping rate and
    its adjustments, and the refresh of its shipping rates through the
    estimator. The order is seen through the three questions the shipment
    asks of it. */
module Shipments {
  import opened Common
  import opened Adjustments
  import Estimator
  import ItemAdjustments

  datatype ShipmentState = Pending | Ready | Shipped | CanceledShipment

  datatype InventoryUnit = InventoryUnit(id: nat, backordered: bool)

  /** What the shipment asks of its order. `paid` is also true when the
      order has a credit owed. */
  datatype OrderView = OrderView(canceled: bool, canShip: bool, paid: bool)

  datatype Shipment = Shipment(
    state: ShipmentState,
    units: seq<InventoryUnit>,
    cost: int,
    promoTotal: int,
    includedTaxTotal: int,
    additionalTaxTotal: int,
    adjustmentTotal: int,
    adjustments: seq<Adjustment>,
    rates: seq<Estimator.ShippingRate>)

  // ---------------------------------------------------------------------
  // State

  /** `backordered?`: some inventory unit is backordered. */
  function AnyBackordered(units: seq<InventoryUnit>): (r: bool)
    ensures r <==> exists i :: 0 <= i < |units| && units[i].backordered
  {
    if |units| == 0 then false
    else if units[0].backordered then true
    else
      assert forall i :: 1 <= i < |units| ==> units[i] == units[1..][i - 1];
      AnyBackordered(units[1..])
  }

  /** `determine_state(order)`: canceled with the order; pending while the
      order cannot ship or a unit waits in backorder; a shipped shipment
      stays shipped; otherwise ready exactly when the order is paid. */
  function DetermineState(s: Shipment, o: OrderView): (r: ShipmentState)
    ensures r == CanceledShipment <==> o.canceled
    ensures r == Ready <==> !o.canceled && o.canShip && !AnyBackordered(s.units) && s.state != Shipped && o.paid
    ensures r == Shipped <==> !o.canceled && o.canShip && !AnyBackordered(s.units) && s.state == Shipped
  {
    if o.canceled then CanceledShipment
    else if !o.canShip then Pending
    else if AnyBackordered(s.units) then Pending
    else if s.state == Shipped then Shipped
    else if o.paid then Ready
    else Pending
  }

  /** The state part of `update!(order)`. */
  function UpdateState(s: Shipment, o: OrderView): (r: Shipment)
    ensures r == s.(state := r.state)
    ensures r.state == DetermineState(s, o)
  {
    s.(state := DetermineState(s, o))
  }

  /** Updating against the same order a second time changes nothing. */
  lemma UpdateStateIdempotent(s: Shipment, o: OrderView)
    ensures UpdateState(UpdateState(s, o), o) == UpdateState(s, o)
  {
  }

  /** The update examples: a shipped shipment stays shipped once the order
      can ship, whether paid or not; a backordered unit or an order that
      cannot ship gives pending; a paid order (a credit owed counts as paid)
      makes a pending shipment ready and a balance due makes a ready one
      pending. */
  lemma UpdateScenarios(s: Shipment, paid: bool)
    requires !AnyBackordered(s.units)
    ensures UpdateState(s.(state := Shipped), OrderView(false, true, paid)).state == Shipped
    ensures UpdateState(s.(units := [InventoryUnit(0, true)]), OrderView(false, true, paid)).state == Pending
    ensures UpdateState(s, OrderView(false, false, paid)).state == Pending
    ensures UpdateState(s.(state := Pending), OrderView(false, true, true)).state == Ready
    ensures UpdateState(s.(state := Ready), OrderView(false, true, false)).state == Pending
  {
    assert AnyBackordered([InventoryUnit(0, true)]);
  }

  /** `can_ready?`: a shipment can only be made ready for a paid order. */
  predicate CanReady(o: OrderView) { o.paid }

  /** A shipment that updates to ready could also have been readied. */
  lemma ReadyOnlyWhenPaid(s: Shipment, o: OrderView)
    requires DetermineState(s, o) == Ready
    ensures CanReady(o)
  {
  }

  // ---------------------------------------------------------------------
  // Cost arithmetic

  /** `discounted_cost`. */
  function DiscountedCost(s: Shipment): int { s.cost + s.promoTotal }

  /** `tax_total`. */
  function TaxTotal(s: Shipment): int { s.includedTaxTotal + s.additionalTaxTotal }

  /** `final_price`: the discounted cost plus every tax, included or not. */
  function FinalPrice(s: Shipment): int { DiscountedCost(s) + TaxTotal(s) }

  /** The price examples: cost 10 with promotion -1 is discounted to 9; a
      tax total is whichever of the two taxes is set; cost 10, promotion -2
      and included tax 1 give a final price of 9. */
  lemma PriceScenarios(s: Shipment)
    requires s.promoTotal == 0 && s.includedTaxTotal == 0 && s.additionalTaxTotal == 0
    ensures TaxTotal(s) == 0
    ensures DiscountedCost(s.(cost := 10, promoTotal := -1)) == 9
    ensures TaxTotal(s.(includedTaxTotal := 10)) == 10
    ensures TaxTotal(s.(additionalTaxTotal := 10)) == 10
    ensures FinalPrice(s.(cost := 10, promoTotal := -2, includedTaxTotal := 1)) == 9
  {
  }

  /** The final price takes the cost, the promotions and both taxes once
      each: raising any one of them by `d` raises the final price by `d`. */
  lemma FinalPriceLinear(s: Shipment, d: int)
    ensures FinalPrice(s.(cost := s.cost + d)) == FinalPrice(s) + d
    ensures FinalPrice(s.(promoTotal := s.promoTotal + d)) == FinalPrice(s) + d
    ensures FinalPrice(s.(includedTaxTotal := s.includedTaxTotal + d)) == FinalPrice(s) + d
    ensures FinalPrice(s.(additionalTaxTotal := s.additionalTaxTotal + d)) == FinalPrice(s) + d
  {
  }

  // ---------------------------------------------------------------------
  // update_amounts

  /** `selected_shipping_rate`: the first selected rate. */
  function SelectedRate(rates: seq<Estimator.ShippingRate>): (r: Option<nat>)
    ensures r.Some? ==> r.value < |rates| && rates[r.value].selected
                        && forall j :: 0 <= j < r.value ==> !rates[j].selected
    ensures r.None? <==> forall j :: 0 <= j < |rates| ==> !rates[j].selected
  {
    if |rates| == 0 then None
    else if rates[0].selected then Some(0)
    else
      var r := SelectedRate(rates[1..]);
      if r.Some? then Some(r.value + 1) else None
  }

  /** `shipping_method`: the method of the selected rate. */
  function ShippingMethodOf(rates: seq<Estimator.ShippingRate>): (r: Option<nat>)
    ensures r.Some? <==> SelectedRate(rates).Some?
    ensures r.Some? ==> r.value == rates[SelectedRate(rates).value].shippingMethod
  {
    match SelectedRate(rates)
    case None => None
    case Some(i) => Some(rates[i].shippingMethod)
  }

  /** Amounts of the adjustments not included in the price, in order. */
  function AdditionalAmounts(adjs: seq<Adjustment>): seq<int> {
    if |adjs| == 0 then []
    else (if adjs[0].included then [] else [adjs[0].amount]) + AdditionalAmounts(adjs[1..])
  }

  /** `update_amounts`: with a selected rate, the cost becomes that rate's
      cost, the additional (non-included) adjustments are updated (closed
      and source-less ones keep their amounts) and the adjustment total is
      their sum; without one nothing changes. */
  function UpdateAmounts(s: Shipment, compute: Source -> int, eligibleFor: Source -> bool): (r: Shipment)
    ensures SelectedRate(s.rates).None? ==> r == s
    ensures SelectedRate(s.rates).Some? ==>
              r.cost == s.rates[SelectedRate(s.rates).value].cost
              && r.adjustmentTotal == Sum(AdditionalAmounts(r.adjustments))
              && |r.adjustments| == |s.adjustments|
              && (forall i :: 0 <= i < |s.adjustments| && s.adjustments[i].included ==> r.adjustments[i] == s.adjustments[i])
              && (forall i :: 0 <= i < |s.adjustments| && !s.adjustments[i].included ==>
                    r.adjustments[i] == Update(s.adjustments[i], compute, eligibleFor))
              && r == s.(cost := r.cost, adjustmentTotal := r.adjustmentTotal, adjustments := r.adjustments)
  {
    match SelectedRate(s.rates)
    case None => s
    case Some(i) =>
      var adjs := seq(|s.adjustments|, k requires 0 <= k < |s.adjustments| =>
                    if s.adjustments[k].included then s.adjustments[k] else Update(s.adjustments[k], compute, eligibleFor));
      s.(cost := s.rates[i].cost, adjustments := adjs, adjustmentTotal := Sum(AdditionalAmounts(adjs)))
  }

  lemma {:induction false} AdditionalAmountsAppend(xs: seq<Adjustment>, ys: seq<Adjustment>)
    ensures AdditionalAmounts(xs + ys) == AdditionalAmounts(xs) + AdditionalAmounts(ys)
    decreases |xs|
  {
    if |xs| == 0 {
      assert xs + ys == ys;
    } else {
      assert (xs + ys)[1..] == xs[1..] + ys;
      AdditionalAmountsAppend(xs[1..], ys);
    }
  }

  /** Updating the amounts a second time changes nothing: the rate and the
      calculators are the same, and an adjustment updated once is updated
      for good. */
  lemma UpdateAmountsIdempotent(s: Shipment, compute: Source -> int, eligibleFor: Source -> bool)
    ensures UpdateAmounts(UpdateAmounts(s, compute, eligibleFor), compute, eligibleFor)
            == UpdateAmounts(s, compute, eligibleFor)
  {
    var once := UpdateAmounts(s, compute, eligibleFor);
    if SelectedRate(s.rates).Some? {
      var twice := UpdateAmounts(once, compute, eligibleFor);
      forall i | 0 <= i < |s.adjustments|
        ensures twice.adjustments[i] == once.adjustments[i]
      {
        UpdateIdempotent(s.adjustments[i], compute, eligibleFor);
      }
      assert twice.adjustments == once.adjustments;
    }
  }

  /** When every additional adjustment is closed or has no source (a
      manual adjustment), updating the amounts keeps every adjustment as it
      is, and the adjustment total is the sum of their stored amounts,
      whatever the calculators say. */
  lemma UpdateAmountsKeepsFrozen(s: Shipment, compute: Source -> int, eligibleFor: Source -> bool)
    requires SelectedRate(s.rates).Some?
    requires forall i :: 0 <= i < |s.adjustments| && !s.adjustments[i].included ==>
               s.adjustments[i].closed || s.adjustments[i].source.NoSource?
    ensures UpdateAmounts(s, compute, eligibleFor).adjustments == s.adjustments
    ensures UpdateAmounts(s, compute, eligibleFor).adjustmentTotal == Sum(AdditionalAmounts(s.adjustments))
  {
    var r := UpdateAmounts(s, compute, eligibleFor);
    assert forall i :: 0 <= i < |s.adjustments| ==> r.adjustments[i] == s.adjustments[i];
  }

  /** Adding a closed adjustment of 5 counts it in the adjustment total when
      it is additional and not when it is included; a manual (source-less)
      open adjustment of 5 keeps its amount. */
  lemma UpdateAmountsScenarios(s: Shipment, compute: Source -> int, eligibleFor: Source -> bool, a: Adjustment)
    requires s.rates == [Estimator.ShippingRate(1, 5, true, None)] && s.adjustments == []
    requires a.closed && a.amount == 5
    ensures UpdateAmounts(s, compute, eligibleFor).cost == 5
    ensures UpdateAmounts(s.(adjustments := [a.(included := false)]), compute, eligibleFor).adjustmentTotal == 5
    ensures UpdateAmounts(s.(adjustments := [a.(included := true)]), compute, eligibleFor).adjustmentTotal == 0
    ensures UpdateAmounts(s.(adjustments := [a.(closed := false, source := NoSource, included := false)]),
                          compute, eligibleFor).adjustmentTotal == 5
  {
    assert SelectedRate(s.rates) == Some(0);
    var a1 := a.(included := false);
    var a2 := a.(included := true);
    var a3 := a.(closed := false, source := NoSource, included := false);
    assert AdditionalAmounts([a1]) == [5] && AdditionalAmounts([a3]) == [5];
    assert Sum([5]) == Sum([]) + 5;
    assert AdditionalAmounts([a2]) == [];
    UpdateAmountsKeepsFrozen(s.(adjustments := [a1]), compute, eligibleFor);
    UpdateAmountsKeepsFrozen(s.(adjustments := [a2]), compute, eligibleFor);
    UpdateAmountsKeepsFrozen(s.(adjustments := [a3]), compute, eligibleFor);
  }

  /** A shipment whose totals were written by `update_adjustments`: the
      discounted cost is the cost plus the best eligible promotion (never
      more than the cost plus any eligible promotion, and the cost itself
      with none), and the final price adds the included tax on top of the
      adjustment total. */
  lemma PricesOfUpdatedTotals(s: Shipment, adjs: seq<Adjustment>, promoCalc: Source -> int,
                              promoEligible: Source -> bool, taxCalc: (Source, int) -> int)
    ensures var u := ItemAdjustments.UpdateAdjustments(adjs, promoCalc, promoEligible, taxCalc);
            var t := u.1;
            var s' := s.(promoTotal := t.promoTotal, includedTaxTotal := t.includedTaxTotal,
                         additionalTaxTotal := t.additionalTaxTotal, adjustmentTotal := t.adjustmentTotal);
            && FinalPrice(s') == s.cost + s'.adjustmentTotal + ItemAdjustments.SumWhere(u.0, ItemAdjustments.IncludedTax)
            && (forall k :: 0 <= k < |u.0| && ItemAdjustments.Competing(u.0[k]) ==> DiscountedCost(s') <= s.cost + u.0[k].amount)
            && ((forall k :: 0 <= k < |u.0| ==> !ItemAdjustments.Competing(u.0[k])) ==> DiscountedCost(s') == s.cost)
  {
  }

  // ---------------------------------------------------------------------
  // refresh_rates

  /** `selected_shipping_rate_id=`: the first rate of method `m` becomes
      the only selected rate; without such a rate the rates are kept. */
  function Reselect(rates: seq<Estimator.ShippingRate>, m: nat): (r: seq<Estimator.ShippingRate>)
    ensures |r| == |rates|
    ensures forall i :: 0 <= i < |r| ==> r[i] == rates[i].(selected := r[i].selected)
    ensures (forall i :: 0 <= i < |rates| ==> rates[i].shippingMethod != m) ==> r == rates
    ensures (exists i :: 0 <= i < |rates| && rates[i].shippingMethod == m) ==>
              exists i :: 0 <= i < |r| && r[i].shippingMethod == m
                && (forall j :: 0 <= j < i ==> r[j].shippingMethod != m)
                && forall j :: 0 <= j < |r| ==> (r[j].selected <==> j == i)
  {
    match FirstOf(rates, m)
    case None => rates
    case Some(i) => seq(|rates|, j requires 0 <= j < |rates| => rates[j].(selected := j == i))
  }

  /** The index of the first rate of method `m`. */
  function FirstOf(rates: seq<Estimator.ShippingRate>, m: nat): (r: Option<nat>)
    ensures r.Some? ==> r.value < |rates| && rates[r.value].shippingMethod == m
                        && forall j :: 0 <= j < r.value ==> rates[j].shippingMethod != m
    ensures r.None? <==> forall j :: 0 <= j < |rates| ==> rates[j].shippingMethod != m
  {
    if |rates| == 0 then None
    else if rates[0].shippingMethod == m then Some(0)
    else
      var r := FirstOf(rates[1..], m);
      if r.Some? then Some(r.value + 1) else None
  }

  /** `refresh_rates`: a shipped shipment keeps and returns its rates; one
      that cannot get rates (no ship address) returns none and is left
      alone; otherwise the estimator's rates replace the old ones and the
      previously chosen method, when the estimator offers it again, stays
      selected. */
  function RefreshRates(s: Shipment, canGetRates: bool, ms: seq<Estimator.ShippingMethod>,
                        taxRates: seq<Estimator.TaxRate>, ctx: Estimator.OrderContext): (r: (Shipment, seq<Estimator.ShippingRate>))
    ensures s.state == Shipped ==> r == (s, s.rates)
    ensures s.state != Shipped && !canGetRates ==> r == (s, [])
    ensures s.state != Shipped && canGetRates ==> r.0 == s.(rates := r.1)
  {
    if s.state == Shipped then (s, s.rates)
    else if !canGetRates then (s, [])
    else
      var rates := Rerate(s.rates, Estimator.ShippingRates(ms, taxRates, ctx).rates);
      (s.(rates := rates), rates)
  }

  /** The estimator's rates with the method of the `previous` rates, when
      there was one, selected again. */
  function Rerate(previous: seq<Estimator.ShippingRate>, offered: seq<Estimator.ShippingRate>): seq<Estimator.ShippingRate> {
    var m := ShippingMethodOf(previous);
    if m.None? then offered else Reselect(offered, m.value)
  }

  /** Re-rating offered rates with one selected rate keeps the rates, up
      to the selection, and leaves a selected rate. */
  lemma RerateSelectsOne(previous: seq<Estimator.ShippingRate>, offered: seq<Estimator.ShippingRate>)
    requires Estimator.SelectedCount(offered) == if |offered| > 0 then 1 else 0
    ensures var rates := Rerate(previous, offered);
            |rates| == |offered|
            && (forall i :: 0 <= i < |rates| ==> rates[i] == offered[i].(selected := rates[i].selected))
            && (|rates| > 0 ==> SelectedRate(rates).Some?)
  {
    var m := ShippingMethodOf(previous);
    if m.Some? && exists i :: 0 <= i < |offered| && offered[i].shippingMethod == m.value {
      ReselectSelectsMethod(offered, m.value);
    } else if |offered| > 0 {
      OneSelectedIsFound(offered);
    }
  }

  /** After a refresh that reaches the estimator exactly one rate is
      selected whenever there is any rate, and it is one the estimator
      offered. */
  lemma RefreshSelectsOne(s: Shipment, ms: seq<Estimator.ShippingMethod>,
                          taxRates: seq<Estimator.TaxRate>, ctx: Estimator.OrderContext)
    requires s.state != Shipped
    ensures var rates := RefreshRates(s, true, ms, taxRates, ctx).1;
            var offered := Estimator.ShippingRates(ms, taxRates, ctx).rates;
            |rates| == |offered|
            && (forall i :: 0 <= i < |rates| ==> rates[i] == offered[i].(selected := rates[i].selected))
            && (|rates| > 0 ==> SelectedRate(rates).Some?)
  {
    var e := Estimator.ShippingRates(ms, taxRates, ctx);
    RerateSelectsOne(s.rates, e.rates);
  }

  /** A rate list with one selected rate has a selected rate to find. */
  lemma OneSelectedIsFound(rates: seq<Estimator.ShippingRate>)
    requires Estimator.SelectedCount(rates) == 1
    ensures SelectedRate(rates).Some?
  {
    if SelectedRate(rates).None? {
      Estimator.NoneSelected(rates);
    }
  }

  /** Reselecting a method that is among the rates makes it the selected
      method. */
  lemma ReselectSelectsMethod(rates: seq<Estimator.ShippingRate>, m: nat)
    requires exists i :: 0 <= i < |rates| && rates[i].shippingMethod == m
    ensures ShippingMethodOf(Reselect(rates, m)) == Some(m)
  {
    var r := Reselect(rates, m);
    var i :| 0 <= i < |r| && r[i].shippingMethod == m
             && (forall j :: 0 <= j < i ==> r[j].shippingMethod != m)
             && forall j :: 0 <= j < |r| ==> (r[j].selected <==> j == i);
    assert SelectedRate(r) == Some(i);
  }

  /** A previously chosen method that the estimator offers again is still
      the shipment's method after the refresh. */
  lemma RefreshKeepsMethod(s: Shipment, ms: seq<Estimator.ShippingMethod>,
                           taxRates: seq<Estimator.TaxRate>, ctx: Estimator.OrderContext)
    requires s.state != Shipped && ShippingMethodOf(s.rates).Some?
    ensures var offered := Estimator.ShippingRates(ms, taxRates, ctx).rates;
            (exists i :: 0 <= i < |offered| && offered[i].shippingMethod == ShippingMethodOf(s.rates).value) ==>
              ShippingMethodOf(RefreshRates(s, true, ms, taxRates, ctx).0.rates) == ShippingMethodOf(s.rates)
  {
    var offered := Estimator.ShippingRates(ms, taxRates, ctx).rates;
    if exists i :: 0 <= i < |offered| && offered[i].shippingMethod == ShippingMethodOf(s.rates).value {
      ReselectSelectsMethod(offered, ShippingMethodOf(s.rates).value);
    }
  }
}

=== FILE: stock_item.dfy ===
/** A stock item: the count on hand of one variant at one stock location,
    whether it may go negative (backorderable), and the inventory units
    waiting on it in backorder, oldest first. Raising the count fills
    waiting backorders, one unit per unit of increase. */
module StockItems {

  datatype StockItem = StockItem(countOnHand: int, backorderable: bool, backordered: seq<nat>)

  /** The effect of a count change: the item after it and the backordered
      units it filled, in the order they were filled. */
  datatype Change = Change(item: StockItem, filled: seq<nat>)

  /** `available?`: stock to ship now, or allowed to backorder. */
  predicate Available(s: StockItem) {
    s.countOnHand > 0 || s.backorderable
  }

  /** `process_backorders(number)`: a positive increase fills the first
      `number` waiting units; nothing happens otherwise. */
  function ProcessBackorders(backordered: seq<nat>, number: int): (r: (seq<nat>, seq<nat>))
    ensures r.1 + r.0 == backordered
    ensures number <= 0 ==> r.1 == []
    ensures number > 0 ==> |r.1| == if number < |backordered| then number else |backordered|
  {
    if number <= 0 then (backordered, [])
    else if number >= |backordered| then
      assert backordered + [] == backordered;
      ([], backordered)
    else (backordered[number..], backordered[..number])
  }

  /** `adjust_count_on_hand(value)`: under the row lock the stored count is
      read afresh, `value` is added, and the increase fills backorders. */
  function Adjust(s: StockItem, value: int): (r: Change)
    ensures r.item.countOnHand == s.countOnHand + value
    ensures r.item.backorderable == s.backorderable
    ensures r.filled + r.item.backordered == s.backordered
    ensures value <= 0 ==> r.filled == []
    ensures value > 0 ==> |r.filled| == if value < |s.backordered| then value else |s.backordered|
  {
    var (rest, filled) := ProcessBackorders(s.backordered, value);
    Change(StockItem(s.countOnHand + value, s.backorderable, rest), filled)
  }

  /** `set_count_on_hand(value)`: the count becomes `value`; an increase
      over the old count fills backorders as an adjustment would. */
  function Set(s: StockItem, value: int): (r: Change)
    ensures r.item.countOnHand == value
    ensures r.item.backorderable == s.backorderable
    ensures r.filled + r.item.backordered == s.backordered
    ensures value <= s.countOnHand ==> r.filled == []
  {
    var (rest, filled) := ProcessBackorders(s.backordered, value - s.countOnHand);
    Change(StockItem(value, s.backorderable, rest), filled)
  }

  /** Setting the count to `count + n` is the same as adjusting it by `n`. */
  lemma SetIsAdjust(s: StockItem, n: int)
    ensures Set(s, s.countOnHand + n) == Adjust(s, n)
  {
  }

  /** Adjustments compose additively: two adjustments, even from a copy
      loaded before the first, leave the sum of both on the row, and
      together fill exactly the backorders one combined adjustment of a
      non-negative total would. */
  lemma {:induction false} AdjustComposes(s: StockItem, a: int, b: int)
    requires a >= 0 && b >= 0
    ensures var first := Adjust(s, a);
            var second := Adjust(first.item, b);
            second.item == Adjust(s, a + b).item
            && first.filled + second.filled == Adjust(s, a + b).filled
  {
    ProcessComposes(s.backordered, a, b);
  }

  /** Filling `a` and then `b` backorders fills the same units, in the
      same order, as filling `a + b` at once. */
  lemma ProcessComposes(q: seq<nat>, a: int, b: int)
    requires a >= 0 && b >= 0
    ensures var (rest1, filled1) := ProcessBackorders(q, a);
            var (rest2, filled2) := ProcessBackorders(rest1, b);
            ProcessBackorders(q, a + b) == (rest2, filled1 + filled2)
  {
    if a == 0 {
      assert [] + ProcessBackorders(q, b).1 == ProcessBackorders(q, b).1;
    } else if a >= |q| {
      if b > 0 {
        assert q + [] == q;
      }
    } else if b == 0 {
      assert q[..a] + [] == q[..a];
    } else if a + b >= |q| {
      assert q[..a] + q[a..] == q;
    } else {
      assert q[a..][b..] == q[a + b..];
      assert q[..a] + q[a..][..b] == q[..a + b];
    }
  }

  /** `reduce_count_on_hand_to_zero`: a positive count is set to zero; a
      count at or below zero is left as it is. */
  function ReduceToZero(s: StockItem): (r: Change)
    ensures s.countOnHand > 0 ==> r.item.countOnHand == 0
    ensures s.countOnHand <= 0 ==> r.item == s
    ensures r.filled == [] && r.item.backordered == s.backordered
    ensures r.item.countOnHand <= 0
  {
    if s.countOnHand > 0 then Set(s, 0) else Change(s, [])
  }

  lemma ReduceToZeroIdempotent(s: StockItem)
    ensures ReduceToZero(ReduceToZero(s).item) == Change(ReduceToZero(s).item, [])
  {
  }

  /** An item that can ship stock or backorder stays available after any
      increase, and a non-backorderable one is available exactly while its
      count is positive. */
  lemma AvailabilityAfterAdjust(s: StockItem, value: int)
    requires value >= 0
    ensures Available(s) ==> Available(Adjust(s, value).item)
    ensures !s.backorderable ==> (Available(Adjust(s, value).item) <==> s.countOnHand + value > 0)
  {
  }

  /** The regression scenarios: two units waiting at a count of -2. */
  lemma BackorderScenarios(u1: nat, u2: nat)
    ensures var s := StockItem(-2, true, [u1, u2]);
            Adjust(s, 1) == Change(StockItem(-1, true, [u2]), [u1])
            && Adjust(s, -1) == Change(StockItem(-3, true, [u1, u2]), [])
            && Adjust(s, 3) == Change(StockItem(1, true, []), [u1, u2])
            && Set(s, 1) == Change(StockItem(1, true, []), [u1, u2])
            && Set(s, -2).filled == []
  {
    var s := StockItem(-2, true, [u1, u2]);
    assert s.backordered[1..] == [u2];
    assert s.backordered[..1] == [u1];
  }
}

=== FILE: variant.dfy ===
/** Variant helpers: locale-aware price-string cleaning, the cost-price
    writer, price lookup by currency, option-value replacement, the
    inventory-tracking flag, price defaulting at validation and the position
    a new variant is given. */
module Variants {
  import opened Common

  /** The store configuration the variant consults. */
  datatype Config = Config(requireMasterPrice: bool, currency: string, trackInventoryLevels: bool)

  /** A price as stored: the amount may be missing (a price built on the
      fly has none). Amounts are in cents. */
  datatype Price = Price(variant: nat, currency: string, amount: Option<int>)

  /** An option value belongs to an option type; both are named. */
  datatype OptionValue = OptionValue(optionType: string, name: string)

  datatype Variant = Variant(
    id: nat,
    isMaster: bool,
    optionValues: seq<OptionValue>,
    prices: seq<Price>,
    price: Option<int>,
    currency: Option<string>,
    costPrice: Option<PriceInput>,
    trackInventory: bool,
    deletedAt: Option<nat>)

  /** What can be assigned to a price attribute: text typed in a form, a
      number already, or nil. */
  datatype PriceInput = Nil | Number(cents: int) | Text(text: string)

  // ---------------------------------------------------------------------
  // parse_price

  predicate IsDigit(c: char) { '0' <= c <= '9' }

  /** The characters the cleaning regular expression keeps. */
  predicate PriceLike(c: char, separator: char) {
    IsDigit(c) || c == '-' || c == separator
  }

  /** The first `gsub!`: drop every character that is not a digit, a minus
      sign or the locale's decimal separator. */
  function KeepPriceChars(s: string, separator: char): (r: string)
    ensures |r| <= |s|
    ensures forall i :: 0 <= i < |r| ==> PriceLike(r[i], separator)
    ensures (forall i :: 0 <= i < |s| ==> PriceLike(s[i], separator)) ==> r == s
  {
    if |s| == 0 then ""
    else
      var rest := KeepPriceChars(s[1..], separator);
      if PriceLike(s[0], separator) then
        assert s == [s[0]] + s[1..];
        [s[0]] + rest
      else rest
  }

  /** The second `gsub!`: the locale separator becomes `.`. */
  function ReplaceSeparator(s: string, separator: char): (r: string)
    ensures |r| == |s|
    ensures forall i :: 0 <= i < |s| ==> r[i] == (if s[i] == separator then '.' else s[i])
  {
    if |s| == 0 then "" else [if s[0] == separator then '.' else s[0]] + ReplaceSeparator(s[1..], separator)
  }

  /** The string `parse_price` hands to `to_d`: only digits, `-` and `.`
      remain. */
  function CleanPrice(s: string, separator: char): (r: string)
    ensures |r| <= |s|
    ensures forall i :: 0 <= i < |r| ==> IsDigit(r[i]) || r[i] == '-' || r[i] == '.'
  {
    var kept := KeepPriceChars(s, separator);
    if separator == '.' then kept else ReplaceSeparator(kept, separator)
  }

  /** `parse_price` up to the decimal conversion: anything but a string is
      returned unchanged. */
  function ParsePrice(p: PriceInput, separator: char): (r: PriceInput)
    ensures !p.Text? ==> r == p
    ensures p.Text? ==> r.Text? && r.text == CleanPrice(p.text, separator)
  {
    match p
    case Text(s) => Text(CleanPrice(s, separator))
    case _ => p
  }

  /** The digits of a string, in order. */
  function Digits(s: string): string {
    if |s| == 0 then "" else (if IsDigit(s[0]) then [s[0]] else "") + Digits(s[1..])
  }

  lemma {:induction false} KeepPriceCharsDigits(s: string, separator: char)
    ensures Digits(KeepPriceChars(s, separator)) == Digits(s)
    decreases |s|
  {
    if |s| > 0 {
      KeepPriceCharsDigits(s[1..], separator);
      var rest := KeepPriceChars(s[1..], separator);
      if PriceLike(s[0], separator) {
        assert ([s[0]] + rest)[1..] == rest;
      }
    }
  }

  lemma {:induction false} ReplaceSeparatorDigits(s: string, separator: char)
    requires !IsDigit(separator)
    ensures Digits(ReplaceSeparator(s, separator)) == Digits(s)
    decreases |s|
  {
    if |s| > 0 {
      ReplaceSeparatorDigits(s[1..], separator);
      var r := ReplaceSeparator(s, separator);
      assert r[1..] == ReplaceSeparator(s[1..], separator);
    }
  }

  /** What cleaning makes of one character: the separator becomes `.`,
      a digit or `-` is kept, anything else is dropped. */
  function CleanChar(c: char, separator: char): string {
    if c == separator then "." else if IsDigit(c) || c == '-' then [c] else ""
  }

  /** The first `gsub!` is the order-preserving filter by `PriceLike`: it
      works character by character (it distributes over concatenation) and
      keeps exactly the price-like characters. */
  lemma {:induction false} KeepPriceCharsFilter(a: string, b: string, c: char, separator: char)
    ensures KeepPriceChars(a + b, separator) == KeepPriceChars(a, separator) + KeepPriceChars(b, separator)
    ensures KeepPriceChars([c], separator) == if PriceLike(c, separator) then [c] else ""
    decreases |a|
  {
    assert [c][1..] == "";
    if |a| == 0 {
      assert a + b == b;
    } else {
      assert (a + b)[0] == a[0] && (a + b)[1..] == a[1..] + b;
      KeepPriceCharsFilter(a[1..], b, c, separator);
    }
  }

  lemma {:induction false} ReplaceSeparatorAppend(a: string, b: string, separator: char)
    ensures ReplaceSeparator(a + b, separator) == ReplaceSeparator(a, separator) + ReplaceSeparator(b, separator)
    decreases |a|
  {
    if |a| == 0 {
      assert a + b == b;
    } else {
      assert (a + b)[0] == a[0] && (a + b)[1..] == a[1..] + b;
      ReplaceSeparatorAppend(a[1..], b, separator);
    }
  }

  /** `parse_price`'s cleaning, character by character: it distributes over
      concatenation, and each character becomes what `CleanChar` says, so
      every digit, every `-` and every separator survives, in order, with
      the separator turned into `.`. */
  lemma CleanPriceByChar(a: string, b: string, c: char, separator: char)
    ensures CleanPrice(a + b, separator) == CleanPrice(a, separator) + CleanPrice(b, separator)
    ensures CleanPrice([c], separator) == CleanChar(c, separator)
  {
    KeepPriceCharsFilter(a, b, c, separator);
    if separator != '.' {
      ReplaceSeparatorAppend(KeepPriceChars(a, separator), KeepPriceChars(b, separator), separator);
    }
    if PriceLike(c, separator) {
      assert ReplaceSeparator([c], separator) == [if c == separator then '.' else c];
    }
  }

  /** Cleaning never loses or reorders a digit, whatever the separator (as
      long as the separator is not itself a digit). */
  lemma CleanPriceKeepsDigits(s: string, separator: char)
    requires !IsDigit(separator)
    ensures Digits(CleanPrice(s, separator)) == Digits(s)
  {
    KeepPriceCharsDigits(s, separator);
    if separator != '.' {
      ReplaceSeparatorDigits(KeepPriceChars(s, separator), separator);
    }
  }

  /** A cleaned price is a fixed point: cleaning it again with the `.`
      separator changes nothing. */
  lemma CleanPriceIdempotent(s: string, separator: char)
    ensures CleanPrice(CleanPrice(s, separator), '.') == CleanPrice(s, separator)
  {
  }

  /** `present?` on a price input. */
  predicate Present(p: PriceInput) {
    match p
    case Nil => false
    case Number(_) => true
    case Text(s) => !IsBlank(s)
  }

  /** `cost_price=`: blank input leaves the stored cost alone; anything
      else is stored parsed. */
  function AssignCostPrice(v: Variant, p: PriceInput, separator: char): (r: Variant)
    ensures !Present(p) ==> r == v
    ensures Present(p) ==> r == v.(costPrice := Some(ParsePrice(p, separator)))
  {
    if Present(p) then v.(costPrice := Some(ParsePrice(p, separator))) else v
  }

  /** Assigning a blank string, however many times, never changes the cost. */
  lemma BlankCostIgnored(v: Variant, s: string, t: string, separator: char)
    requires IsBlank(s) && IsBlank(t)
    ensures AssignCostPrice(AssignCostPrice(v, Text(s), separator), Text(t), separator) == v
    ensures AssignCostPrice(v, Nil, separator) == v
  {
  }

  // ---------------------------------------------------------------------
  // price_in / amount_in

  /** `price_in(currency)`: the first price in that currency, or a new,
      amount-less price for the variant in that currency. */
  function PriceIn(v: Variant, currency: string): (r: Price)
    ensures r.currency == currency
    ensures (exists i :: 0 <= i < |v.prices| && v.prices[i].currency == currency) ==>
              exists i :: 0 <= i < |v.prices| && r == v.prices[i] &&
                forall j :: 0 <= j < i ==> v.prices[j].currency != currency
    ensures (forall i :: 0 <= i < |v.prices| ==> v.prices[i].currency != currency) ==>
              r == Price(v.id, currency, None)
  {
    FirstPriceIn(v.prices, v.id, currency)
  }

  function FirstPriceIn(prices: seq<Price>, variant: nat, currency: string): (r: Price)
    ensures r.currency == currency
    ensures (exists i :: 0 <= i < |prices| && prices[i].currency == currency) ==>
              exists i :: 0 <= i < |prices| && r == prices[i] &&
                forall j :: 0 <= j < i ==> prices[j].currency != currency
    ensures (forall i :: 0 <= i < |prices| ==> prices[i].currency != currency) ==>
              r == Price(variant, currency, None)
  {
    if |prices| == 0 then Price(variant, currency, None)
    else if prices[0].currency == currency then prices[0]
    else
      var r := FirstPriceIn(prices[1..], variant, currency);
      if exists i :: 0 <= i < |prices[1..]| && prices[1..][i].currency == currency then
        var i :| 0 <= i < |prices[1..]| && r == prices[1..][i] &&
                 forall j :: 0 <= j < i ==> prices[1..][j].currency != currency;
        assert r == prices[i + 1];
        r
      else
        r
  }

  /** `amount_in(currency)`: the amount of `price_in`, absent when the
      variant has no price in that currency. */
  function AmountIn(v: Variant, currency: string): (r: Option<int>)
    ensures (forall i :: 0 <= i < |v.prices| ==> v.prices[i].currency != currency) ==> r.None?
    ensures (exists i :: 0 <= i < |v.prices| && v.prices[i].currency == currency) ==>
              exists i :: 0 <= i < |v.prices| && v.prices[i].currency == currency && r == v.prices[i].amount
                && forall j :: 0 <= j < i ==> v.prices[j].currency != currency
  {
    PriceIn(v, currency).amount
  }

  /** Amounts are looked up by first match: a price put in front decides
      its own currency and leaves every other currency's amount alone. */
  lemma AmountInFirstMatch(v: Variant, p: Price, currency: string)
    ensures AmountIn(v.(prices := [p] + v.prices), p.currency) == p.amount
    ensures currency != p.currency ==> AmountIn(v.(prices := [p] + v.prices), currency) == AmountIn(v, currency)
  {
    var w := v.(prices := [p] + v.prices);
    assert w.prices[0] == p;
    if currency != p.currency {
      assert forall i :: 0 < i < |w.prices| ==> w.prices[i] == v.prices[i - 1];
      if exists i :: 0 <= i < |v.prices| && v.prices[i].currency == currency {
        var i :| 0 <= i < |v.prices| && v.prices[i].currency == currency;
        assert w.prices[i + 1].currency == currency;
      }
    }
  }

  // ---------------------------------------------------------------------
  // set_option_value

  /** Option values of a variant never share an option type. */
  predicate AtMostOnePerType(ovs: seq<OptionValue>) {
    forall i, j :: 0 <= i < j < |ovs| ==> ovs[i].optionType != ovs[j].optionType
  }

  /** Index of the first value of an option type, if any (`detect`). */
  function FindType(ovs: seq<OptionValue>, optName: string): (r: Option<nat>)
    ensures r.Some? ==> r.value < |ovs| && ovs[r.value].optionType == optName &&
                        forall j :: 0 <= j < r.value ==> ovs[j].optionType != optName
    ensures r.None? ==> forall j :: 0 <= j < |ovs| ==> ovs[j].optionType != optName
  {
    if |ovs| == 0 then None
    else if ovs[0].optionType == optName then Some(0)
    else match FindType(ovs[1..], optName)
         case None => None
         case Some(k) => Some(k + 1)
  }

  /** A value already held is the one `detect` finds for its type, when
      no two values share a type. */
  lemma PresentValueFound(ovs: seq<OptionValue>, optName: string, optValue: string)
    ensures OptionValue(optName, optValue) in ovs && AtMostOnePerType(ovs) ==>
              FindType(ovs, optName).Some? && ovs[FindType(ovs, optName).value].name == optValue
  {
    if OptionValue(optName, optValue) in ovs && AtMostOnePerType(ovs) {
      var i :| 0 <= i < |ovs| && ovs[i] == OptionValue(optName, optValue);
      var k := FindType(ovs, optName).value;
      assert k == i;
    }
  }

  function RemoveAt(ovs: seq<OptionValue>, k: nat): (r: seq<OptionValue>)
    requires k < |ovs|
    ensures |r| == |ovs| - 1
    ensures forall j :: 0 <= j < k ==> r[j] == ovs[j]
    ensures forall j :: k <= j < |r| ==> r[j] == ovs[j + 1]
  {
    ovs[..k] + ovs[k + 1..]
  }

  /** `set_option_value(name, value)`. Returns the variant and the product's
      option types. Only when the variant has no value of the option type is
      the type added to the product (when missing there); replacing a value
      leaves the product's option types alone. */
  function SetOptionValue(v: Variant, productTypes: seq<string>, optName: string, optValue: string)
    : (r: (Variant, seq<string>))
    ensures v.isMaster ==> r == (v, productTypes)
    ensures !v.isMaster ==>
              var ovs := r.0.optionValues;
              exists i :: 0 <= i < |ovs| && ovs[i] == OptionValue(optName, optValue)
    ensures !v.isMaster && (forall ov :: ov in v.optionValues ==> ov.optionType != optName) ==>
              optName in r.1 && forall t :: t in r.1 ==> t in productTypes || t == optName
    ensures (exists ov :: ov in v.optionValues && ov.optionType == optName) ==> r.1 == productTypes
    ensures r.0 == v.(optionValues := r.0.optionValues)
    ensures forall ov :: ov in v.optionValues && ov.optionType != optName ==> ov in r.0.optionValues
    ensures forall ov :: ov in r.0.optionValues ==> ov in v.optionValues || ov == OptionValue(optName, optValue)
    ensures AtMostOnePerType(v.optionValues) ==> AtMostOnePerType(r.0.optionValues)
    ensures forall t :: t in productTypes ==> t in r.1
    ensures OptionValue(optName, optValue) in v.optionValues && AtMostOnePerType(v.optionValues) ==>
              r == (v, productTypes)
  {
    PresentValueFound(v.optionValues, optName, optValue);
    if v.isMaster then (v, productTypes)
    else
      match FindType(v.optionValues, optName)
      case Some(k) =>
        if v.optionValues[k].name == optValue then (v, productTypes)
        else
          ReplaceValue(v.optionValues, k, optName, optValue);
          var ovs := RemoveAt(v.optionValues, k) + [OptionValue(optName, optValue)];
          (v.(optionValues := ovs), productTypes)
      case None =>
        AppendValue(v.optionValues, optName, optValue);
        var ovs := v.optionValues + [OptionValue(optName, optValue)];
        (v.(optionValues := ovs), productTypes + (if optName in productTypes then [] else [optName]))
  }

  /** Replacing the value at `k`, of the option type being set: the values
      of other types stay, only the new value appears, and the new list
      still holds at most one value per type. */
  lemma ReplaceValue(ovs: seq<OptionValue>, k: nat, optName: string, optValue: string)
    requires k < |ovs| && ovs[k].optionType == optName
    ensures var r := RemoveAt(ovs, k) + [OptionValue(optName, optValue)];
            && r[|r| - 1] == OptionValue(optName, optValue)
            && (forall ov :: ov in ovs && ov.optionType != optName ==> ov in r)
            && (forall ov :: ov in r ==> ov in ovs || ov == OptionValue(optName, optValue))
            && (AtMostOnePerType(ovs) ==> AtMostOnePerType(r))
  {
    var rest := RemoveAt(ovs, k);
    var r := rest + [OptionValue(optName, optValue)];
    assert forall j :: 0 <= j < |rest| ==> r[j] == rest[j];
    forall ov | ov in ovs && ov.optionType != optName ensures ov in r {
      var j :| 0 <= j < |ovs| && ovs[j] == ov;
      if j < k { assert r[j] == ov; } else { assert r[j - 1] == ov; }
    }
    forall ov | ov in r ensures ov in ovs || ov == OptionValue(optName, optValue) {
      var j :| 0 <= j < |r| && r[j] == ov;
      if j < k { assert ovs[j] == ov; } else if j < |rest| { assert ovs[j + 1] == ov; }
    }
    if AtMostOnePerType(ovs) {
      forall i, j | 0 <= i < j < |r| ensures r[i].optionType != r[j].optionType {
        var i' := if i < k then i else i + 1;
        assert r[i] == ovs[i'] && i' != k;
        if j < |rest| {
          var j' := if j < k then j else j + 1;
          assert r[j] == ovs[j'] && i' < j';
        } else {
          assert r[i].optionType != ovs[k].optionType by {
            if i' < k { assert ovs[i'].optionType != ovs[k].optionType; }
            else { assert ovs[k].optionType != ovs[i'].optionType; }
          }
        }
      }
    }
  }

  /** Appending a value of an option type the variant has none of. */
  lemma AppendValue(ovs: seq<OptionValue>, optName: string, optValue: string)
    requires forall j :: 0 <= j < |ovs| ==> ovs[j].optionType != optName
    ensures var r := ovs + [OptionValue(optName, optValue)];
            && r[|r| - 1] == OptionValue(optName, optValue)
            && (forall ov :: ov in r ==> ov in ovs || ov == OptionValue(optName, optValue))
            && (AtMostOnePerType(ovs) ==> AtMostOnePerType(r))
            && forall ov :: ov in ovs ==> ov in r
  {
    var r := ovs + [OptionValue(optName, optValue)];
    assert forall j :: 0 <= j < |ovs| ==> r[j] == ovs[j];
  }

  /** Setting the same option value twice is setting it once. */
  lemma SetOptionValueIdempotent(v: Variant, productTypes: seq<string>, optName: string, optValue: string)
    requires AtMostOnePerType(v.optionValues)
    ensures var once := SetOptionValue(v, productTypes, optName, optValue);
            SetOptionValue(once.0, once.1, optName, optValue) == once
  {
    var once := SetOptionValue(v, productTypes, optName, optValue);
    if !v.isMaster {
      var ovs := once.0.optionValues;
      var i :| 0 <= i < |ovs| && ovs[i] == OptionValue(optName, optValue);
      match FindType(ovs, optName)
      case Some(k) =>
        assert k == i;
      case None =>
        assert false;
    }
  }

  // ---------------------------------------------------------------------
  // Flags, validation and position

  /** `should_track_inventory?`: both the variant and the store track. */
  function ShouldTrackInventory(v: Variant, cfg: Config): (r: bool)
    ensures r <==> v.trackInventory && cfg.trackInventoryLevels
    ensures !cfg.trackInventoryLevels ==> !r
  {
    v.trackInventory && cfg.trackInventoryLevels
  }

  /** `deleted?`: the variant carries a deletion time. */
  predicate Deleted(v: Variant) { v.deletedAt.Some? }

  datatype PriceError = NoMasterVariant | MustSupplyPrice

  datatype Checked = Valid(variant: Variant) | Invalid(error: PriceError)

  /** `check_price`: a variant without a price takes the master's when the
      store requires a master price (failing without a master, or when the
      variant is the master); a variant without a currency takes the
      store's. */
  function CheckPrice(v: Variant, master: Option<Variant>, cfg: Config): (r: Checked)
    ensures r.Invalid? <==> v.price.None? && cfg.requireMasterPrice && (master.None? || master.value.id == v.id)
    ensures r.Invalid? ==> (r.error == NoMasterVariant <==> master.None?)
    ensures r.Valid? ==> r.variant.currency.Some?
    ensures r.Valid? ==> r.variant.currency == (if v.currency.None? then Some(cfg.currency) else v.currency)
    ensures r.Valid? ==>
              r.variant.price == (if v.price.None? && cfg.requireMasterPrice then master.value.price else v.price)
    ensures r.Valid? ==> r.variant.optionValues == v.optionValues && r.variant.prices == v.prices
  {
    if v.price.None? && cfg.requireMasterPrice && master.None? then Invalid(NoMasterVariant)
    else if v.price.None? && cfg.requireMasterPrice && master.value.id == v.id then Invalid(MustSupplyPrice)
    else
      var priced := if v.price.None? && cfg.requireMasterPrice then v.(price := master.value.price) else v;
      Valid(if priced.currency.None? then priced.(currency := Some(cfg.currency)) else priced)
  }

  /** Validating twice is validating once. */
  lemma CheckPriceIdempotent(v: Variant, master: Option<Variant>, cfg: Config)
    requires master.Some? ==> master.value.price.Some?
    requires CheckPrice(v, master, cfg).Valid?
    ensures CheckPrice(CheckPrice(v, master, cfg).variant, master, cfg) == CheckPrice(v, master, cfg)
  {
  }

  /** `maximum` of the positions (`nil`, read as 0, for none). */
  function MaxPosition(positions: seq<int>): (m: int)
    ensures forall i :: 0 <= i < |positions| ==> positions[i] <= m
    ensures |positions| > 0 ==> m in positions
    ensures |positions| == 0 ==> m == 0
  {
    if |positions| == 0 then 0
    else if |positions| == 1 then positions[0]
    else
      var m := MaxPosition(positions[1..]);
      assert m in positions;
      if positions[0] >= m then positions[0] else m
  }

  /** `set_position`: one past the largest sibling position. */
  function NewPosition(positions: seq<int>): (r: int)
    ensures forall i :: 0 <= i < |positions| ==> positions[i] < r
    ensures |positions| > 0 ==> r - 1 in positions
    ensures |positions| == 0 ==> r == 1
  {
    MaxPosition(positions) + 1
  }
}

=== FILE: weight_splitter.dfy ===
/** The weight splitter: a package heavier than the weight limit gives up
    contents from its front, one content at a time, until it is light enough
    or holds a single content; the removed contents form a new package, and
    the new packages are split in turn until nothing changes. A content is
    never divided: its whole quantity moves with it. The limit is a
    parameter. */
module WeightSplitter {

  /** A content item of a package: a line's variant, its unit weight and
      how many units of it the package holds. */
  datatype Content = Content(id: nat, unitWeight: nat, quantity: nat)

  type Package = seq<Content>

  function ContentWeight(c: Content): nat { c.unitWeight * c.quantity }

  /** `package.weight`: the weight of all its contents. */
  function Weight(p: Package): nat {
    if |p| == 0 then 0 else ContentWeight(p[0]) + Weight(p[1..])
  }

  /** The weight of two packages put together is the sum of their
      weights. */
  lemma {:induction false} WeightAppend(a: Package, b: Package)
    ensures Weight(a + b) == Weight(a) + Weight(b)
    decreases |a|
  {
    if |a| > 0 {
      assert (a + b)[1..] == a[1..] + b;
      WeightAppend(a[1..], b);
    } else {
      assert a + b == b;
    }
  }

  /** A package the splitter leaves alone: light enough, or one content
      (or none) that cannot be reduced further. */
  predicate Conforms(p: Package, limit: nat) {
    Weight(p) <= limit || |p| <= 1
  }

  /** `reduce(package)`: remove contents from the front while the package
      is over the limit and holds more than one content. Yields the kept
      and the removed contents. */
  function Reduce(p: Package, limit: nat): (r: (Package, Package))
    ensures r.1 + r.0 == p
    ensures Conforms(r.0, limit)
    ensures |p| > 0 ==> |r.0| > 0
    ensures r.1 == [] <==> Conforms(p, limit)
  {
    if Conforms(p, limit) then (p, [])
    else
      var (kept, removed) := Reduce(p[1..], limit);
      assert p == [p[0]] + p[1..];
      assert ([p[0]] + removed) + kept == [p[0]] + (removed + kept);
      (kept, [p[0]] + removed)
  }

  /** One more removal step: if the package does not conform, and no
      suffix of its tail that was removed conforms, then neither does any
      of its own suffixes up to one more. */
  lemma RemovedSuffixes(p: Package, removed: Package, limit: nat)
    requires |removed| < |p| && !Conforms(p, limit)
    requires forall k :: 0 <= k < |removed| ==> !Conforms(p[1..][k..], limit)
    ensures forall k :: 0 <= k < |removed| + 1 ==> !Conforms(p[k..], limit)
  {
    forall k | 1 <= k < |removed| + 1
      ensures !Conforms(p[k..], limit)
    {
      assert p[k..] == p[1..][k - 1..];
    }
  }

  /** Removal stops at the first conforming suffix: no package left after
      removing fewer contents than were removed conforms. */
  lemma {:induction false} ReduceStopsFirst(p: Package, limit: nat)
    ensures var r := Reduce(p, limit);
            forall k :: 0 <= k < |r.1| ==> !Conforms(p[k..], limit)
    decreases |p|
  {
    if !Conforms(p, limit) {
      ReduceStopsFirst(p[1..], limit);
      RemovedSuffixes(p, Reduce(p[1..], limit).1, limit);
    }
  }

  /** Reducing moves weight out of the package and loses none: the kept
      and the removed parts weigh what the package did. */
  lemma ReduceKeepsWeight(p: Package, limit: nat)
    ensures var r := Reduce(p, limit);
            Weight(r.0) + Weight(r.1) == Weight(p) && Weight(r.0) <= Weight(p)
  {
    var r := Reduce(p, limit);
    WeightAppend(r.1, r.0);
  }

  /** All the contents of a list of packages, in order. */
  function Flatten(ps: seq<Package>): seq<Content> {
    if |ps| == 0 then [] else ps[0] + Flatten(ps[1..])
  }

  lemma {:induction false} FlattenAppend(a: seq<Package>, b: seq<Package>)
    ensures Flatten(a + b) == Flatten(a) + Flatten(b)
    decreases |a|
  {
    if |a| == 0 {
      assert a + b == b;
    } else {
      assert (a + b)[1..] == a[1..] + b;
      FlattenAppend(a[1..], b);
    }
  }

  /** One pass over the packages: each is reduced in place, and the
      non-empty removals become new packages, in package order. */
  function Pass(ps: seq<Package>, limit: nat): (r: (seq<Package>, seq<Package>))
    ensures |r.0| == |ps|
    ensures forall i :: 0 <= i < |r.0| ==> Conforms(r.0[i], limit)
    ensures forall i :: 0 <= i < |r.1| ==> |r.1[i]| > 0
  {
    if |ps| == 0 then ([], [])
    else
      var (kept, removed) := Reduce(ps[0], limit);
      var (rest, generated) := Pass(ps[1..], limit);
      var gen := if removed == [] then generated else [removed] + generated;
      assert removed != [] ==> gen[1..] == generated;
      ([kept] + rest, gen)
  }

  /** A pass loses and invents no content, and every generated package
      left at least one content behind in the package it came from. */
  lemma {:induction false} PassContents(ps: seq<Package>, limit: nat)
    ensures var r := Pass(ps, limit);
            multiset(Flatten(r.0)) + multiset(Flatten(r.1)) == multiset(Flatten(ps))
            && |Flatten(r.0)| >= |r.1|
    decreases |ps|
  {
    if |ps| > 0 {
      var (kept, removed) := Reduce(ps[0], limit);
      var (rest, generated) := Pass(ps[1..], limit);
      PassContents(ps[1..], limit);
      var r := Pass(ps, limit);
      assert r.0[1..] == rest;
      assert Flatten(r.0) == kept + Flatten(rest);
      if removed == [] {
        assert r.1 == generated;
      } else {
        assert r.1[1..] == generated;
        assert Flatten(r.1) == removed + Flatten(generated);
      }
      assert multiset(ps[0]) == multiset(removed) + multiset(kept) by {
        assert ps[0] == removed + kept;
      }
    }
  }

  /** A pass over packages that all conform changes nothing and generates
      nothing. */
  lemma {:induction false} PassFixed(ps: seq<Package>, limit: nat)
    ensures (forall i :: 0 <= i < |ps| ==> Conforms(ps[i], limit)) ==> Pass(ps, limit) == (ps, [])
    decreases |ps|
  {
    if |ps| > 0 && forall i :: 0 <= i < |ps| ==> Conforms(ps[i], limit) {
      PassFixed(ps[1..], limit);
      assert [ps[0]] + ps[1..] == ps;
    }
  }

  /** A pass over non-empty packages keeps every package non-empty. */
  lemma {:induction false} PassNonEmpty(ps: seq<Package>, limit: nat)
    ensures (forall i :: 0 <= i < |ps| ==> |ps[i]| > 0) ==> forall i :: 0 <= i < |ps| ==> |Pass(ps, limit).0[i]| > 0
    decreases |ps|
  {
    if |ps| > 0 && forall i :: 0 <= i < |ps| ==> |ps[i]| > 0 {
      PassNonEmpty(ps[1..], limit);
      assert forall i :: 1 <= i < |ps| ==> Pass(ps, limit).0[i] == Pass(ps[1..], limit).0[i - 1];
    }
  }

  /** A pass that generates packages takes contents out of the packages
      it was given, so fewer contents are left to split. */
  lemma PassShrinks(ps: seq<Package>, limit: nat)
    ensures Pass(ps, limit).1 != [] ==> |Flatten(Pass(ps, limit).1)| < |Flatten(ps)|
  {
    var r := Pass(ps, limit);
    PassContents(ps, limit);
    assert |multiset(Flatten(r.0))| + |multiset(Flatten(r.1))| == |multiset(Flatten(ps))|;
  }

  /** `split(packages)`: a pass, then the generated packages are split in
      turn; the kept packages come first. */
  function Split(ps: seq<Package>, limit: nat): (r: seq<Package>)
    ensures forall i :: 0 <= i < |r| ==> Conforms(r[i], limit)
    ensures multiset(Flatten(r)) == multiset(Flatten(ps))
    decreases |Flatten(ps)|
  {
    var pass := Pass(ps, limit);
    PassContents(ps, limit);
    PassShrinks(ps, limit);
    if pass.1 == [] then
      pass.0
    else
      var more := Split(pass.1, limit);
      FlattenAppend(pass.0, more);
      pass.0 + more
  }

  /** Packages that all conform are returned as they are. */
  lemma SplitFixed(ps: seq<Package>, limit: nat)
    requires forall i :: 0 <= i < |ps| ==> Conforms(ps[i], limit)
    ensures Split(ps, limit) == ps
  {
    PassFixed(ps, limit);
  }

  /** Splitting non-empty packages yields only non-empty packages. */
  lemma {:induction false} SplitNonEmpty(ps: seq<Package>, limit: nat)
    requires forall i :: 0 <= i < |ps| ==> |ps[i]| > 0
    ensures forall i :: 0 <= i < |Split(ps, limit)| ==> |Split(ps, limit)[i]| > 0
    decreases |Flatten(ps)|
  {
    var pass := Pass(ps, limit);
    PassNonEmpty(ps, limit);
    PassShrinks(ps, limit);
    if pass.1 != [] {
      SplitNonEmpty(pass.1, limit);
    }
  }

  /** A package list without an empty package has no more packages than
      contents. */
  lemma {:induction false} PackagesAtMostContents(ps: seq<Package>)
    requires forall i :: 0 <= i < |ps| ==> |ps[i]| > 0
    ensures |ps| <= |Flatten(ps)|
    decreases |ps|
  {
    if |ps| > 0 {
      PackagesAtMostContents(ps[1..]);
    }
  }

  /** Splitting never yields more packages than there are contents, when no
      package starts out empty. */
  lemma SplitCountBound(ps: seq<Package>, limit: nat)
    requires forall i :: 0 <= i < |ps| ==> |ps[i]| > 0
    ensures |Split(ps, limit)| <= |Flatten(ps)|
  {
    var r := Split(ps, limit);
    SplitNonEmpty(ps, limit);
    PackagesAtMostContents(r);
    assert |Flatten(r)| == |multiset(Flatten(r))| == |multiset(Flatten(ps))| == |Flatten(ps)|;
  }

  /** Splitting is a fixed point: splitting again changes nothing. */
  lemma SplitIdempotent(ps: seq<Package>, limit: nat)
    ensures Split(Split(ps, limit), limit) == Split(ps, limit)
  {
    SplitFixed(Split(ps, limit), limit);
  }

  // ---------------------------------------------------------------------
  // Scenarios

  /** Four contents of one unit weighing 100 each, under a limit that one
      content fits and two do not, end up as four packages. */
  lemma FourLightContents(c: Content, limit: nat)
    requires c.unitWeight == 100 && c.quantity == 1
    requires 100 <= limit < 200
    ensures |Split([[c, c, c, c]], limit)| == 4
  {
    var p4, p3, p2, p1 := [c, c, c, c], [c, c, c], [c, c], [c];
    assert p1 == [c] + [] && p2 == [c] + p1 && p3 == [c] + p2 && p4 == [c] + p3;
    assert ContentWeight(c) == 100;
    WeightCons(c, []);
    WeightCons(c, p1);
    WeightCons(c, p2);
    ReduceFront(c, p1, limit);
    ReduceFront(c, p2, limit);
    ReduceFront(c, p3, limit);
    assert p1 == [c] + [] && p2 == [c] + p1 && p3 == [c] + p2 && p4 == [c] + p3;
    assert Reduce(p1, limit) == (p1, []);
    assert Reduce(p2, limit) == (p1, p1);
    assert Reduce(p3, limit) == (p1, p2);
    assert Reduce(p4, limit) == (p1, p3);
    SplitOne(p1, limit, p1, []);
    SplitOne(p2, limit, p1, p1);
    SplitOne(p3, limit, p1, p2);
    SplitOne(p4, limit, p1, p3);
  }

  /** Splitting a single package: what was kept, then the split of what
      was removed. */
  lemma SplitOne(p: Package, limit: nat, kept: Package, removed: Package)
    requires Reduce(p, limit) == (kept, removed)
    ensures Split([p], limit) == [kept] + (if removed == [] then [] else Split([removed], limit))
  {
    PassOne(p, limit, kept, removed);
    if removed == [] {
      assert [kept] + [] == [kept];
    }
  }

  /** A content too heavy to share a package with another is removed from
      the front, and the rest is reduced on its own. */
  lemma ReduceFront(c: Content, rest: Package, limit: nat)
    requires |rest| > 0 && ContentWeight(c) + Weight(rest) > limit
    ensures Reduce([c] + rest, limit) == (Reduce(rest, limit).0, [c] + Reduce(rest, limit).1)
  {
    WeightCons(c, rest);
    assert ([c] + rest)[1..] == rest;
  }

  lemma WeightCons(c: Content, rest: Package)
    ensures Weight([c] + rest) == ContentWeight(c) + Weight(rest)
  {
    assert ([c] + rest)[1..] == rest;
  }

  /** A pass over a single package. */
  lemma PassOne(p: Package, limit: nat, kept: Package, removed: Package)
    requires Reduce(p, limit) == (kept, removed)
    ensures Pass([p], limit) == ([kept], if removed == [] then [] else [removed])
  {
    assert [p][1..] == [];
    assert [kept] + [] == [kept] && [removed] + [] == [removed];
  }

  /** Two contents too heavy for the limit even alone become two packages
      of one content each: a content is never divided by quantity. */
  lemma TwoHeavyContents(c: Content, limit: nat)
    requires c.unitWeight == 200 && c.quantity == 4
    requires limit < 800
    ensures Split([[c, c]], limit) == [[c], [c]]
  {
    var p2, p1 := [c, c], [c];
    assert ContentWeight(c) == 800;
    WeightCons(c, []);
    assert p1 == [c] + [];
    ReduceFront(c, p1, limit);
    assert p2 == [c] + p1 && p1 == [c] + [];
    assert Reduce(p1, limit) == (p1, []);
    assert Reduce(p2, limit) == (p1, p1);
    PassOne(p2, limit, p1, p1);
    PassOne(p1, limit, p1, []);
    assert Split([p1], limit) == [p1];
  }
}
